=== FILE: README.md ===
# MCP server template for Amazon Bedrock AgentCore Runtime, modelled in Dafny

This project models the core of an MCP (Model Context Protocol) server template built to run on
Amazon Bedrock AgentCore Runtime. It also proves properties of that model. The model covers:

- **Configuration** (`config.dfy`): built-in defaults; an optional YAML file that is deep-merged in;
  per-environment overrides; environment variables that take precedence; and dotted-path lookups.
- **Server start-up** (`server.dfy`): tool loading in `direct`, `openapi` or `both` mode, and the
  `/ping` health payload.
- **Direct tools** (`direct_tools.dfy`): `process_text`, `validate_data` and `transform_json`.
- **OpenAPI tools** (`openapi_tools.dfy`):
  - the base URL of a document;
  - one generated tool per operation, with its name, description and parameters (`$ref`s resolved);
  - the HTTP request a generated tool sends;
  - the operation listing.
- **Input validation** (`validation.dfy`):
  - the required-field, type and range decorators;
  - `sanitize_string`;
  - the e-mail and URL patterns, as scanners proved equal to the patterns.
- **Error handling** (`error_handling.dfy`): the `MCPError` family; the JSON error responses and
  their handlers; `log_error`'s context suffix; `safe_execute`.
- **Observability** (`observability.dfy`): the `ToolMetrics` counters and the tracing decorator.
- **Weather example tools** (`weather_tools.dfy`): current weather, forecast and comparison.
  These are evaluated over a decoded wttr.in response.
- **Deployment validator** (`validate_deployment.dfy`): the seven checks it runs against a deployed
  runtime, the counters and records it keeps, the health verdict and the report.
- **Remote test clients**:
  - `remote_client.dfy`: ARN encoding, the invocation URL and the headers;
  - `remote_iam_client.dfy`: server-sent-event parsing, result selection and tool selection.

Shared modules:

- `Wrappers`: `Option` and `Result`.
- `Text`: Python string operations: `strip` (with Python's set of whitespace characters), `split`,
  `join`, `replace`, case mapping (ASCII letters only), `str(int)` and `int(str)`.
- `Json`: JSON values. Objects are ordered lists of entries with distinct keys, as Python dicts
  keep insertion order.
- `Py`: Python operators on those values: `in`, subscripts, `.get`, iteration, truthiness,
  comparisons, `int()` and `float()`. A Python exception is a `Failure` carrying the exception's
  class.

Code that changes state is modelled as imperative Dafny:

- classes with `modifies` clauses: `Config`, `ToolLoader`, `ToolMetrics` and `DeploymentValidator`;
- methods with loop invariants for the source's loops.

Each such method is proved to return, and to leave behind, what a specification function of its
inputs and old state gives: the validator's checks state the record they log and the request they
send, and a whole run is `RunRecords` and `RunCalls` of the deployment. The properties the source
promises are proved as lemmas about those functions.

## Model

| member | source | states |
|---|---|---|
| Configuration.LoadYaml | src/config.py:41-51 | `_load_yaml` yields the document when it loaded and is truthy, `{}` when it loaded but is falsy (an empty document), and the defaults when the file is missing or is not valid YAML |
| Configuration.Walk | src/config.py:135-144 | following no segments gives the value itself; a non-empty walk succeeds only through a dict that holds the first segment |
| Configuration.WalkAppend | src/config.py:138-144 | walking a path in two parts is walking the first part and then the second from where it ended, and a missing step ends the whole walk |
| Configuration.WalkPair | src/config.py:138-142 | a `section.key` walk is the section lookup followed by the key lookup, `None` when the root is not a dict or lacks the section |
| Configuration.PathKeys | src/config.py:135 | `path.split(".")` gives at least one segment, no segment contains `.`, and joining the segments with `.` gives the path back |
| Configuration.DeepMerge | src/config.py:116-122 | the loop over the override's items, recursing into nested dicts, produces exactly the specified merge `Merged(base, override)` |
| Configuration.MergeFromKeeps | src/config.py:118-122 | override entries that do not name a key leave the base value under that key untouched |
| Configuration.MergeEntryKeeps | src/config.py:119-122 | one merge step only changes the value under its own key |
| Configuration.MergeFromAt | src/config.py:118-122 | the override entry for a key decides what the merge leaves there: the recursive merge when both sides hold dicts, otherwise the override value |
| Configuration.MergeAt | src/config.py:116-122 | after `_deep_merge`, a key absent from the override keeps its base value; a key in both with dict values holds their recursive merge; any other override value replaces the base value |
| Configuration.MergeLeafReadsBack | src/config.py:116-144 | after the merge, every path of the override that ends in a non-dict value reads back that value through `get` |
| Configuration.WithEnvironmentOverrides | src/config.py:82-88 | `_apply_environment_overrides` changes the configuration only when `environments[ENVIRONMENT.lower()]` exists |
| Configuration.UnselectedEnvironment | src/config.py:84-86 | when `environments` has no entry for the lowercased `ENVIRONMENT` (default `development`), nothing changes |
| Configuration.SelectedEnvironment | src/config.py:84-88 | when the selected environment has a dict of overrides, it is deep-merged into the configuration |
| Configuration.Assign | src/config.py:94 | `c[section][key] = v` succeeds exactly when the section exists and is a dict, and afterwards `section.key` reads `v` |
| Configuration.AssignFrame | src/config.py:93-108 | such an assignment adds no section and leaves every other section and every other `section.key` path as it was |
| Configuration.AssignTop | src/config.py:111-114 | `c[key] = v` succeeds exactly on a dict and afterwards `key` reads `v` |
| Configuration.SettersKeepOtherPaths | src/config.py:93-114 | each step of `_apply_env_vars` leaves every path but its own target as it was |
| Configuration.EnvVarsTakePrecedence | src/config.py:90-114 | when `_apply_env_vars` completes: a set, non-empty `MCP_SERVER_HOST` is the host; `MCP_SERVER_PORT` is parsed to an int and is the port; `observability.enabled` is true iff the variable lowercases to `true`; `MCP_SERVICE_NAME` is the service name; `MCP_LOG_LEVEL` uppercased is the level; `aws` always holds the region (falling back to `AWS_DEFAULT_REGION`, then `us-west-2`) and the account id |
| Configuration.BadPortRaises | src/config.py:95-96 | a port `int()` rejects makes loading raise `ValueError` |
| Configuration.TwoSegments | src/config.py:135 | a `section.key` path without inner dots splits into exactly its two segments |
| Configuration.DefaultsWithEmptyEnvironment | src/config.py:33-39 | with no YAML file and no environment variables the configuration is the built-in defaults plus an `aws` section with region `us-west-2` and no account id |
| Configuration.Config.constructor | src/config.py:33 | the configuration starts as what `_load_yaml` returned |
| Configuration.Config.Create | src/config.py:18-39 | the configuration object built from the loaded document and the environment is `Initial` of them, or the exception that building it raises |
| Configuration.Config.ApplyEnvironmentOverrides | src/config.py:82-88 | the in-place merge leaves the configuration `WithEnvironmentOverrides` specifies, or reports the exception it raises |
| Configuration.Config.SetIn | src/config.py:94 | the in-place `self._config[section][key] = v` leaves what `Assign` specifies, or reports the exception |
| Configuration.Config.ApplyEnvVars | src/config.py:90-114 | the in-place assignments, in source order, leave what `WithEnvVars` specifies, or report the first exception |
| Configuration.Config.GetPath | src/config.py:124-144 | the loop over the dotted segments returns the value reached, or the default as soon as a segment is missing or the current value is not a dict |
| Configuration.Config.GetSection | src/config.py:146-156 | `get_section` returns the section, or `{}` when absent |
| Configuration.Config.Property | src/config.py:158-161 | a property is `get("section.key", default)` |
| Configuration.EmptyConfigFallsBack | src/config.py:158-191 | with an empty configuration the properties give `0.0.0.0`, `8000`, `/mcp`, `True`, `True`, `mcp-server` and `INFO` |
| Configuration.DefaultServerAddress | src/config.py:56-58 | the defaults hold host `0.0.0.0` and port `8000` |
| Configuration.DefaultServerTransport | src/config.py:59-60 | the defaults hold `mcp_path` `/mcp` and `stateless_http` true |
| Configuration.DefaultObservability | src/config.py:70-72 | the defaults enable observability under the service name `mcp-server` |
| Configuration.DefaultLogLevel | src/config.py:74-75 | the default log level is `INFO` |
| DeploymentValidation.TestNames | deployment/validation/validate_deployment.py:49-54 | one logged name per logged record |
| DeploymentValidation.TestNamesAt | deployment/validation/validate_deployment.py:49-54 | the `i`-th logged name is the name of the `i`-th logged record |
| DeploymentValidation.CountPassed | deployment/validation/validate_deployment.py:42-44 | the passed records never outnumber the records |
| DeploymentValidation.RuntimeId | deployment/validation/validate_deployment.py:67 | `split('/')[-1]` is a suffix of the ARN that contains no `/`, and when it is shorter than the ARN a `/` comes right before it |
| DeploymentValidation.InvokeParams | deployment/validation/validate_deployment.py:468-477 | the request carries the session id and qualifier `DEFAULT` under distinct keys, and a `bearerToken` exactly when a non-empty token was given |
| DeploymentValidation.RuntimeStatusVerdict | deployment/validation/validate_deployment.py:66-98 | the status check passes exactly when the description returned has `status` `ACTIVE`; a missing status is reported as `UNKNOWN` |
| DeploymentValidation.InitVerdict | deployment/validation/validate_deployment.py:104-149 | initialisation passes exactly when the reply is an object with an object `result` whose `serverInfo`, if present, is an object; anything else fails or is caught |
| DeploymentValidation.NamesOf | deployment/validation/validate_deployment.py:166 | the names are listed one per tool, in order, `unnamed` standing in for a missing name, and a tool that is not an object raises `AttributeError` |
| DeploymentValidation.ToolsListOutcome | deployment/validation/validate_deployment.py:155-200 | discovery passes only on an object reply whose tools are non-empty and whose first three names are strings, and only a passing discovery hands names on |
| DeploymentValidation.ListedTools | deployment/validation/validate_deployment.py:165-183 | once `result.tools` is read: a pass hands on non-empty names whose first three are strings, a failure hands on none |
| DeploymentValidation.IterateLength | deployment/validation/validate_deployment.py:168 | iterating the tools yields something exactly when `if tools:` holds |
| DeploymentValidation.ToolsListAccepted | deployment/validation/validate_deployment.py:162-183 | a reply whose `result.tools` is a non-empty list of objects with string first names passes and hands on every tool's name in order |
| DeploymentValidation.ToolsListPasses | deployment/validation/validate_deployment.py:164-183 | on the path where every step succeeds the outcome is a pass counting the tools, with their names |
| DeploymentValidation.ListedToolsPass | deployment/validation/validate_deployment.py:166-183 | a non-empty list of tool objects whose first three names are strings passes |
| DeploymentValidation.FirstCandidate | deployment/validation/validate_deployment.py:215-221 | the chosen candidate is one of the candidates and is listed, and there is none exactly when no candidate is listed |
| DeploymentValidation.FirstCandidateIsFirst | deployment/validation/validate_deployment.py:218-221 | no candidate earlier in the preference order is listed |
| DeploymentValidation.TestTool | deployment/validation/validate_deployment.py:213-225 | there is a tool to test exactly when some tool is listed; it is listed; it is a candidate when any candidate is listed and the first listed tool otherwise |
| DeploymentValidation.DeploymentValidator.FindCandidate | deployment/validation/validate_deployment.py:213-221 | the loop over the candidates stops at the first one listed, which is `FirstCandidate` |
| DeploymentValidation.ToolArguments | deployment/validation/validate_deployment.py:229-235 | a tool whose lowercased name contains `add` or `calculator` gets `{"a": 5, "b": 3}`; otherwise one containing `echo` gets `{"message": "validation test"}`; any other tool gets `{}` |
| DeploymentValidation.ToolReplyVerdict | deployment/validation/validate_deployment.py:249-298 | execution passes exactly when the reply is readable as a `result` or is an error with code -32602 (Invalid params) and no `result` |
| DeploymentValidation.ErrorProbeVerdict | deployment/validation/validate_deployment.py:314-350 | the error probe passes exactly when the reply is an object with an object `error`, whatever its code; "method not found" is reported only on a pass |
| DeploymentValidation.PerformanceVerdict | deployment/validation/validate_deployment.py:369-401 | a pass needs a truthy reply in under 5000 ms; for an object reply with `result`, passing is exactly being under 5000 ms |
| DeploymentValidation.PerformanceIsLenient | deployment/validation/validate_deployment.py:371 | the performance check only uses `in`, so a list naming `result` passes it while initialisation rejects the same reply |
| DeploymentValidation.AuthReplyVerdict | deployment/validation/validate_deployment.py:423-458 | the authenticated request passes exactly when the reply holds `result`; refused credentials are reported exactly for exceptions mentioning `Unauthorized` or `403` |
| DeploymentValidation.SuccessRate | deployment/validation/validate_deployment.py:532 | the success rate is the integer 0 when nothing ran, otherwise a percentage between 0 and 100 that is 100 exactly when every check passed |
| DeploymentValidation.HealthOf | deployment/validation/validate_deployment.py:536-547 | `HEALTHY` exactly when every check passed; `MOSTLY HEALTHY` only with some failure, at least one check and `passed * 100 >= 80 * total` |
| DeploymentValidation.HealthBands | deployment/validation/validate_deployment.py:536-547 | each of the three verdicts holds exactly in its band: all passed; some failed with a rate of at least 80%; some failed with no checks or a lower rate |
| DeploymentValidation.DeploymentValidator.constructor | deployment/validation/validate_deployment.py:28-38 | a new validator has no results, zero counters and has sent nothing |
| DeploymentValidation.DeploymentValidator.LogTest | deployment/validation/validate_deployment.py:40-54 | one record appended; the total grows by one and the passed count by one exactly for a pass, so passed never exceeds total |
| DeploymentValidation.DeploymentValidator.InvokeRuntime | deployment/validation/validate_deployment.py:460-482 | the 19-character `validation-` id is always too short, so the request goes out with `validation-session-` and the second 32-digit id, at least 33 characters |
| DeploymentValidation.DeploymentValidator.TestRuntimeStatus | deployment/validation/validate_deployment.py:62-98 | describes the runtime by the id after the last `/`, logs the status verdict and returns it |
| DeploymentValidation.DeploymentValidator.TestInitialization | deployment/validation/validate_deployment.py:100-149 | sends `initialize` with id 1 in the session `validation-session-` plus the fresh id's second half, with the validator's token, then logs the initialisation verdict of the reply and returns it |
| DeploymentValidation.DeploymentValidator.TestToolsList | deployment/validation/validate_deployment.py:151-200 | sends `tools/list` with id 2 in a fresh validation session, logs the discovery verdict of the reply and returns it with the names it found |
| DeploymentValidation.DeploymentValidator.TestToolExecution | deployment/validation/validate_deployment.py:202-298 | with no names, fails without sending anything; otherwise sends one `tools/call` for the first listed candidate, else the first tool, with the arguments its name suggests, and logs and returns `ToolExecutionVerdict` of the reply |
| DeploymentValidation.DeploymentValidator.TestErrorHandling | deployment/validation/validate_deployment.py:300-350 | sends `nonexistent/method` with id 4 in a fresh validation session, logs the error-probe verdict of the reply and returns it |
| DeploymentValidation.DeploymentValidator.TestPerformance | deployment/validation/validate_deployment.py:352-401 | sends `tools/list` with id 5 in a fresh validation session, logs the timing verdict of the reply and the elapsed time and returns it |
| DeploymentValidation.DeploymentValidator.TestAuthentication | deployment/validation/validate_deployment.py:403-458 | without a non-empty token it passes without sending anything; with one it sends `tools/list` with id 6 and that token, and logs and returns the verdict of the reply |
| DeploymentValidation.DeploymentValidator.RunAllTests | deployment/validation/validate_deployment.py:484-547 | the seven checks run in order against the deployment: the records logged are `RunRecords` of it, the requests sent are `RunCalls`, and the run succeeds exactly when every earlier check passed and all seven of these did, which is exactly a `HEALTHY` status |
| DeploymentValidation.DeploymentValidator.GenerateReport | deployment/validation/validate_deployment.py:549-569 | the report carries the results, ARN, region and timestamp, says authentication was used exactly for a non-empty token, has counts that agree with the results and the success rate of those counts (0 with no tests) |
| DeploymentValidation.RunPassesIffEveryCheck | deployment/validation/validate_deployment.py:484-528 | all seven records of a run pass exactly when the runtime is ready, initialisation, discovery, tool execution, the error probe and the timing pass, and, with a token, the authenticated request does |
| DeploymentValidation.PassedAfterRun | deployment/validation/validate_deployment.py:484-528 | every record after a run passed exactly when every earlier one did and every one of the run did |
| DeploymentValidation.RunNamed | deployment/validation/validate_deployment.py:497-528 | the records of a run name the seven checks in order |
| OpenApiTools.ServersComeFirst | src/tools/openapi_tools.py:80-82 | an OpenAPI 3 document with a non-empty `servers` list uses the first server's `url`, whatever else it says |
| OpenApiTools.SwaggerDefaultsToHttps | src/tools/openapi_tools.py:85-88 | a Swagger 2 document with a string `host` and no `schemes` is served at `https://` + host + `str(basePath)`, with `basePath` defaulting to the empty string |
| OpenApiTools.FallbackUrl | src/tools/openapi_tools.py:90-91 | a document with neither truthy `servers` nor a `host` key falls back to `http://localhost:8080` |
| OpenApiTools.ExtractBaseUrl | src/tools/openapi_tools.py:70-91 | a truthy `servers` list gives its first entry's `url`; otherwise `host` with the first of `schemes` (default `https`, an empty list raises `IndexError`) and `basePath` (default empty); otherwise the local fallback |
| OpenApiTools.SwaggerUsesFirstScheme | src/tools/openapi_tools.py:85-88 | with a non-empty `schemes` list of strings, the first scheme is the URL's scheme |
| OpenApiTools.EnumerateVisitsOperations | src/tools/openapi_tools.py:109-114 | when the nested loops complete they have produced exactly one item per operation present, in path order and, within a path, in method order |
| OpenApiTools.EnumerateOperations | src/tools/openapi_tools.py:109-140 | the nested loops over paths and methods, skipping absent methods, produce what `Enumerate` specifies, stopping at the first exception |
| OpenApiTools.ToolName | src/tools/openapi_tools.py:116-120 | an `operationId` string names the tool, and without one the name is `method_` plus the path with `/` turned into `_` and braces dropped; either way `-` becomes `_`; a non-string `operationId` or a non-dict operation raises `AttributeError` |
| OpenApiTools.OperationIdNamesTool | src/tools/openapi_tools.py:117-120 | an operation whose `operationId` is a string names the tool by it with `-` turned into `_`, and one without `-` is kept as it is |
| OpenApiTools.DerivedNameShape | src/tools/openapi_tools.py:119 | the derived name starts with `method_` and the path's `/`, `{` and `}` are gone from it |
| OpenApiTools.ToolDescription | src/tools/openapi_tools.py:123-124 | a present `description` is the description, whatever it holds; else `summary`; else `METHOD path`; an operation that is not a dict raises `AttributeError` |
| OpenApiTools.Resolve | src/tools/openapi_tools.py:161-165 | a parameter is replaced only when it has a string `$ref` |
| OpenApiTools.RefResolves | src/tools/openapi_tools.py:163-165 | in any document, a reference `…/name` resolves to the component `name` under `components.parameters` |
| OpenApiTools.DanglingRefKept | src/tools/openapi_tools.py:164-165 | in any document, a reference to a name missing under `components.parameters` keeps the reference object itself |
| OpenApiTools.ResolveWithoutRefText | src/tools/openapi_tools.py:161-163 | a parameter without `$ref` is kept; a non-string `$ref` raises `AttributeError` |
| OpenApiTools.ResolveWithoutComponents | src/tools/openapi_tools.py:163-164 | a string `$ref` in a document without `components`, or whose `components` lacks `parameters`, keeps the parameter |
| OpenApiTools.ResolveByComponents | src/tools/openapi_tools.py:161-165 | with a `components.parameters` dict, a string `$ref` resolves to the entry named by its last `/` segment, or keeps the parameter when there is none |
| OpenApiTools.MapAllAt | src/tools/openapi_tools.py:159-173 | when an appending loop completes, its list holds one item per input, each built from that input, in order |
| OpenApiTools.MapAllSucceeds | src/tools/openapi_tools.py:159-173 | an appending loop completes exactly when building no input raises |
| OpenApiTools.CollectAll | src/tools/openapi_tools.py:159-173 | the appending loop yields what `MapAll` specifies |
| OpenApiTools.AppendedNothing | src/tools/openapi_tools.py:156-194 | appending nothing in front leaves a result as it is |
| OpenApiTools.AppendedTwice | src/tools/openapi_tools.py:156-194 | appending in two steps is appending the concatenation |
| OpenApiTools.ExtractParameters | src/tools/openapi_tools.py:145-194 | the two appending loops yield what `Parameters` specifies |
| OpenApiTools.ListedParametersFirst | src/tools/openapi_tools.py:159-173 | the listed parameters come first, one per entry and in order; without a JSON request body there is nothing else |
| OpenApiTools.ListedParamsBefore | src/tools/openapi_tools.py:159-173 | the listed-parameter loop builds one parameter per entry, in order, ahead of whatever is appended after it |
| OpenApiTools.BodyParametersFollow | src/tools/openapi_tools.py:176-192 | after the listed parameters comes one parameter per JSON body property, in order, each built from that property |
| OpenApiTools.BodyParamsAt | src/tools/openapi_tools.py:185-192 | the body loop builds one parameter per property, in order |
| OpenApiTools.ListedParamDefaults | src/tools/openapi_tools.py:167-173 | for any parameter without `$ref`, `required`, `schema` or `description`, the entry keeps its `name` and `in` and is optional, a string and undescribed |
| OpenApiTools.ListedParamReadsFields | src/tools/openapi_tools.py:167-173 | a parameter without `$ref` whose `schema`, if any, is a dict gives its `name`, `in`, `required` (default false), schema `type` (default `string`) and `description` (default empty) |
| OpenApiTools.BodyRequiredIffListed | src/tools/openapi_tools.py:185-192 | a body property is in the `body` location and is required exactly when the schema's `required` list names it |
| OpenApiTools.MakeTool | src/tools/openapi_tools.py:114-138 | a tool is built exactly when the name, description and parameters are; a built tool calls the given base URL and path with the upper-cased method and has that name, description and those parameters; a failure is the first of their exceptions |
| OpenApiTools.ToolBuilder | src/tools/openapi_tools.py:114-138 | the per-operation step can be applied to every operation of the five tool methods |
| OpenApiTools.GenerateTools | src/tools/openapi_tools.py:94-142 | the nested loops register what `Generated` specifies, stopping at the first exception; the count returned is the number of tools |
| OpenApiTools.RegisterOpenApiTools | src/tools/openapi_tools.py:53-67 | a given base URL is used as it is, otherwise `ExtractBaseUrl` of the document; a failure to extract it registers nothing; the tools generated are what `Generated` gives for that URL |
| OpenApiTools.ToolsMatchOperations | src/tools/openapi_tools.py:106-142 | when generation completes there is one tool per operation with method get, post, put, patch or delete, in visiting order, each built from its own operation, calling the base URL with the upper-cased method and named without `-` |
| OpenApiTools.OperationsUseMethods | src/tools/openapi_tools.py:109-112 | every visited operation's method is one of the methods looped over |
| OpenApiTools.OperationEntry | src/tools/openapi_tools.py:346-354 | an entry exists exactly for a dict operation, holds the path and the upper-cased method, and `[]` for missing tags |
| OpenApiTools.GetOperationList | src/tools/openapi_tools.py:331-356 | the listing loops over all seven methods and appends one entry per operation present, in order; an unreadable `paths` lists nothing |
| OpenApiTools.ListingMatchesOperations | src/tools/openapi_tools.py:340-354 | a listing that raises nothing has one entry per operation over the seven methods, in visiting order, each with its path and its upper-cased method, every method listed and every operation a dict |
| OpenApiTools.BuildRequest | src/tools/openapi_tools.py:226-260 | the URL is `base_url + path` with each supplied path value substituted by its `str()`, query and body hold the supplied parameters of their location, and there is no body for GET, DELETE or an empty body |
| OpenApiTools.CollectExactly | src/tools/openapi_tools.py:233-242 | the collected dict holds exactly the supplied parameters of its location, each with the value the call gave it |
| OpenApiTools.SuppliesKeyStep | src/tools/openapi_tools.py:234-236 | a parameter that does not supply a key leaves the question to the parameters after it |
| OpenApiTools.UrlWithoutPathValues | src/tools/openapi_tools.py:227-230 | with no path value supplied, the URL is the base URL followed by the path template |
| OpenApiTools.PlaceholderFilled | src/tools/openapi_tools.py:229-230 | an illustration for a template whose only `{` opens one placeholder: when its value is supplied it is replaced by the value's `str()`, whatever its type |
| OpenApiTools.PatternAtStart | src/tools/openapi_tools.py:230 | the step behind that illustration: a placeholder at the start of text with no further `{` is replaced once |
| WeatherTools.BlankIffAllSpace | src/examples/weather_tools.py:53-54 | `not location or not location.strip()` holds exactly for text made only of whitespace |
| WeatherTools.Url | src/examples/weather_tools.py:59 | the URL is `https://wttr.in/`, then the stripped location, then `?format=j1` |
| WeatherTools.UrlIgnoresSurroundingSpace | src/examples/weather_tools.py:59 | locations that differ only in surrounding whitespace request the same URL |
| WeatherTools.RequestError | src/examples/weather_tools.py:94-97 | a timeout or any other request failure becomes a `ConnectionError` |
| WeatherTools.Mapped | src/examples/weather_tools.py:98-99 | `KeyError`, `IndexError` and `ValueError` become `ValueError("Invalid response format or location not found: ...")`; any other exception propagates unchanged |
| WeatherTools.Convert | src/examples/weather_tools.py:76-88 | `int(...)` gives an int, `float(...)` a float, and an unconverted value is kept |
| WeatherTools.Build | src/examples/weather_tools.py:72-90 | a dict literal evaluates exactly when each of its values does, and then holds each key with its value, in order |
| WeatherTools.BuildRaisesFirst | src/examples/weather_tools.py:72-90 | a dict literal raises the exception of the first value that raises |
| WeatherTools.CurrentFromData | src/examples/weather_tools.py:69-90 | the result has the 3 area fields read from `nearest_area[0]` followed by the 14 condition fields read from `current_condition[0]`, each with its read value |
| WeatherTools.MissingRegionIsEmpty | src/examples/weather_tools.py:74 | an area without `region` reports the region as the empty string |
| WeatherTools.CurrentWeather | src/examples/weather_tools.py:53-99 | a blank location raises `ValueError("Location cannot be empty")`; a timeout and a request failure raise `ConnectionError` with their messages; otherwise the dict built from the response, or the mapped exception |
| WeatherTools.CurrentWeatherFetchesOnlyUrl | src/examples/weather_tools.py:53-62 | the outcome depends on the network only through the URL of the stripped location, and a blank location makes no request |
| WeatherTools.DaysUpTo | src/examples/weather_tools.py:143-164 | after the loop has seen `k` days the list holds one entry per day, in order, exactly when each of those days could be read |
| WeatherTools.DaysFailureStays | src/examples/weather_tools.py:143-164 | once a day's entry raises, the loop ends with that exception |
| WeatherTools.Forecast | src/examples/weather_tools.py:122-173 | `days` defaults to 3; blank location, then days outside 1..3, raise `ValueError` before any request; request failures raise `ConnectionError`; otherwise the forecast built from the response or the mapped exception; only `TypeError` or `AttributeError` can escape |
| WeatherTools.GetWeatherForecast | src/examples/weather_tools.py:103-173 | with `days` defaulting to 3, the loop that appends one entry per day yields exactly the `Forecast` outcome |
| WeatherTools.DefaultForecastDays | src/examples/weather_tools.py:103 | an omitted `days` reads the first three days of the response |
| WeatherTools.ForecastEntries | src/examples/weather_tools.py:136-164 | the forecast holds the header and a `forecast` list with one entry for each of the first `min(days, available)` days, in order |
| WeatherTools.ForecastFromData | src/examples/weather_tools.py:136-164 | a missing area field raises; a built forecast holds the header fields read from the nearest area, in order, then the `forecast` list |
| WeatherTools.ForecastTruncates | src/examples/weather_tools.py:143 | `weather[:days]` keeps `days` entries when more are available and all of them otherwise |
| WeatherTools.ConditionFromMidday | src/examples/weather_tools.py:152 | each entry's `condition` is the description at `hourly[4]` |
| WeatherTools.AbsDiff | src/examples/weather_tools.py:276 | `abs(a - b)` succeeds exactly on numbers and is the non-negative difference |
| WeatherTools.AbsDiffSymmetric | src/examples/weather_tools.py:276-279 | the difference does not depend on the order of the operands |
| WeatherTools.CompareFrom | src/examples/weather_tools.py:251-287 | after the first location's weather is known: any failure surfaces as `ValueError`; success holds exactly the comparison of both fetched dicts |
| WeatherTools.CompareWeather | src/examples/weather_tools.py:246-287 | blank first, then blank second location raise their own `ValueError`; every other failure is wrapped as `ValueError`; success is exactly the comparison of both locations' current weather |
| WeatherTools.LargerLocationStrict | src/examples/weather_tools.py:278-280 | location 1 is named only when its reading is strictly larger; a tie names location 2 |
| WeatherTools.DiffSymmetric | src/examples/weather_tools.py:276-279 | swapping the locations leaves each difference unchanged |
| WeatherTools.ReportComparable | src/examples/weather_tools.py:72-90 | every dict the current-weather tool builds has a location, a condition and integer temperatures and humidity |
| WeatherTools.PartsComparable | src/examples/weather_tools.py:72-81 | the area fields joined with the condition fields give those keys their values |
| WeatherTools.AreaKeys | src/examples/weather_tools.py:73-75 | the area part has exactly the keys `location`, `region`, `country` |
| WeatherTools.ConditionKeys | src/examples/weather_tools.py:76-89 | the condition part has 14 keys starting with the temperatures, condition and humidity, and the temperatures and humidity are ints |
| WeatherTools.IntReading | src/examples/weather_tools.py:76-88 | a reading converted with `int(...)` is an int |
| WeatherTools.ComparisonOfReadings | src/examples/weather_tools.py:260-282 | two comparable dicts always compare, and the `comparison` block holds absolute differences and names location 1 only when its reading is strictly larger |
| WeatherTools.Comparison | src/examples/weather_tools.py:260-282 | the comparison is built exactly when both summaries and the comparison block can be read, and holds `location_1`, `location_2` and `comparison` in that order |
| WeatherTools.SummaryBuilds | src/examples/weather_tools.py:261-274 | the per-location block can be built from a comparable dict |
| WeatherTools.BlockBuilds | src/examples/weather_tools.py:275-281 | the `comparison` block is exactly the expected block |
| WeatherTools.CompareFetched | src/examples/weather_tools.py:251-287 | when both locations' weather is fetched, the comparison succeeds with three blocks whose last is the expected comparison |
| WeatherTools.WeatherComparable | src/examples/weather_tools.py:253-257 | whatever `get_current_weather` returns can be compared |
| Validation.InputData | src/utils/validation.py:84-88 | the decorators check nothing exactly when there is no dict in first position and no keyword argument |
| Validation.FirstDictWins | src/utils/validation.py:85-86 | a dict in first position is checked even when keyword arguments are also given |
| Validation.KeywordsOtherwise | src/utils/validation.py:87-88 | without a dict in first position, the keyword arguments are checked |
| Validation.MissingFields | src/utils/validation.py:91-94 | a field is reported missing exactly when it is required and absent, and no more fields than required are reported |
| Validation.MissingFieldsAppend | src/utils/validation.py:91-94 | the missing fields keep the order of `required_fields` |
| Validation.Strings | src/utils/validation.py:99 | the `missing_fields` list holds the names, one per field, in order |
| Validation.RequireFields | src/utils/validation.py:80-102 | the call is rejected exactly when the checked input is non-empty and lacks a required field, and then `errors` is `{"missing_fields": [...]}` |
| Validation.TypeErrors | src/utils/validation.py:134-142 | the loop over `field_types` fills `type_errors` as `TypeErrorsUpTo` specifies |
| Validation.TypeErrorKeys | src/utils/validation.py:134-142 | the keys of `type_errors` are exactly the present fields whose value is not an instance of the expected type |
| Validation.ValidateType | src/utils/validation.py:123-150 | the call is rejected exactly when the checked input is non-empty and some present field has the wrong type, and then `errors` is the filled `type_errors` |
| Validation.InRange | src/utils/validation.py:186 | for numbers, the chained comparison `min_val <= value <= max_val` is inclusive at both ends |
| Validation.RangeErrors | src/utils/validation.py:182-191 | the loop over `field_ranges` fills `range_errors` as `RangeErrorsUpTo` specifies |
| Validation.RangeFailureStays | src/utils/validation.py:183-191 | an exception from a comparison ends the loop with that exception |
| Validation.RangeErrorKeys | src/utils/validation.py:183-191 | when every comparison succeeds, the keys of `range_errors` are exactly the present fields out of range |
| Validation.RangeIsInclusive | src/utils/validation.py:186 | both ends of a range are accepted and the values just outside are not |
| Validation.ValidateRange | src/utils/validation.py:171-199 | when there is input to check, a comparison's exception propagates as that very exception; otherwise the call is rejected exactly when some present field is out of range, and the rejection carries the `range_errors` dict of every out-of-range field |
| Validation.SanitizeString | src/utils/validation.py:205-226 | a non-string raises `ValidationException`; otherwise the result is the stripped text, cut to its first `max_length` characters with a positive limit, and `[:max_length]` semantics with a negative one |
| Validation.SanitizeWithoutLimitIdempotent | src/utils/validation.py:220 | without a limit, sanitising twice is sanitising once |
| Validation.SanitizeWithLimitNotIdempotent | src/utils/validation.py:223-224 | with a limit a cut can leave trailing whitespace, so a second pass changes the text |
| Validation.ScanDomainCorrect | src/utils/validation.py:240 | the domain scanner accepts exactly what `[a-zA-Z0-9.-]+\.[a-zA-Z]{2,}` matches as a whole |
| Validation.ScanDomainSound | src/utils/validation.py:240 | whatever the domain scanner accepts matches the domain pattern |
| Validation.ScanDomainComplete | src/utils/validation.py:240 | whatever matches the domain pattern is accepted by the scanner |
| Validation.ScanDomainAt | src/utils/validation.py:240 | in a matching domain the split dot is the last dot |
| Validation.ScanEmailCorrect | src/utils/validation.py:240 | the address scanner accepts exactly what the e-mail pattern matches as a whole |
| Validation.ScanEmailComplete | src/utils/validation.py:240 | whatever matches the e-mail pattern is accepted by the scanner |
| Validation.ScanEmailAt | src/utils/validation.py:240 | an address split at its first `@` into a valid local part and domain is accepted |
| Validation.DomainShapeChars | src/utils/validation.py:240 | everything the domain pattern matches is made of domain characters |
| Validation.ScanHostAndPathCorrect | src/utils/validation.py:255 | the host-and-path scanner accepts exactly what `[a-zA-Z0-9.-]+\.[a-zA-Z]{2,}(/.*)?` matches as a whole |
| Validation.ScanUrlCorrect | src/utils/validation.py:255 | the URL scanner accepts exactly what the URL pattern matches as a whole |
| Validation.ValidateEmail | src/utils/validation.py:239-241 | `validate_email` holds exactly when the pattern matches the whole text, or all of it but one final newline (Python's `$`) |
| Validation.ValidateUrl | src/utils/validation.py:254-256 | `validate_url` holds exactly when the pattern matches the whole text, or all of it but one final newline |
| Validation.EmailToleratesFinalNewline | src/utils/validation.py:240-241 | a valid address followed by a newline is still accepted |
| Validation.UrlToleratesFinalNewline | src/utils/validation.py:255-256 | a valid URL followed by a newline is still accepted |
| DirectTools.Reversed | src/tools/direct_tools.py:54 | `t[::-1]` has the same length and holds the characters in reverse order |
| DirectTools.ReversedTwice | src/tools/direct_tools.py:54 | reversing twice gives the text back |
| DirectTools.Apply | src/tools/direct_tools.py:50-56 | every operation but `length` keeps the length of the text |
| DirectTools.ProcessText | src/tools/direct_tools.py:33-64 | a non-string raises even for an unknown operation; the operation defaults to `uppercase`; an unknown operation is answered with the list of the five operations; a known one yields that operation applied to the cleaned text, at most 10000 characters long |
| DirectTools.DefaultUppercases | src/tools/direct_tools.py:33 | without an operation the cleaned text is upper-cased |
| DirectTools.CaseOperationsAgree | src/tools/direct_tools.py:50-53 | lowercasing the `uppercase` result gives the `lowercase` result and the other way round; `title` keeps the cleaned text's length |
| DirectTools.Clean | src/tools/direct_tools.py:47 | the text an operation sees is the stripped text cut to its first 10000 characters |
| DirectTools.ReverseUndoes | src/tools/direct_tools.py:54-61 | reversing the result of `reverse` gives back the sanitised input |
| DirectTools.LengthReadsBack | src/tools/direct_tools.py:55-61 | `length` answers the sanitised length in decimal, which `int()` reads back, and it is at most 10000 |
| DirectTools.ShortTextUnchanged | src/tools/direct_tools.py:47 | text within the limit and without surrounding whitespace reaches the operation unchanged |
| DirectTools.TextArgumentAccepted | src/tools/direct_tools.py:32 | a call passing `text` by keyword passes the required-field check |
| DirectTools.ValidateData | src/tools/direct_tools.py:69-119 | the loop over the rules yields `valid` exactly when no issue was found, the issues in rule order, and `len(data)`; an exception from a rule propagates |
| DirectTools.IssuesFailureStays | src/tools/direct_tools.py:84-109 | an exception from a rule ends the loop with that exception |
| DirectTools.MissingFieldIssue | src/tools/direct_tools.py:85-88 | a missing field is an error exactly when its rule's `required` is truthy, and nothing else is checked for it |
| DirectTools.UnknownTypeIgnored | src/tools/direct_tools.py:93-101 | a type name other than `int`, `str`, `float` and `bool` is ignored |
| DirectTools.BoolIsInt | src/tools/direct_tools.py:101 | a `bool` value passes an `int` rule |
| DirectTools.BoundsOnlyForNumbers | src/tools/direct_tools.py:105 | bounds are not checked for values that are not numbers |
| DirectTools.NumericBounds | src/tools/direct_tools.py:105-109 | a number is reported below `min` exactly when it is smaller, and above `max` exactly when it is larger |
| DirectTools.IssuesNameRuledFields | src/tools/direct_tools.py:84-109 | every issue found over the first `k` rules names the field of one of those rules |
| DirectTools.MappedKeys | src/tools/direct_tools.py:145 | the mapped names are the transformation's source keys, in order |
| DirectTools.TransformJson | src/tools/direct_tools.py:137-150 | the two loops leave the dict `CopiedUpTo` specifies after `RenamedUpTo` |
| DirectTools.RenamedGet | src/tools/direct_tools.py:139-141 | after the renaming loop a key holds the value of the last mapping onto it whose source is present |
| DirectTools.CopiedGet | src/tools/direct_tools.py:144-146 | the copying loop puts each unmapped key of `data` over whatever the renaming left there |
| DirectTools.GetUnique | src/tools/direct_tools.py:144-146 | in a dict, the value under a key is that of its one entry |
| DirectTools.TransformedValue | src/tools/direct_tools.py:137-150 | an unmapped key of `data` keeps its value, even over a rename onto the same name; every other key holds the value of the last mapping onto it whose source is present |
| ErrorHandling.DetailsOrEmpty | src/utils/error_handling.py:25 | `details or {}` keeps non-empty details and gives `{}` for none or empty ones |
| ErrorHandling.NewMcpError | src/utils/error_handling.py:21-25 | an `MCPError` keeps its message, has code `internal_error` unless given one, and `details or {}` |
| ErrorHandling.ToolNotFound | src/utils/error_handling.py:31-36 | `ToolNotFoundError` has code `tool_not_found`, the message `Tool '<name>' not found` and exactly the detail `tool_name` |
| ErrorHandling.ValidationError | src/utils/error_handling.py:42-47 | `ValidationError` has code `validation_error`, the given message and `details or {}` |
| ErrorHandling.ToolExecutionError | src/utils/error_handling.py:53-58 | `ToolExecutionError` has code `tool_execution_error`, the message `Tool '<name>' execution failed: <error>` and exactly the details `tool_name` and `error` |
| ErrorHandling.ErrorFields | src/utils/error_handling.py:105-116 | the error object holds `code` and `message`, `details` exactly when they are truthy, and `stack_trace` exactly when asked for |
| ErrorHandling.BaseFields | src/utils/error_handling.py:105-110 | the error object starts with exactly `code` and `message` |
| ErrorHandling.CreateErrorResponse | src/utils/error_handling.py:85-121 | the response has the given status (400 by default) and content `{"error": {...}}` with the fields above, code `error` by default |
| ErrorHandling.HandleValidationError | src/utils/error_handling.py:124-142 | status 422, code `validation_error`, message `Invalid input parameters`, the exception text under `details.error`, no stack trace |
| ErrorHandling.HandleNotFoundError | src/utils/error_handling.py:145-163 | status 404, code `not_found`, message `Requested resource not found`, the request path under `details.path`, no stack trace |
| ErrorHandling.HandleInternalError | src/utils/error_handling.py:166-185 | status 500, code `internal_error`, message `An internal error occurred`, the exception text under `details.error`, never a stack trace |
| ErrorHandling.HandleToolErrors | src/utils/error_handling.py:61-82 | a result passes through unchanged exactly when the tool returned; every exception becomes a 400 error response |
| ErrorHandling.McpErrorReply | src/utils/error_handling.py:71-73 | a server error keeps its own message and code, and its details exactly when they are non-empty |
| ErrorHandling.OtherErrorReply | src/utils/error_handling.py:74-80 | any other exception is reported as `internal_error`, `An unexpected error occurred`, with its text under `details.error` |
| ErrorHandling.NotFoundToolReply | src/utils/error_handling.py:28-36 | a tool not found is reported under `tool_not_found` with its name as the only detail |
| ErrorHandling.BareValidationReply | src/utils/error_handling.py:39-47 | a validation error raised without details carries no `details` in its reply |
| ErrorHandling.ContextEntries | src/utils/error_handling.py:210 | one `k=v` entry per context item, in insertion order |
| ErrorHandling.LogContext | src/utils/error_handling.py:208-210 | the context suffix is empty exactly for an empty context and otherwise starts with ` | Context: ` |
| ErrorHandling.ContextEntriesInOrder | src/utils/error_handling.py:210 | each entry is followed by `, ` and the entries after it |
| ErrorHandling.SafeExecute | src/utils/error_handling.py:215-232 | exactly one of result and error is set: `(result, None)` when the call returned, `(None, e)` when it raised |
| ErrorHandling.SafeExecuteLog | src/utils/error_handling.py:230-231 | a line is logged exactly when the call raised |
| ErrorHandling.SafeExecuteNamesFunction | src/utils/error_handling.py:212-231 | the logged line is `Error: <type>: <text> | Context: function=<name>` |
| Observability.ToolMetrics.constructor | src/utils/observability.py:241-251 | a new tracker has the tool name and all counters at zero |
| Observability.ToolMetrics.RecordInvocation | src/utils/observability.py:253-255 | one more invocation, nothing else changes |
| Observability.ToolMetrics.RecordError | src/utils/observability.py:262-264 | one more error, nothing else changes |
| Observability.ToolMetrics.RecordDuration | src/utils/observability.py:271-278 | the total duration grows by the duration, nothing else changes |
| Observability.ToolMetrics.GetStats | src/utils/observability.py:285-304 | the counters as they are; before any invocation the error rate and average are the integer 0, afterwards floats with `rate × invocations = errors` and `average × invocations = total duration` |
| Observability.ErrorRateAtMostOne | src/utils/observability.py:302 | while errors never outnumber invocations the error rate lies between 0 and 1 |
| Observability.OneFailedCall | src/utils/observability.py:248-304 | invoking, timing and failing once from a fresh tracker gives error rate 1.0 and the duration as average |
| Observability.TraceToolExecution | src/utils/observability.py:43-126 | the wrapped call's result or exception is passed on unchanged; a span `tool.<name>` with attribute `tool.name` exists exactly when OpenTelemetry is available; it is OK exactly on success, then with the duration in ms, and otherwise has error status with the exception text and no duration |
| Server.DirectAttempts | src/server.py:52-70 | `load_direct_tools` tries the calculator tools and then the direct tools, each in its own `try` |
| Server.SpecAttempts | src/server.py:87-92 | one attempt per spec path, in list order, each with its own outcome |
| Server.ToolLoader.constructor | src/server.py:118-119 | no loader has run before start-up |
| Server.ToolLoader.LoadDirectTools | src/server.py:52-70 | the two direct loaders are attempted, in order |
| Server.ToolLoader.LoadOpenApiTools | src/server.py:73-97 | reads `tools.openapi.specs` and makes the attempts `OpenApiAttempts` gives for it |
| Server.ToolLoader.LoadSpecs | src/server.py:77-97 | without the OpenAPI module nothing is attempted; an empty spec list is reported; otherwise the loop attempts every spec in order |
| Server.ToolLoader.LoadTools | src/server.py:100-115 | a mode that is not a string makes start-up raise with nothing loaded; otherwise the attempts of the lower-cased mode are made |
| Server.ToolLoader.Dispatch | src/server.py:106-115 | `direct`, `openapi`, `both` and any other mode make exactly the attempts `ModeAttempts` lists |
| Server.LowerKeeps | src/server.py:102 | lower-casing leaves text without upper-case letters as it is |
| Server.DefaultModeIsDirect | src/server.py:102-107 | without a configured mode the server loads only the direct tools |
| Server.ModeIgnoresCase | src/server.py:102 | the mode is matched without regard to case |
| Server.DispatchSeparatesLoaders | src/server.py:106-115 | the OpenAPI loader never runs in `direct` or an unknown mode, the direct loaders never run in `openapi`, and `both` runs the direct loaders first |
| Server.EverySpecAttempted | src/server.py:87-92 | every configured spec is attempted, in order, whatever happened to the ones before |
| Server.EmptySpecListLoadsNothing | src/server.py:83-85 | an empty spec list registers nothing |
| Server.HealthPayload | src/server.py:134-138 | the payload has exactly the keys `status`, `server`, `version`, with status `healthy` |
| Server.HealthCheck | src/server.py:126-138 | `GET /ping` always reports `healthy`, the configured server name and the configured version |
| Server.DefaultHealth | src/server.py:134-138 | with no configuration it reports `mcp-server` and `1.0.0` |
| RemoteClient.Escaped | tests/test_client_remote.py:44 | the reference encoding leaves no `:` and no `/` |
| RemoteClient.EncodeArn | tests/test_client_remote.py:44 | the chained `replace` calls equal the character-by-character escape, so the encoded ARN has no `:` and no `/` |
| RemoteClient.ReplaceCharStep | tests/test_client_remote.py:44 | replacing one character handles the first character and then the rest |
| RemoteClient.ReplaceTwiceEscapes | tests/test_client_remote.py:44 | replacing `:` and then `/` gives the reference escape |
| RemoteClient.PlainArnUnchanged | tests/test_client_remote.py:44 | an ARN without `:` and `/` is not changed |
| RemoteClient.EscapedAppend | tests/test_client_remote.py:44 | encoding a concatenation encodes each part |
| RemoteClient.UrlParts | tests/test_client_remote.py:47 | six parts with the encoded ARN fifth; with a region free of `/`, no other part holds a `/` |
| RemoteClient.McpUrl | tests/test_client_remote.py:47 | the parts joined by `/` are exactly `https://bedrock-agentcore.{region}.amazonaws.com/runtimes/{encoded}/invocations?qualifier=DEFAULT` |
| RemoteClient.UrlNamesRuntime | tests/test_client_remote.py:47 | splitting the URL on `/` gives back the encoded ARN as one whole segment |
| RemoteClient.Headers | tests/test_client_remote.py:50-52 | JSON content type always, and `Authorization: Bearer <token>` exactly when a non-empty token is set |
| RemoteClient.Setup | tests/test_client_remote.py:31-52 | a missing or empty `AGENT_ARN` exits with status 1; otherwise the URL names the region (default `us-west-2`) and the encoded ARN, and the headers follow the token |
| RemoteClient.DefaultRegion | tests/test_client_remote.py:33 | without `AWS_REGION` the client talks to `us-west-2` |
| IamClient.LineEvents | tests/test_client_remote_iam.py:69-78 | a line contributes at most one event, the decoded payload after `data: `, and only when it decodes |
| IamClient.Payloads | tests/test_client_remote_iam.py:70-72 | no more payloads than lines |
| IamClient.DecodeAll | tests/test_client_remote_iam.py:73-78 | no more events than payloads, and exactly one per payload when all decode |
| IamClient.EventsAppend | tests/test_client_remote_iam.py:68-78 | reading lines in two parts is reading the first part, then the second |
| IamClient.EventsAreDecodedPayloads | tests/test_client_remote_iam.py:68-78 | the events are exactly the decodable `data: ` payloads, in line order |
| IamClient.DecodeAllAppend | tests/test_client_remote_iam.py:73-78 | decoding a payload list in front of others decodes each part |
| IamClient.EventsBound | tests/test_client_remote_iam.py:68-78 | never more events than `data: ` lines, nor more `data: ` lines than lines |
| IamClient.SkipsUndecodable | tests/test_client_remote_iam.py:73-78 | a `data: ` line that does not decode is skipped and the lines after it still count |
| IamClient.LineOnly | tests/test_client_remote_iam.py:68-78 | the events of one line are that line's events |
| IamClient.ParseSse | tests/test_client_remote_iam.py:51-80 | the loop over the stripped body's lines returns exactly `Events` of those lines |
| IamClient.ParseIgnoresPadding | tests/test_client_remote_iam.py:68 | whitespace around the whole body changes nothing |
| IamClient.SelectResult | tests/test_client_remote_iam.py:115-118 | a single event is returned as it is, any other number as the list of them |
| IamClient.SelectionIsAmbiguous | tests/test_client_remote_iam.py:115-118 | one event that is a list cannot be told from several events |
| IamClient.BuildRequest | tests/test_client_remote_iam.py:101-108 | the request accepts `text/event-stream`, uses the session id for both runtime and MCP session, and qualifier `DEFAULT` |
| IamClient.InvokeMcpServer | tests/test_client_remote_iam.py:83-144 | a client error is re-raised with its code; a streamed reply yields the selected result of the events parsed from its stripped body, which are the decoded `data:` payloads |
| IamClient.SessionId | tests/test_client_remote_iam.py:163 | the session id is `test-session-` followed by the 32 hex digits, at least 33 characters |
| IamClient.AddNumbersFrom | tests/test_client_remote_iam.py:224-228 | the scan reports `add_numbers` only when some later tool carries that name |
| IamClient.SelectTool | tests/test_client_remote_iam.py:220-233 | the `for ... break` loop and the fallback after it choose exactly `ChosenCall` |
| IamClient.PrefersAddNumbers | tests/test_client_remote_iam.py:224-228 | when `add_numbers` is listed it is called with `{"a": 5, "b": 3}` |
| IamClient.AddNumbersFound | tests/test_client_remote_iam.py:224-228 | the scan finds an `add_numbers` tool at or after its start |
| IamClient.FallsBackToFirst | tests/test_client_remote_iam.py:230-233 | without `add_numbers` the first tool is called with `{}` |
| IamClient.NoAddNumbers | tests/test_client_remote_iam.py:224-228 | without `add_numbers` the scan finds nothing |
| IamClient.ListedTools | tests/test_client_remote_iam.py:203-212 | every tool of an accepted listing has a readable name |
| IamClient.SelectionAfterListing | tests/test_client_remote_iam.py:203-233 | a listing the client accepted never makes the tool selection raise |

## Left out

- I/O and remote calls are inputs, not effects:
  - AWS and boto3 calls, HTTP requests, reading files, YAML and JSON parsing;
  - the MCP client session.
  Each is a parameter: a `Reply`, a `Fetch`, a `decode` function, or the loaded document.
  The describe and invoke calls are recorded in the validator's `calls`.
- Logging, printing and `sys.exit` are not modelled. The exit status of the remote client's
  set-up is modelled.
- OpenTelemetry is not modelled: `record_metric`, `add_span_event`, baggage, `setup_observability`.
  Whether it is installed is a parameter of the tracing decorator, and the span is returned as a
  value.
- FastMCP tool registration and `mcp.run` are not modelled. The server records which loaders it
  attempted and whether each one succeeded.
- Time is a parameter:
  - the measured elapsed time of the performance check and of a traced call;
  - the report's timestamp;
  - the `uuid4` values the validator draws.
- Floating point is exact `real` arithmetic. Rounding and the `:.0f` and `:.1f` formatting are not
  modelled.
- Text is only partly Unicode-aware:
  - `upper`, `lower` and `title` change only ASCII letters;
  - `strip` removes the characters Python treats as whitespace, Unicode spaces included;
  - `Text.ParseInt`, like `int()`, accepts only ASCII digits, not the other Unicode decimal digits
    Python accepts;
  - `Text.ParseDecimal`, like `float()`, accepts plain decimals only: no exponent, `inf` or `nan`.
- `str()` of floats, lists and dicts is the `render` parameter of `OpenApiTools.ExtractBaseUrl`,
  `OpenApiTools.BuildRequest` and `OpenApiTools.RegisterOpenApiTools`. Strings, integers, booleans
  and `None` are rendered by the model itself, as `Py.StrWith` states.
- The text of messages is abstracted: `str()` of exceptions, floats and containers.
  - The validator's per-check message and details strings are replaced by a `Finding` tag.
  - The `errors` messages of `validate_data` are `Issue` values, rendered by `Message` only for
    bounds whose `str()` is modelled.
  - Built-in exceptions raised on a weather response carry no text.
- `log_error` takes context values that are already strings.
- `Py.Less` orders numbers and strings only. Comparisons of lists and tuples are treated as raising
  `TypeError`.
- `search_location` is not modelled. It is the third wttr.in reader and follows the same
  read-and-map-errors pattern as `get_current_weather`.
- `load_openapi_spec` and `register_openapi_tools`' reading and validation of the spec file are
  inputs. The model starts from the loaded document.
- The docstring that `create_api_tool` builds is not modelled.
- The response handling of a generated API tool is not modelled: the HTTP call, `response.json()`
  and the `{"error": ...}` replies. The model stops at the request it sends.
- `setup_error_handlers`, `main` and the calculator example tools are not modelled. The first two
  only log or start the server; the calculator tools are floating-point arithmetic.
- The packaging and provisioning scripts (Docker, S3 and CDK) are not part of this model.
- `Configuration.LoadYaml` covers a missing file, a YAML error and a loaded document. Other
  `open()` errors, such as a permission error, propagate in the source and are not modelled. YAML
  anchors and aliases that share one node between places in the loaded document are not modelled
  either: the document is a value.
- `OpenApiTools.BuildRequest` does not model two `TypeError`s of the source:
  - it takes the base URL as a string, while a non-string `servers[0].url` makes `base_url + path`
    raise;
  - it treats a parameter whose name is not a string as not supplied, while a name that is not
    hashable (a list or a dict) makes `name in kwargs` raise.
- `Configuration.DeepMerge` works on values. In the source the merged dict can share nested dicts
  with the override (aliasing); the model does not capture that.
- `DeploymentValidation.DeploymentValidator.RunAllTests` keeps a real timing per request only for
  the performance check. The other checks' round-trip times are not observed.

=== FILE: config.dfy ===
/**
 * Configuration layering of the MCP server: the YAML file (or built-in
 * defaults), then the overrides of the selected environment merged in
 * deeply, then the process environment variables; read back by dotted path.
 *
 * The file system, `yaml.safe_load` and `load_dotenv` are not modelled: what
 * reading the file gave is the parameter `YamlOutcome`, and the process
 * environment is the map `Env`.
 */
module Configuration {
  import opened Wrappers
  import opened Json
  import opened Py
  import Text

  /** The process environment: variable name to value. */
  type Env = map<string, string>

  /** Python `os.getenv(name, dflt)`: the default only when the variable is unset. */
  function Getenv(env: Env, name: string, dflt: string): string {
    if name in env then env[name] else dflt
  }

  /** What opening and parsing the YAML file gave. */
  datatype YamlOutcome = FileNotFound | YamlError | Loaded(value: Json)

  /** The built-in defaults of `_get_defaults`, section by section. */
  const ServerDefaults: Json := JObj([("host", JStr("0.0.0.0")), ("port", JInt(8000)), ("mcp_path", JStr("/mcp")),
                                      ("stateless_http", JBool(true))])
  const McpDefaults: Json := JObj([("protocol_version", JStr("2024-11-05")), ("server_name", JStr("mcp-server")),
                                   ("server_version", JStr("1.0.0"))])
  const ObservabilityDefaults: Json := JObj([("enabled", JBool(true)), ("service_name", JStr("mcp-server"))])
  const LoggingDefaults: Json := JObj([("level", JStr("INFO"))])

  const Defaults: Json := JObj([
    ("server", ServerDefaults),
    ("mcp", McpDefaults),
    ("tools", JObj([("mode", JStr("direct"))])),
    ("observability", ObservabilityDefaults),
    ("logging", LoggingDefaults),
    ("security", JObj([("validate_inputs", JBool(true))]))
  ])

  /**
   * `_load_yaml`: a missing or unparsable file gives the defaults, an empty
   * (falsy) document gives an empty dict, anything else is kept as loaded.
   */
  function LoadYaml(outcome: YamlOutcome): (c: Json)
    ensures Truthy(c) || c == JObj([])
    ensures outcome.Loaded? && Truthy(outcome.value) <==> outcome.Loaded? && c == outcome.value && c != JObj([])
    ensures outcome.Loaded? && !Truthy(outcome.value) ==> c == JObj([])
    ensures !outcome.Loaded? ==> c == Defaults
  {
    match outcome
    case Loaded(v) => if Truthy(v) then v else JObj([])
    case _ => Defaults
  }

  // ---------------------------------------------------------------------------
  // reading by dotted path

  /** The value reached by following `keys` through nested dicts, or `None` where a step is missing. */
  function Walk(v: Json, keys: seq<string>): (r: Option<Json>)
    ensures keys == [] ==> r == Some(v)
    ensures keys != [] && r.Some? ==> v.JObj? && keys[0] in Keys(v.fields)
  {
    if keys == [] then Some(v)
    else if v.JObj? && Get(v.fields, keys[0]).Some? then Walk(Get(v.fields, keys[0]).value, keys[1..])
    else None
  }

  /** Following a path in two parts is following the first part, then the second from where it ended. */
  lemma {:induction false} WalkAppend(v: Json, a: seq<string>, b: seq<string>)
    ensures Walk(v, a + b) == if Walk(v, a).Some? then Walk(Walk(v, a).value, b) else None
  {
    if a != [] {
      assert (a + b)[0] == a[0];
      assert (a + b)[1..] == a[1..] + b;
      if v.JObj? && Get(v.fields, a[0]).Some? {
        WalkAppend(Get(v.fields, a[0]).value, a[1..], b);
      }
    } else {
      assert a + b == b;
    }
  }

  /** A two-step walk: the section, then the key inside it. */
  lemma WalkPair(v: Json, section: string, key: string)
    ensures Walk(v, [section, key]) ==
              if v.JObj? && Get(v.fields, section).Some? then Walk(Get(v.fields, section).value, [key]) else None
  {
    assert [section, key][1..] == [key];
  }

  /** The segments of a dotted path. */
  function PathKeys(path: string): (keys: seq<string>)
    ensures |keys| >= 1
    ensures forall i :: 0 <= i < |keys| ==> '.' !in keys[i]
    ensures Text.Join(keys, ".") == path
  {
    Text.JoinSplit(path, '.');
    Text.Split(path, '.')
  }

  // ---------------------------------------------------------------------------
  // deep merge

  /** The dict `base` after `_deep_merge(base, override)`. */
  function Merged(base: Fields, override: Fields): Fields
  {
    MergeFrom(base, override, 0)
  }

  /** The merge of the entries of `override` from position `i` on into `base`. */
  function MergeFrom(base: Fields, override: Fields, i: nat): Fields
    requires i <= |override|
    decreases JObj(override), |override| - i
  {
    if i == |override| then base
    else MergeFrom(MergeEntry(base, override, i), override, i + 1)
  }

  /** One step of `_deep_merge`: two dicts under a key merge recursively, anything else is replaced. */
  function MergeEntry(base: Fields, override: Fields, i: nat): Fields
    requires i < |override|
    decreases JObj(override), 0
  {
    var (key, value) := override[i];
    var current := Get(base, key);
    if current.Some? && current.value.JObj? && value.JObj? then
      Put(base, key, JObj(MergeFrom(current.value.fields, value.fields, 0)))
    else
      Put(base, key, value)
  }

  /** What one override value leaves under its key, given what the base held there. */
  function MergedValue(current: Option<Json>, value: Json): Json
  {
    if current.Some? && current.value.JObj? && value.JObj? then JObj(Merged(current.value.fields, value.fields))
    else value
  }

  /** `_deep_merge`, walking the override entries in order and recursing into nested dicts. */
  method DeepMerge(base: Fields, override: Fields) returns (merged: Fields)
    ensures merged == Merged(base, override)
    decreases JObj(override)
  {
    merged := base;
    var i := 0;
    while i < |override|
      invariant 0 <= i <= |override|
      invariant MergeFrom(merged, override, i) == Merged(base, override)
    {
      ghost var before := merged;
      var (key, value) := override[i];
      var current := Get(merged, key);
      if current.Some? && current.value.JObj? && value.JObj? {
        var inner := DeepMerge(current.value.fields, value.fields);
        merged := Put(merged, key, JObj(inner));
      } else {
        merged := Put(merged, key, value);
      }
      assert merged == MergeEntry(before, override, i);
      MergeAdvance(base, override, before, i);
      i := i + 1;
    }
  }

  /** One step of the merge loop keeps its invariant. */
  lemma MergeAdvance(base: Fields, override: Fields, merged: Fields, i: nat)
    requires i < |override| && MergeFrom(merged, override, i) == Merged(base, override)
    ensures MergeFrom(MergeEntry(merged, override, i), override, i + 1) == Merged(base, override)
  {
  }

  /** Entries whose keys do not occur from position `i` on leave a key as it was. */
  lemma MergeFromKeeps(base: Fields, override: Fields, i: nat, k: string)
    requires i <= |override|
    requires forall m :: i <= m < |override| ==> override[m].0 != k
    ensures Get(MergeFrom(base, override, i), k) == Get(base, k)
  {
    var current, j := base, i;
    while j < |override|
      invariant i <= j <= |override|
      invariant MergeFrom(current, override, j) == MergeFrom(base, override, i)
      invariant Get(current, k) == Get(base, k)
    {
      var next := MergeStep(current, override, j);
      MergeEntryKeeps(current, override, j, k);
      current, j := next, j + 1;
    }
  }

  /** The merge from position `i` is the merge from `i + 1` of the base after entry `i`. */
  lemma MergeStep(base: Fields, override: Fields, i: nat) returns (next: Fields)
    requires i < |override|
    ensures next == MergeEntry(base, override, i)
    ensures MergeFrom(base, override, i) == MergeFrom(next, override, i + 1)
  {
    next := MergeEntry(base, override, i);
  }

  /** One merge step changes nothing under keys other than its own. */
  lemma MergeEntryKeeps(base: Fields, override: Fields, i: nat, k: string)
    requires i < |override| && override[i].0 != k
    ensures Get(MergeEntry(base, override, i), k) == Get(base, k)
  {
  }

  /** The entry at position `j` decides what the merge leaves under its key. */
  lemma {:induction false} MergeFromAt(base: Fields, override: Fields, i: nat, j: nat)
    requires UniqueKeys(override) && i <= j < |override|
    ensures Get(MergeFrom(base, override, i), override[j].0) == Some(MergedValue(Get(base, override[j].0), override[j].1))
    decreases j - i
  {
    var k := override[j].0;
    var next := MergeEntry(base, override, i);
    if i < j {
      UniqueAt(override, i, j);
      MergeFromAt(next, override, i + 1, j);
    } else {
      forall m | i + 1 <= m < |override|
        ensures override[m].0 != k
      {
        UniqueAt(override, j, m);
      }
      MergeFromKeeps(next, override, i + 1, k);
    }
  }

  /**
   * What `_deep_merge` leaves under each key: the base value when the override
   * lacks the key; the recursive merge when both hold dicts; otherwise the
   * override value.
   */
  lemma MergeAt(base: Fields, override: Fields, k: string)
    requires UniqueKeys(override)
    ensures k !in Keys(override) ==> Get(Merged(base, override), k) == Get(base, k)
    ensures k in Keys(override) ==>
              Get(Merged(base, override), k) == Some(MergedValue(Get(base, k), Get(override, k).value))
  {
    KeysAt(override);
    if k in Keys(override) {
      var j :| 0 <= j < |override| && Keys(override)[j] == k;
      GetAt(override, j);
      MergeFromAt(base, override, 0, j);
    } else {
      MergeFromKeeps(base, override, 0, k);
    }
  }

  /** After the merge, every path of the override that ends at a non-dict value reads back that value. */
  lemma {:induction false} MergeLeafReadsBack(base: Fields, override: Fields, p: seq<string>, v: Json)
    requires DeepUnique(JObj(override))
    requires p != [] && Walk(JObj(override), p) == Some(v) && !v.JObj?
    ensures Walk(JObj(Merged(base, override)), p) == Some(v)
    decreases |p|
  {
    var k := p[0];
    var w := Get(override, k).value;
    MergeAt(base, override, k);
    var merged := Merged(base, override);
    assert Get(merged, k) == Some(MergedValue(Get(base, k), w));
    if |p| > 1 {
      assert w.JObj?;
      var current := Get(base, k);
      if current.Some? && current.value.JObj? {
        assert (k, w) in override;
        var j :| 0 <= j < |override| && override[j] == (k, w);
        assert DeepUnique(override[j].1);
        MergeLeafReadsBack(current.value.fields, w.fields, p[1..], v);
      }
    }
  }

  // ---------------------------------------------------------------------------
  // environment-specific overrides and environment variables

  /** The lowercased `ENVIRONMENT`, `development` when unset. */
  function EnvironmentName(env: Env): string {
    Text.Lower(Getenv(env, "ENVIRONMENT", "development"))
  }

  /**
   * `_apply_environment_overrides`: merge `environments[name]` into the
   * configuration when that entry exists; the Python operators raise where the
   * values are not dicts.
   */
  function WithEnvironmentOverrides(c: Json, env: Env): (r: PyResult<Json>)
    ensures r.Success? && r.value != c ==>
              c.JObj? && Walk(c, ["environments", EnvironmentName(env)]).Some?
  {
    var name := EnvironmentName(env);
    var hasEnvironments := In("environments", c);
    if hasEnvironments.Failure? then Failure(hasEnvironments.error)
    else if !hasEnvironments.value then Success(c)
    else
      var environments := Index(c, "environments");
      if environments.Failure? then Failure(environments.error)
      else
        var named := In(name, environments.value);
        if named.Failure? then Failure(named.error)
        else if !named.value then Success(c)
        else
          var overrides := Index(environments.value, name);
          if overrides.Failure? then Failure(overrides.error)
          else if !overrides.value.JObj? then Failure(AttributeError)
          else Success(JObj(Merged(c.fields, overrides.value.fields)))
  }

  /** With an `environments` dict that has no entry for the selected name, nothing changes. */
  lemma UnselectedEnvironment(c: Json, env: Env)
    requires c.JObj? && Get(c.fields, "environments").Some?
    requires Get(c.fields, "environments").value.JObj?
    requires EnvironmentName(env) !in Keys(Get(c.fields, "environments").value.fields)
    ensures WithEnvironmentOverrides(c, env) == Success(c)
  {
  }

  /** The selected environment's dict of overrides is merged into the configuration. */
  lemma SelectedEnvironment(c: Json, env: Env)
    requires c.JObj? && Walk(c, ["environments", EnvironmentName(env)]).Some?
    requires Walk(c, ["environments", EnvironmentName(env)]).value.JObj?
    ensures WithEnvironmentOverrides(c, env)
         == Success(JObj(Merged(c.fields, Walk(c, ["environments", EnvironmentName(env)]).value.fields)))
  {
    var name := EnvironmentName(env);
    assert ["environments", name][1..] == [name];
  }

  /** Python `c[section][key] = v`. */
  function Assign(c: Json, section: string, key: string, v: Json): (r: PyResult<Json>)
    ensures r.Success? <==> Walk(c, [section]).Some? && Walk(c, [section]).value.JObj?
    ensures r.Success? ==> Walk(r.value, [section, key]) == Some(v)
  {
    WalkOne(c, section);
    var sub := Index(c, section);
    if sub.Failure? then Failure(sub.error)
    else if !sub.value.JObj? then Failure(TypeError)
    else
      var inner := Put(sub.value.fields, key, v);
      var r := JObj(Put(c.fields, section, JObj(inner)));
      WalkPair(r, section, key);
      WalkOne(JObj(inner), key);
      Success(r)
  }

  /** A one-step walk is a lookup in a dict. */
  lemma WalkOne(v: Json, key: string)
    ensures Walk(v, [key]) == if v.JObj? && Get(v.fields, key).Some? then Some(Get(v.fields, key).value) else None
  {
    assert [key][1..] == [];
  }

  /** An assignment changes nothing but its own path, and adds no section. */
  lemma AssignFrame(c: Json, section: string, key: string, v: Json, s: string, k: string)
    requires Assign(c, section, key, v).Success?
    ensures Keys(Assign(c, section, key, v).value.fields) == Keys(c.fields)
    ensures s != section ==> Get(Assign(c, section, key, v).value.fields, s) == Get(c.fields, s)
    ensures [s, k] != [section, key] ==> Walk(Assign(c, section, key, v).value, [s, k]) == Walk(c, [s, k])
  {
    var sub := Get(c.fields, section).value;
    var inner := Put(sub.fields, key, v);
    var r := Assign(c, section, key, v).value;
    assert r == JObj(Put(c.fields, section, JObj(inner)));
    assert [s, k][1..] == [k];
    if s == section && k != key {
      assert Get(inner, k) == Get(sub.fields, k);
    }
  }

  /** Python `c[key] = v`. */
  function AssignTop(c: Json, key: string, v: Json): (r: PyResult<Json>)
    ensures r.Success? <==> c.JObj?
    ensures r.Success? ==> Walk(r.value, [key]) == Some(v)
  {
    if c.JObj? then Success(JObj(Put(c.fields, key, v))) else Failure(TypeError)
  }

  /** The region: `AWS_REGION`, else `AWS_DEFAULT_REGION`, else `us-west-2`. */
  function AwsSection(env: Env): Json {
    JObj([("region", JStr(Getenv(env, "AWS_REGION", Getenv(env, "AWS_DEFAULT_REGION", "us-west-2")))),
          ("account_id", if "AWS_ACCOUNT_ID" in env then JStr(env["AWS_ACCOUNT_ID"]) else JNull)])
  }

  function SetHost(c: Json, env: Env): PyResult<Json> {
    var host := Getenv(env, "MCP_SERVER_HOST", "");
    if host != "" then Assign(c, "server", "host", JStr(host)) else Success(c)
  }

  /** The port is parsed by `int()` before the assignment, so a bad value raises first. */
  function SetPort(c: Json, env: Env): PyResult<Json> {
    var port := Getenv(env, "MCP_SERVER_PORT", "");
    if port == "" then Success(c)
    else
      var n := Text.ParseInt(port);
      if n.None? then Failure(ValueError) else Assign(c, "server", "port", JInt(n.value))
  }

  function SetEnabled(c: Json, env: Env): PyResult<Json> {
    var enabled := Getenv(env, "MCP_OBSERVABILITY_ENABLED", "");
    if enabled != "" then Assign(c, "observability", "enabled", JBool(Text.Lower(enabled) == "true"))
    else Success(c)
  }

  function SetServiceName(c: Json, env: Env): PyResult<Json> {
    var name := Getenv(env, "MCP_SERVICE_NAME", "");
    if name != "" then Assign(c, "observability", "service_name", JStr(name)) else Success(c)
  }

  function SetLogLevel(c: Json, env: Env): PyResult<Json> {
    var level := Getenv(env, "MCP_LOG_LEVEL", "");
    if level != "" then Assign(c, "logging", "level", JStr(Text.Upper(level))) else Success(c)
  }

  /** `_apply_env_vars`: the assignments in source order; the first one that raises ends it. */
  function WithEnvVars(c: Json, env: Env): PyResult<Json>
  {
    var c1 := SetHost(c, env);
    if c1.Failure? then c1 else FromPort(c1.value, env)
  }

  /** The assignments of `_apply_env_vars` from the port on. */
  function FromPort(c: Json, env: Env): PyResult<Json>
  {
    var c2 := SetPort(c, env);
    if c2.Failure? then c2 else FromEnabled(c2.value, env)
  }

  /** The assignments of `_apply_env_vars` from the observability switch on. */
  function FromEnabled(c: Json, env: Env): PyResult<Json>
  {
    var c3 := SetEnabled(c, env);
    if c3.Failure? then c3 else FromServiceName(c3.value, env)
  }

  /** The assignments of `_apply_env_vars` from the service name on. */
  function FromServiceName(c: Json, env: Env): PyResult<Json>
  {
    var c4 := SetServiceName(c, env);
    if c4.Failure? then c4 else FromLogLevel(c4.value, env)
  }

  /** The last assignments of `_apply_env_vars`: the log level, then the `aws` section. */
  function FromLogLevel(c: Json, env: Env): PyResult<Json>
  {
    var c5 := SetLogLevel(c, env);
    if c5.Failure? then c5 else AssignTop(c5.value, "aws", AwsSection(env))
  }

  /** Each setter leaves every path but its own as it was. */
  lemma SettersKeepOtherPaths(c: Json, env: Env, s: string, k: string)
    ensures SetHost(c, env).Success? && [s, k] != ["server", "host"] ==> Walk(SetHost(c, env).value, [s, k]) == Walk(c, [s, k])
    ensures SetPort(c, env).Success? && [s, k] != ["server", "port"] ==> Walk(SetPort(c, env).value, [s, k]) == Walk(c, [s, k])
    ensures SetEnabled(c, env).Success? && [s, k] != ["observability", "enabled"] ==> Walk(SetEnabled(c, env).value, [s, k]) == Walk(c, [s, k])
    ensures SetServiceName(c, env).Success? && [s, k] != ["observability", "service_name"] ==> Walk(SetServiceName(c, env).value, [s, k]) == Walk(c, [s, k])
    ensures SetLogLevel(c, env).Success? && [s, k] != ["logging", "level"] ==> Walk(SetLogLevel(c, env).value, [s, k]) == Walk(c, [s, k])
    ensures AssignTop(c, "aws", AwsSection(env)).Success? && s != "aws" ==> Walk(AssignTop(c, "aws", AwsSection(env)).value, [s, k]) == Walk(c, [s, k])
  {
    if SetHost(c, env).Success? && [s, k] != ["server", "host"] { HostKeeps(c, env, s, k); }
    if SetPort(c, env).Success? && [s, k] != ["server", "port"] { PortKeeps(c, env, s, k); }
    if SetEnabled(c, env).Success? && [s, k] != ["observability", "enabled"] { EnabledKeeps(c, env, s, k); }
    if SetServiceName(c, env).Success? && [s, k] != ["observability", "service_name"] { ServiceNameKeeps(c, env, s, k); }
    if SetLogLevel(c, env).Success? && [s, k] != ["logging", "level"] { LogLevelKeeps(c, env, s, k); }
    if AssignTop(c, "aws", AwsSection(env)).Success? && s != "aws" { AwsKeeps(c, env, s, k); }
  }

  lemma HostKeeps(c: Json, env: Env, s: string, k: string)
    requires SetHost(c, env).Success? && [s, k] != ["server", "host"]
    ensures Walk(SetHost(c, env).value, [s, k]) == Walk(c, [s, k])
  {
    var host := Getenv(env, "MCP_SERVER_HOST", "");
    if host != "" {
      AssignFrame(c, "server", "host", JStr(host), s, k);
    }
  }

  lemma PortKeeps(c: Json, env: Env, s: string, k: string)
    requires SetPort(c, env).Success? && [s, k] != ["server", "port"]
    ensures Walk(SetPort(c, env).value, [s, k]) == Walk(c, [s, k])
  {
    var port := Getenv(env, "MCP_SERVER_PORT", "");
    if port != "" {
      AssignFrame(c, "server", "port", JInt(Text.ParseInt(port).value), s, k);
    }
  }

  lemma EnabledKeeps(c: Json, env: Env, s: string, k: string)
    requires SetEnabled(c, env).Success? && [s, k] != ["observability", "enabled"]
    ensures Walk(SetEnabled(c, env).value, [s, k]) == Walk(c, [s, k])
  {
    var enabled := Getenv(env, "MCP_OBSERVABILITY_ENABLED", "");
    if enabled != "" {
      AssignFrame(c, "observability", "enabled", JBool(Text.Lower(enabled) == "true"), s, k);
    }
  }

  lemma ServiceNameKeeps(c: Json, env: Env, s: string, k: string)
    requires SetServiceName(c, env).Success? && [s, k] != ["observability", "service_name"]
    ensures Walk(SetServiceName(c, env).value, [s, k]) == Walk(c, [s, k])
  {
    var name := Getenv(env, "MCP_SERVICE_NAME", "");
    if name != "" {
      AssignFrame(c, "observability", "service_name", JStr(name), s, k);
    }
  }

  lemma LogLevelKeeps(c: Json, env: Env, s: string, k: string)
    requires SetLogLevel(c, env).Success? && [s, k] != ["logging", "level"]
    ensures Walk(SetLogLevel(c, env).value, [s, k]) == Walk(c, [s, k])
  {
    var level := Getenv(env, "MCP_LOG_LEVEL", "");
    if level != "" {
      AssignFrame(c, "logging", "level", JStr(Text.Upper(level)), s, k);
    }
  }

  lemma AwsKeeps(c: Json, env: Env, s: string, k: string)
    requires AssignTop(c, "aws", AwsSection(env)).Success? && s != "aws"
    ensures Walk(AssignTop(c, "aws", AwsSection(env)).value, [s, k]) == Walk(c, [s, k])
  {
    assert [s, k][1..] == [k];
  }

  /** The configurations `_apply_env_vars` passes through when every step succeeds. */
  datatype Stages = Stages(c1: Json, c2: Json, c3: Json, c4: Json, c5: Json, r: Json)

  /** When `_apply_env_vars` completes, each assignment succeeded on what the one before left. */
  lemma EnvVarStages(c: Json, env: Env) returns (st: Stages)
    requires WithEnvVars(c, env).Success?
    ensures SetHost(c, env) == Success(st.c1) && SetPort(st.c1, env) == Success(st.c2)
    ensures SetEnabled(st.c2, env) == Success(st.c3) && SetServiceName(st.c3, env) == Success(st.c4)
    ensures SetLogLevel(st.c4, env) == Success(st.c5) && AssignTop(st.c5, "aws", AwsSection(env)) == Success(st.r)
    ensures WithEnvVars(c, env) == Success(st.r)
  {
    var c1 := SetHost(c, env).value;
    var c2 := SetPort(c1, env).value;
    var c3 := SetEnabled(c2, env).value;
    var c4 := SetServiceName(c3, env).value;
    var c5 := SetLogLevel(c4, env).value;
    st := Stages(c1, c2, c3, c4, c5, AssignTop(c5, "aws", AwsSection(env)).value);
  }

  /**
   * Environment variables take precedence: when `_apply_env_vars` completes,
   * every variable that is set and non-empty is what the configuration holds
   * at its path, and the `aws` section is always replaced.
   */
  lemma EnvVarsTakePrecedence(c: Json, env: Env)
    requires WithEnvVars(c, env).Success?
    ensures var r := WithEnvVars(c, env).value;
      && (Getenv(env, "MCP_SERVER_HOST", "") != "" ==>
            Walk(r, ["server", "host"]) == Some(JStr(env["MCP_SERVER_HOST"])))
      && (Getenv(env, "MCP_SERVER_PORT", "") != "" ==>
            Text.ParseInt(env["MCP_SERVER_PORT"]).Some? &&
            Walk(r, ["server", "port"]) == Some(JInt(Text.ParseInt(env["MCP_SERVER_PORT"]).value)))
      && (Getenv(env, "MCP_OBSERVABILITY_ENABLED", "") != "" ==>
            Walk(r, ["observability", "enabled"]) == Some(JBool(Text.Lower(env["MCP_OBSERVABILITY_ENABLED"]) == "true")))
      && (Getenv(env, "MCP_SERVICE_NAME", "") != "" ==>
            Walk(r, ["observability", "service_name"]) == Some(JStr(env["MCP_SERVICE_NAME"])))
      && (Getenv(env, "MCP_LOG_LEVEL", "") != "" ==>
            Walk(r, ["logging", "level"]) == Some(JStr(Text.Upper(env["MCP_LOG_LEVEL"]))))
      && Walk(r, ["aws"]) == Some(AwsSection(env))
  {
    var st := EnvVarStages(c, env);
    HostSurvives(c, env, st);
    PortSurvives(env, st);
    EnabledSurvives(env, st);
    ServiceNameSurvives(env, st);
    LogLevelSurvives(env, st);
  }

  lemma HostSurvives(c: Json, env: Env, st: Stages)
    requires SetHost(c, env) == Success(st.c1) && SetPort(st.c1, env) == Success(st.c2)
    requires SetEnabled(st.c2, env) == Success(st.c3) && SetServiceName(st.c3, env) == Success(st.c4)
    requires SetLogLevel(st.c4, env) == Success(st.c5) && AssignTop(st.c5, "aws", AwsSection(env)) == Success(st.r)
    ensures Getenv(env, "MCP_SERVER_HOST", "") != "" ==> Walk(st.r, ["server", "host"]) == Some(JStr(env["MCP_SERVER_HOST"]))
  {
    PortKeeps(st.c1, env, "server", "host");
    EnabledKeeps(st.c2, env, "server", "host");
    ServiceNameKeeps(st.c3, env, "server", "host");
    LogLevelKeeps(st.c4, env, "server", "host");
    AwsKeeps(st.c5, env, "server", "host");
  }

  lemma PortSurvives(env: Env, st: Stages)
    requires SetPort(st.c1, env) == Success(st.c2)
    requires SetEnabled(st.c2, env) == Success(st.c3) && SetServiceName(st.c3, env) == Success(st.c4)
    requires SetLogLevel(st.c4, env) == Success(st.c5) && AssignTop(st.c5, "aws", AwsSection(env)) == Success(st.r)
    ensures Getenv(env, "MCP_SERVER_PORT", "") != "" ==>
              Text.ParseInt(env["MCP_SERVER_PORT"]).Some? &&
              Walk(st.r, ["server", "port"]) == Some(JInt(Text.ParseInt(env["MCP_SERVER_PORT"]).value))
  {
    EnabledKeeps(st.c2, env, "server", "port");
    ServiceNameKeeps(st.c3, env, "server", "port");
    LogLevelKeeps(st.c4, env, "server", "port");
    AwsKeeps(st.c5, env, "server", "port");
  }

  lemma EnabledSurvives(env: Env, st: Stages)
    requires SetEnabled(st.c2, env) == Success(st.c3) && SetServiceName(st.c3, env) == Success(st.c4)
    requires SetLogLevel(st.c4, env) == Success(st.c5) && AssignTop(st.c5, "aws", AwsSection(env)) == Success(st.r)
    ensures Getenv(env, "MCP_OBSERVABILITY_ENABLED", "") != "" ==>
              Walk(st.r, ["observability", "enabled"]) == Some(JBool(Text.Lower(env["MCP_OBSERVABILITY_ENABLED"]) == "true"))
  {
    ServiceNameKeeps(st.c3, env, "observability", "enabled");
    LogLevelKeeps(st.c4, env, "observability", "enabled");
    AwsKeeps(st.c5, env, "observability", "enabled");
  }

  lemma ServiceNameSurvives(env: Env, st: Stages)
    requires SetServiceName(st.c3, env) == Success(st.c4)
    requires SetLogLevel(st.c4, env) == Success(st.c5) && AssignTop(st.c5, "aws", AwsSection(env)) == Success(st.r)
    ensures Getenv(env, "MCP_SERVICE_NAME", "") != "" ==>
              Walk(st.r, ["observability", "service_name"]) == Some(JStr(env["MCP_SERVICE_NAME"]))
  {
    LogLevelKeeps(st.c4, env, "observability", "service_name");
    AwsKeeps(st.c5, env, "observability", "service_name");
  }

  lemma LogLevelSurvives(env: Env, st: Stages)
    requires SetLogLevel(st.c4, env) == Success(st.c5) && AssignTop(st.c5, "aws", AwsSection(env)) == Success(st.r)
    ensures Getenv(env, "MCP_LOG_LEVEL", "") != "" ==>
              Walk(st.r, ["logging", "level"]) == Some(JStr(Text.Upper(env["MCP_LOG_LEVEL"])))
  {
    AwsKeeps(st.c5, env, "logging", "level");
  }

  /** A port that `int()` rejects makes loading fail with `ValueError` once the host step is through. */
  lemma BadPortRaises(c: Json, env: Env)
    requires SetHost(c, env).Success?
    requires Getenv(env, "MCP_SERVER_PORT", "") != "" && Text.ParseInt(env["MCP_SERVER_PORT"]).None?
    ensures WithEnvVars(c, env) == Failure(ValueError)
  {
  }

  /** A two-segment dotted path splits into its two segments. */
  lemma {:induction false} TwoSegments(a: string, b: string)
    requires '.' !in a && '.' !in b
    ensures PathKeys(a + "." + b) == [a, b]
  {
    Text.SplitJoin([a, b], '.');
    assert Text.Join([a, b], ".") == a + "." + b;
  }

  /** The whole `__init__`: load, then environment overrides, then environment variables. */
  function Initial(loaded: YamlOutcome, env: Env): PyResult<Json>
  {
    var c := WithEnvironmentOverrides(LoadYaml(loaded), env);
    if c.Failure? then c else WithEnvVars(c.value, env)
  }

  /** Without a YAML file and without environment variables, the configuration is the defaults plus `aws`. */
  lemma DefaultsWithEmptyEnvironment()
    ensures Initial(FileNotFound, map[]) == Success(JObj(Defaults.fields + [("aws", AwsSection(map[]))]))
  {
    var keys := ["server", "mcp", "tools", "observability", "logging", "security"];
    KeysAt(Defaults.fields);
    assert Keys(Defaults.fields) == keys;
    assert "environments" !in keys && "aws" !in keys;
    assert WithEnvironmentOverrides(Defaults, map[]) == Success(Defaults);
    PutAbsent(Defaults.fields, "aws", AwsSection(map[]));
  }

  class Config {
    /** `self._config`. */
    var config: Json

    /** The configuration as read from the YAML file, before any override. */
    constructor (loaded: YamlOutcome)
      ensures config == LoadYaml(loaded)
    {
      config := LoadYaml(loaded);
    }

    /** `Config(...)`: the constructor followed by the two override steps, either of which may raise. */
    static method Create(loaded: YamlOutcome, env: Env) returns (r: PyResult<Config>)
      ensures r.Success? ==> fresh(r.value) && Initial(loaded, env) == Success(r.value.config)
      ensures r.Failure? ==> Initial(loaded, env) == Failure(r.error)
    {
      var c := new Config(loaded);
      var raised := c.ApplyEnvironmentOverrides(env);
      if raised.Some? {
        return Failure(raised.value);
      }
      raised := c.ApplyEnvVars(env);
      if raised.Some? {
        return Failure(raised.value);
      }
      r := Success(c);
    }

    /** `_apply_environment_overrides`, merging in place. */
    method ApplyEnvironmentOverrides(env: Env) returns (raised: Option<PyError>)
      modifies this
      ensures WithEnvironmentOverrides(old(config), env) == if raised.None? then Success(config) else Failure(raised.value)
    {
      var name := Text.Lower(Getenv(env, "ENVIRONMENT", "development"));
      var hasEnvironments := In("environments", config);
      if hasEnvironments.Failure? {
        return Some(hasEnvironments.error);
      }
      if !hasEnvironments.value {
        return None;
      }
      var environments := Index(config, "environments");
      if environments.Failure? {
        return Some(environments.error);
      }
      var named := In(name, environments.value);
      if named.Failure? {
        return Some(named.error);
      }
      if !named.value {
        return None;
      }
      var overrides := Index(environments.value, name);
      if overrides.Failure? {
        return Some(overrides.error);
      }
      if !overrides.value.JObj? {
        return Some(AttributeError);
      }
      var merged := DeepMerge(config.fields, overrides.value.fields);
      config := JObj(merged);
      raised := None;
    }

    /** `self._config[section][key] = v`. */
    method SetIn(section: string, key: string, v: Json) returns (raised: Option<PyError>)
      modifies this
      ensures Assign(old(config), section, key, v) == if raised.None? then Success(config) else Failure(raised.value)
    {
      var sub := Index(config, section);
      if sub.Failure? {
        return Some(sub.error);
      }
      if !sub.value.JObj? {
        return Some(TypeError);
      }
      config := JObj(Put(config.fields, section, JObj(Put(sub.value.fields, key, v))));
      raised := None;
    }

    /** `_apply_env_vars`, one assignment after the other. */
    method ApplyEnvVars(env: Env) returns (raised: Option<PyError>)
      modifies this
      ensures WithEnvVars(old(config), env) == if raised.None? then Success(config) else Failure(raised.value)
    {
      raised := None;
      var host := Getenv(env, "MCP_SERVER_HOST", "");
      if host != "" {
        raised := SetIn("server", "host", JStr(host));
        if raised.Some? { return; }
      }
      assert WithEnvVars(old(config), env) == FromPort(config, env);
      var port := Getenv(env, "MCP_SERVER_PORT", "");
      if port != "" {
        var n := Text.ParseInt(port);
        if n.None? {
          return Some(ValueError);
        }
        raised := SetIn("server", "port", JInt(n.value));
        if raised.Some? { return; }
      }
      assert WithEnvVars(old(config), env) == FromEnabled(config, env);
      var enabled := Getenv(env, "MCP_OBSERVABILITY_ENABLED", "");
      if enabled != "" {
        raised := SetIn("observability", "enabled", JBool(Text.Lower(enabled) == "true"));
        if raised.Some? { return; }
      }
      assert WithEnvVars(old(config), env) == FromServiceName(config, env);
      var serviceName := Getenv(env, "MCP_SERVICE_NAME", "");
      if serviceName != "" {
        raised := SetIn("observability", "service_name", JStr(serviceName));
        if raised.Some? { return; }
      }
      assert WithEnvVars(old(config), env) == FromLogLevel(config, env);
      var level := Getenv(env, "MCP_LOG_LEVEL", "");
      if level != "" {
        raised := SetIn("logging", "level", JStr(Text.Upper(level)));
        if raised.Some? { return; }
      }
      assert WithEnvVars(old(config), env) == AssignTop(config, "aws", AwsSection(env));
      if !config.JObj? {
        return Some(TypeError);
      }
      config := JObj(Put(config.fields, "aws", AwsSection(env)));
    }

    /** `get(path, default)`: the value at the dotted path, or `default` as soon as a step is missing. */
    function Lookup(path: string, dflt: Json): (r: Json)
      reads this
    {
      Walk(config, PathKeys(path)).GetOr(dflt)
    }

    /** `get`, with its loop over the path segments. */
    method GetPath(path: string, dflt: Json) returns (r: Json)
      ensures r == Lookup(path, dflt)
    {
      var keys := Text.Split(path, '.');
      var value := config;
      var i := 0;
      while i < |keys|
        invariant 0 <= i <= |keys|
        invariant Walk(config, keys) == Walk(value, keys[i..])
      {
        var key := keys[i];
        if value.JObj? && Get(value.fields, key).Some? {
          value := Get(value.fields, key).value;
        } else {
          return dflt;
        }
        i := i + 1;
      }
      r := value;
    }

    /** `get_section`: `{}` for a missing section; only a dict has `get`. */
    function GetSection(section: string): (r: PyResult<Json>)
      reads this
      ensures r.Success? <==> config.JObj?
      ensures r.Success? ==> r.value == Walk(config, [section]).GetOr(JObj([]))
    {
      GetOr(config, section, JObj([]))
    }

    /** A property: `get` of the path `section.key` with a fallback. */
    function Property(section: string, key: string, dflt: Json): (r: Json)
      reads this
      requires '.' !in section && '.' !in key
      ensures r == Lookup(section + "." + key, dflt)
    {
      TwoSegments(section, key);
      Walk(config, [section, key]).GetOr(dflt)
    }

    function ServerHost(): Json
      reads this
    {
      Property("server", "host", JStr("0.0.0.0"))
    }

    function ServerPort(): Json
      reads this
    {
      Property("server", "port", JInt(8000))
    }

    function McpPath(): Json
      reads this
    {
      Property("server", "mcp_path", JStr("/mcp"))
    }

    function StatelessHttp(): Json
      reads this
    {
      Property("server", "stateless_http", JBool(true))
    }

    function ObservabilityEnabled(): Json
      reads this
    {
      Property("observability", "enabled", JBool(true))
    }

    function ServiceName(): Json
      reads this
    {
      Property("observability", "service_name", JStr("mcp-server"))
    }

    function LogLevel(): Json
      reads this
    {
      Property("logging", "level", JStr("INFO"))
    }
  }

  /** With no configuration at all, every property falls back to its built-in default. */
  lemma EmptyConfigFallsBack(c: Config)
    requires c.config == JObj([])
    ensures c.ServerHost() == JStr("0.0.0.0") && c.ServerPort() == JInt(8000)
    ensures c.McpPath() == JStr("/mcp") && c.StatelessHttp() == JBool(true)
    ensures c.ObservabilityEnabled() == JBool(true) && c.ServiceName() == JStr("mcp-server")
    ensures c.LogLevel() == JStr("INFO")
  {
  }

  /** The built-in defaults hold, for the server host and port, the same values the properties fall back to. */
  lemma DefaultServerAddress()
    ensures Walk(Defaults, ["server", "host"]) == Some(JStr("0.0.0.0"))
    ensures Walk(Defaults, ["server", "port"]) == Some(JInt(8000))
  {
    GetFrom(Defaults.fields, 0, "server");
    GetFrom(ServerDefaults.fields, 0, "host");
    WalkPair(Defaults, "server", "host");
    GetFrom(ServerDefaults.fields, 1, "port");
    WalkPair(Defaults, "server", "port");
  }

  /** The built-in defaults hold, for the MCP path and the stateless flag, the same values the properties fall back to. */
  lemma DefaultServerTransport()
    ensures Walk(Defaults, ["server", "mcp_path"]) == Some(JStr("/mcp"))
    ensures Walk(Defaults, ["server", "stateless_http"]) == Some(JBool(true))
  {
    GetFrom(Defaults.fields, 0, "server");
    GetFrom(ServerDefaults.fields, 2, "mcp_path");
    WalkPair(Defaults, "server", "mcp_path");
    GetFrom(ServerDefaults.fields, 3, "stateless_http");
    WalkPair(Defaults, "server", "stateless_http");
  }

  /** The built-in defaults hold, for the observability switch and service name, the same values the properties fall back to. */
  lemma DefaultObservability()
    ensures Walk(Defaults, ["observability", "enabled"]) == Some(JBool(true))
    ensures Walk(Defaults, ["observability", "service_name"]) == Some(JStr("mcp-server"))
  {
    GetFrom(Defaults.fields, 3, "observability");
    GetFrom(ObservabilityDefaults.fields, 0, "enabled");
    WalkPair(Defaults, "observability", "enabled");
    GetFrom(ObservabilityDefaults.fields, 1, "service_name");
    WalkPair(Defaults, "observability", "service_name");
  }

  /** The built-in defaults hold, for the log level, the same values the properties fall back to. */
  lemma DefaultLogLevel()
    ensures Walk(Defaults, ["logging", "level"]) == Some(JStr("INFO"))
  {
    GetFrom(Defaults.fields, 4, "logging");
    GetFrom(LoggingDefaults.fields, 0, "level");
    WalkPair(Defaults, "logging", "level");
  }
}

=== FILE: direct_tools.dfy ===
/**
 * The three example tools registered directly with the server:
 * `process_text`, `validate_data` and `transform_json`.
 *
 * Each is the body of the tool; the tracing wrapper around it passes results
 * and exceptions through unchanged (see `Observability`), and the metric it
 * records is not modelled.
 */
module DirectTools {
  import opened Wrappers
  import opened Json
  import opened Py
  import Text
  import Validation

  // ---------------------------------------------------------------------------
  // process_text

  /** The longest text `process_text` works on. */
  const MaxTextLength := 10000

  /** The operations `process_text` offers, in the order its message lists them. */
  const Operations: seq<string> := ["uppercase", "lowercase", "title", "reverse", "length"]

  /** Python `t[::-1]`. */
  function Reversed(s: string): (r: string)
    ensures |r| == |s|
    ensures forall i :: 0 <= i < |s| ==> r[i] == s[|s| - 1 - i]
  {
    seq(|s|, i requires 0 <= i < |s| => s[|s| - 1 - i])
  }

  /** Reversing twice gives back the text. */
  lemma ReversedTwice(s: string)
    ensures Reversed(Reversed(s)) == s
  {
  }

  /** One of the five operations on sanitised text. */
  function Apply(operation: string, t: string): (r: string)
    requires operation in Operations
    ensures operation != "length" ==> |r| == |t|
  {
    match operation
    case "uppercase" => Text.Upper(t)
    case "lowercase" => Text.Lower(t)
    case "title" => Text.Title(t)
    case "reverse" => Reversed(t)
    case _ => Text.IntToString(|t|)
  }

  /** The reply to an operation that is not offered. */
  function UnknownOperation(operation: string): string {
    "Unknown operation: " + operation + ". Available: " + Text.Join(Operations, ", ")
  }

  /** The text an operation sees: stripped, then cut to its first 10000 characters. */
  function Clean(text: string): (t: string)
    ensures var n := if |Text.Strip(text)| <= MaxTextLength then |Text.Strip(text)| else MaxTextLength;
            t == Text.Strip(text)[..n]
  {
    Validation.SanitizeString(JStr(text), Some(MaxTextLength)).value
  }

  /** The operation a call without `operation` performs. */
  const DefaultOperation := "uppercase"

  /**
   * `process_text(text, operation)`: the text is sanitised (stripped and cut
   * to 10000 characters) first, so a non-string raises even for an unknown
   * operation; an unknown operation is answered, not raised. An omitted
   * operation is `uppercase`.
   */
  function ProcessText(text: Json, operation: Option<string>): (r: Result<string, Validation.ValidationException>)
    ensures r.Failure? <==> !text.JStr?
    ensures var op := operation.GetOr(DefaultOperation);
            r.Success? && op !in Operations ==> r.value == UnknownOperation(op)
    ensures var op := operation.GetOr(DefaultOperation);
            r.Success? && op in Operations ==> r.value == Apply(op, Clean(text.s))
    ensures var op := operation.GetOr(DefaultOperation);
            r.Success? && op in Operations && op != "length" ==> |r.value| <= MaxTextLength
  {
    var op := operation.GetOr(DefaultOperation);
    var clean := Validation.SanitizeString(text, Some(MaxTextLength));
    if clean.Failure? then Failure(clean.error)
    else if op !in Operations then Success(UnknownOperation(op))
    else Success(Apply(op, clean.value))
  }

  /** Without an operation, the sanitised text comes back upper-cased. */
  lemma DefaultUppercases(text: string)
    ensures ProcessText(JStr(text), None) == Success(Text.Upper(Clean(text)))
  {
    assert DefaultOperation in Operations;
  }

  /**
   * The three case operations agree with one another: lower-casing the
   * `uppercase` reply gives the `lowercase` reply and vice versa, and every
   * operation but `length` keeps the sanitised length.
   */
  lemma CaseOperationsAgree(text: string)
    ensures var up := ProcessText(JStr(text), Some("uppercase")).value;
            var low := ProcessText(JStr(text), Some("lowercase")).value;
            Text.Lower(up) == low && Text.Upper(low) == up
    ensures |ProcessText(JStr(text), Some("title")).value| == |Clean(text)|
  {
    var t := Clean(text);
    assert "uppercase" in Operations && "lowercase" in Operations && "title" in Operations;
    assert ProcessText(JStr(text), Some("uppercase")) == Success(Apply("uppercase", t)) == Success(Text.Upper(t));
    assert ProcessText(JStr(text), Some("lowercase")) == Success(Apply("lowercase", t)) == Success(Text.Lower(t));
    assert ProcessText(JStr(text), Some("title")) == Success(Apply("title", t));
    Text.LowerUpper(t);
  }

  /** Reversing the result of `reverse` gives the sanitised input back. */
  lemma ReverseUndoes(text: string)
    ensures ProcessText(JStr(text), Some("reverse")) == Success(Reversed(Clean(text)))
    ensures Reversed(ProcessText(JStr(text), Some("reverse")).value) == Clean(text)
  {
  }

  /** `length` answers the sanitised length in decimal, which `int()` reads back. */
  lemma LengthReadsBack(text: string)
    ensures ProcessText(JStr(text), Some("length")).Success?
    ensures Text.ParseInt(ProcessText(JStr(text), Some("length")).value) == Some(|Clean(text)|)
    ensures |Clean(text)| <= MaxTextLength
  {
    var t := Clean(text);
    assert "length" in Operations;
    assert Apply("length", t) == Text.IntToString(|t|);
    assert ProcessText(JStr(text), Some("length")) == Success(Text.IntToString(|t|));
    Text.IntToStringRoundTrip(|t|);
  }

  /** Text within the limit and without surrounding space reaches the operation unchanged. */
  lemma ShortTextUnchanged(text: string)
    requires |text| <= MaxTextLength
    requires text != [] ==> !Text.IsSpace(text[0]) && !Text.IsSpace(text[|text| - 1])
    ensures Clean(text) == text
  {
    Text.StripNoEdgeSpace(text);
  }

  /** A tool call passes the keyword arguments, so the required `text` check lets it through. */
  lemma TextArgumentAccepted(kwargs: Fields)
    requires "text" in Keys(kwargs)
    ensures Validation.RequireFields(["text"], [], kwargs) == Validation.Proceed
  {
  }

  // ---------------------------------------------------------------------------
  // validate_data

  /** One entry of the `errors` list; its text is rendered by `Message`. */
  datatype Issue =
    | MissingRequired(field: string)
    | WrongType(field: string, expected: string, actual: string)
    | BelowMin(field: string, min: Json)
    | AboveMax(field: string, max: Json)

  /** The message `validate_data` appends for an issue (bounds whose `str()` is modelled). */
  function Message(issue: Issue): Option<string> {
    match issue
    case MissingRequired(f) => Some("Missing required field: " + f)
    case WrongType(f, e, a) => Some("Field '" + f + "' must be " + e + ", got " + a)
    case BelowMin(f, m) => if Str(m).Some? then Some("Field '" + f + "' must be >= " + Str(m).value) else None
    case AboveMax(f, m) => if Str(m).Some? then Some("Field '" + f + "' must be <= " + Str(m).value) else None
  }

  /** The result dict of `validate_data`. */
  datatype Report = Report(valid: bool, errors: seq<Issue>, validatedFields: nat)

  /** The type a rule names: only `int`, `str`, `float` and `bool` are known; an unhashable name raises. */
  function RuleType(name: Json): PyResult<Option<PyType>> {
    match name
    case JArr(_) => Failure(TypeError)
    case JObj(_) => Failure(TypeError)
    case JStr("int") => Success(Some(IntType))
    case JStr("str") => Success(Some(StrType))
    case JStr("float") => Success(Some(FloatType))
    case JStr("bool") => Success(Some(BoolType))
    case _ => Success(None)
  }

  /**
   * The issues one rule finds, in the order they are appended. The rule is
   * used with Python's `in`, `[]` and `.get`, so a rule that is not a dict
   * raises the exception those raise on it.
   */
  function FieldIssues(field: string, rule: Json, data: Fields): (r: PyResult<seq<Issue>>)
    ensures r.Success? ==> About(r.value, field)
  {
    var value := Get(data, field);
    if value.None? then
      var required := GetOr(rule, "required", JBool(false));
      if required.Failure? then Failure(required.error)
      else Success(if Truthy(required.value) then [MissingRequired(field)] else [])
    else
      var typeIssues := TypeIssues(field, rule, value.value);
      if typeIssues.Failure? then typeIssues
      else
        var rangeIssues := RangeIssues(field, rule, value.value);
        if rangeIssues.Failure? then rangeIssues
        else Success(typeIssues.value + rangeIssues.value)
  }

  /** The type check: only when the rule names one of the four known types. */
  function TypeIssues(field: string, rule: Json, value: Json): (r: PyResult<seq<Issue>>)
    ensures r.Success? ==> About(r.value, field) && |r.value| <= 1
  {
    var hasType := In("type", rule);
    if hasType.Failure? then Failure(hasType.error)
    else if !hasType.value then Success([])
    else
      var name := Index(rule, "type");
      if name.Failure? then Failure(name.error)
      else
        var expected := RuleType(name.value);
        if expected.Failure? then Failure(expected.error)
        else if expected.value.Some? && !IsInstance(value, expected.value.value) then
          Success([WrongType(field, name.value.s, TypeName(TypeOf(value)))])
        else Success([])
  }

  /** One bound: `key in rule and test(value, rule[key])`, Python's `and` short-circuiting. */
  function Bound(rule: Json, key: string, value: Json, below: bool): PyResult<bool> {
    var has := In(key, rule);
    if has.Failure? then Failure(has.error)
    else if !has.value then Success(false)
    else
      var limit := Index(rule, key);
      if limit.Failure? then Failure(limit.error)
      else if below then Less(value, limit.value)
      else Less(limit.value, value)
  }

  /** The bounds checks: only for `int`, `float` and `bool` values. */
  function RangeIssues(field: string, rule: Json, value: Json): (r: PyResult<seq<Issue>>)
    ensures r.Success? ==> About(r.value, field) && |r.value| <= 2
  {
    if !(IsInstance(value, IntType) || IsInstance(value, FloatType)) then Success([])
    else
      var below := Bound(rule, "min", value, true);
      if below.Failure? then Failure(below.error)
      else
        var above := Bound(rule, "max", value, false);
        if above.Failure? then Failure(above.error)
        else Success((if below.value then [BelowMin(field, Index(rule, "min").value)] else []) +
                     (if above.value then [AboveMax(field, Index(rule, "max").value)] else []))
  }

  /** Every issue in the list concerns `field`. */
  predicate About(issues: seq<Issue>, field: string) {
    forall i :: 0 <= i < |issues| ==> issues[i].field == field
  }

  /** The `errors` list after the first `k` rules, or the exception one of them raised. */
  function IssuesUpTo(rules: Fields, data: Fields, k: nat): PyResult<seq<Issue>>
    requires k <= |rules|
  {
    if k == 0 then Success([])
    else
      var before := IssuesUpTo(rules, data, k - 1);
      if before.Failure? then before
      else
        var more := FieldIssues(rules[k - 1].0, rules[k - 1].1, data);
        if more.Failure? then Failure(more.error) else Success(before.value + more.value)
  }

  /**
   * `validate_data(data, rules)`. The reported count `|data|` is `len(data)`,
   * as a dict's fields hold each key once.
   */
  method ValidateData(data: Fields, rules: Fields) returns (r: PyResult<Report>)
    ensures var issues := IssuesUpTo(rules, data, |rules|);
      && (issues.Failure? ==> r == Failure(issues.error))
      && (issues.Success? ==> r == Success(Report(issues.value == [], issues.value, |data|)))
  {
    var errors: seq<Issue> := [];
    for k := 0 to |rules|
      invariant IssuesUpTo(rules, data, k) == Success(errors)
    {
      var more := FieldIssues(rules[k].0, rules[k].1, data);
      if more.Failure? {
        IssuesFailureStays(rules, data, k + 1);
        return Failure(more.error);
      }
      errors := errors + more.value;
    }
    r := Success(Report(|errors| == 0, errors, |data|));
  }

  lemma {:induction false} IssuesFailureStays(rules: Fields, data: Fields, k: nat)
    requires 0 < k <= |rules| && IssuesUpTo(rules, data, k).Failure?
    ensures IssuesUpTo(rules, data, |rules|) == IssuesUpTo(rules, data, k)
    decreases |rules| - k
  {
    if k < |rules| {
      IssuesFailureStays(rules, data, k + 1);
    }
  }

  /** A missing field is an error exactly when its rule says `required` (truthily); nothing else is checked for it. */
  lemma MissingFieldIssue(field: string, rs: Fields, data: Fields)
    requires field !in Keys(data)
    ensures FieldIssues(field, JObj(rs), data) ==
              Success(if Truthy(Get(rs, "required").GetOr(JBool(false))) then [MissingRequired(field)] else [])
  {
  }

  /** A type name other than the four known ones is ignored. */
  lemma UnknownTypeIgnored(field: string, name: string, value: Json)
    requires name !in ["int", "str", "float", "bool"]
    ensures TypeIssues(field, JObj([("type", JStr(name))]), value) == Success([])
  {
  }

  /** A `bool` passes an `int` rule, as `isinstance(True, int)` holds. */
  lemma BoolIsInt(field: string, b: bool)
    ensures TypeIssues(field, JObj([("type", JStr("int"))]), JBool(b)) == Success([])
  {
  }

  /** Bounds are not checked for values that are not numbers, whatever the rule says. */
  lemma BoundsOnlyForNumbers(field: string, rule: Json, value: Json)
    requires Number(value).None?
    ensures RangeIssues(field, rule, value) == Success([])
  {
  }

  /** For numeric bounds, a number is reported exactly when it lies strictly outside them. */
  lemma NumericBounds(field: string, value: int, lo: int, hi: int)
    ensures var rule := JObj([("min", JInt(lo)), ("max", JInt(hi))]);
            RangeIssues(field, rule, JInt(value)) ==
              Success((if value < lo then [BelowMin(field, JInt(lo))] else []) + (if value > hi then [AboveMax(field, JInt(hi))] else []))
  {
    var rs := [("min", JInt(lo)), ("max", JInt(hi))];
    assert Get(rs, "min") == Some(JInt(lo));
    assert Get(rs, "max") == Some(JInt(hi));
    assert Keys(rs[1..]) == ["max"];
    assert Keys(rs) == ["min", "max"];
  }

  /** Every reported issue names the field of one of the rules checked, never a field of the data alone. */
  lemma {:induction false} IssuesNameRuledFields(rules: Fields, data: Fields, k: nat)
    requires k <= |rules| && IssuesUpTo(rules, data, k).Success?
    ensures var issues := IssuesUpTo(rules, data, k).value;
            forall j :: 0 <= j < |issues| ==> exists i :: 0 <= i < k && issues[j].field == rules[i].0
  {
    if k > 0 {
      var before := IssuesUpTo(rules, data, k - 1).value;
      var more := FieldIssues(rules[k - 1].0, rules[k - 1].1, data).value;
      IssuesNameRuledFields(rules, data, k - 1);
      var issues := IssuesUpTo(rules, data, k).value;
      assert issues == before + more;
      forall j | 0 <= j < |issues|
        ensures exists i :: 0 <= i < k && issues[j].field == rules[i].0
      {
        if j < |before| {
          assert issues[j] == before[j];
        } else {
          assert issues[j] == more[j - |before|];
        }
      }
    }
  }

  // ---------------------------------------------------------------------------
  // transform_json

  /** The `result` dict after the renaming loop has seen the first `k` mappings. */
  function RenamedUpTo(data: Fields, mappings: seq<(string, string)>, k: nat): Fields
    requires k <= |mappings|
  {
    if k == 0 then []
    else
      var result := RenamedUpTo(data, mappings, k - 1);
      var (oldKey, newKey) := mappings[k - 1];
      if oldKey in Keys(data) then Put(result, newKey, Get(data, oldKey).value) else result
  }

  /** The `result` dict after the copying loop has seen the first `k` entries of `data`. */
  function CopiedUpTo(data: Fields, mappings: seq<(string, string)>, renamed: Fields, k: nat): Fields
    requires k <= |data|
  {
    if k == 0 then renamed
    else
      var result := CopiedUpTo(data, mappings, renamed, k - 1);
      var (key, value) := data[k - 1];
      if key !in MappedKeys(mappings) then Put(result, key, value) else result
  }

  function MappedKeys(mappings: seq<(string, string)>): (ks: seq<string>)
    ensures |ks| == |mappings| && forall i :: 0 <= i < |mappings| ==> ks[i] == mappings[i].0
  {
    seq(|mappings|, i requires 0 <= i < |mappings| => mappings[i].0)
  }

  /** `transform_json(data, transformations)`, with its two loops. */
  method TransformJson(data: Fields, mappings: seq<(string, string)>) returns (result: Fields)
    ensures result == CopiedUpTo(data, mappings, RenamedUpTo(data, mappings, |mappings|), |data|)
  {
    result := [];
    for k := 0 to |mappings|
      invariant result == RenamedUpTo(data, mappings, k)
    {
      var (oldKey, newKey) := mappings[k];
      var value := Get(data, oldKey);
      if value.Some? {
        result := Put(result, newKey, value.value);
      }
    }
    ghost var renamed := result;
    var mapped := MappedKeys(mappings);
    for k := 0 to |data|
      invariant result == CopiedUpTo(data, mappings, renamed, k)
    {
      var (key, value) := data[k];
      if key !in mapped {
        result := Put(result, key, value);
      }
    }
  }

  /** The value the renaming loop leaves under `key`: that of the last mapping onto `key` whose source is present. */
  function LastRename(data: Fields, mappings: seq<(string, string)>, key: string, k: nat): Option<Json>
    requires k <= |mappings|
  {
    if k == 0 then None
    else if mappings[k - 1].1 == key && mappings[k - 1].0 in Keys(data) then Get(data, mappings[k - 1].0)
    else LastRename(data, mappings, key, k - 1)
  }

  lemma {:induction false} RenamedGet(data: Fields, mappings: seq<(string, string)>, key: string, k: nat)
    requires k <= |mappings|
    ensures Get(RenamedUpTo(data, mappings, k), key) == LastRename(data, mappings, key, k)
  {
    if k > 0 {
      RenamedGet(data, mappings, key, k - 1);
    }
  }

  lemma {:induction false} CopiedGet(data: Fields, mappings: seq<(string, string)>, renamed: Fields, key: string, k: nat)
    requires k <= |data| && UniqueKeys(data)
    ensures Get(CopiedUpTo(data, mappings, renamed, k), key) ==
              if key in Keys(data[..k]) && key !in MappedKeys(mappings) then Get(data, key) else Get(renamed, key)
  {
    if k > 0 {
      CopiedGet(data, mappings, renamed, key, k - 1);
      assert data[..k] == data[..k - 1] + [data[k - 1]];
      KeysAppend(data[..k - 1], data[k - 1]);
      if data[k - 1].0 == key {
        GetUnique(data, k - 1, key);
      }
    }
  }

  lemma GetUnique(fs: Fields, n: nat, k: string)
    requires UniqueKeys(fs) && n < |fs| && fs[n].0 == k
    ensures Get(fs, k) == Some(fs[n].1)
  {
    KeysAt(fs);
    forall m | 0 <= m < n
      ensures fs[m].0 != k
    {
      UniqueAt(fs, m, n);
    }
    GetFrom(fs, n, k);
  }

  /**
   * What `transform_json` returns under each key: an unmapped key of `data`
   * keeps its value (overwriting a rename onto the same name); otherwise the
   * value of the last mapping onto that key whose source is present; a
   * mapping whose source is absent contributes nothing.
   */
  lemma TransformedValue(data: Fields, mappings: seq<(string, string)>, key: string)
    requires UniqueKeys(data)
    ensures var result := CopiedUpTo(data, mappings, RenamedUpTo(data, mappings, |mappings|), |data|);
            Get(result, key) ==
              if key in Keys(data) && key !in MappedKeys(mappings) then Get(data, key)
              else LastRename(data, mappings, key, |mappings|)
  {
    CopiedGet(data, mappings, RenamedUpTo(data, mappings, |mappings|), key, |data|);
    assert data[..|data|] == data;
    RenamedGet(data, mappings, key, |mappings|);
  }
}

=== FILE: error_handling.dfy ===
/**
 * The server's error classes and the shape of the error responses built from
 * them. A response is its JSON body and HTTP status; the stack-trace text and
 * the logger are outside the model, so the trace is a parameter.
 */
module ErrorHandling {
  import opened Wrappers
  import opened Json
  import Text

  /** `MCPError` and its subclasses: a message, a code and a details dict. */
  datatype McpError = McpError(message: string, code: string, details: Fields)

  /**
   * An exception reaching a handler: one of the server's own (with the name of
   * its class), or any other, with its class name and its `str()`.
   */
  datatype Raised = Mcp(className: string, error: McpError) | Other(typeName: string, text: string)

  /** The content and status of a `JSONResponse`. */
  datatype Response = Response(content: Json, status: int)

  /** Python `details or {}` for an optional dict. */
  function DetailsOrEmpty(details: Option<Fields>): (r: Fields)
    ensures details.Some? && details.value != [] ==> r == details.value
    ensures details.None? || details.value == [] ==> r == []
  {
    if details.Some? then details.value else []
  }

  /** `MCPError(message, code="internal_error", details=None)`. */
  function NewMcpError(message: string, code: Option<string>, details: Option<Fields>): (e: McpError)
    ensures e.message == message
    ensures e.code == code.GetOr("internal_error")
    ensures e.details == DetailsOrEmpty(details)
  {
    McpError(message, code.GetOr("internal_error"), DetailsOrEmpty(details))
  }

  /** `ToolNotFoundError(tool_name)`. */
  function ToolNotFound(toolName: string): (e: McpError)
    ensures e.code == "tool_not_found"
    ensures e.message == "Tool '" + toolName + "' not found"
    ensures Get(e.details, "tool_name") == Some(JStr(toolName)) && Keys(e.details) == ["tool_name"]
  {
    NewMcpError("Tool '" + toolName + "' not found", Some("tool_not_found"), Some([("tool_name", JStr(toolName))]))
  }

  /** `ValidationError(message, details=None)`. */
  function ValidationError(message: string, details: Option<Fields>): (e: McpError)
    ensures e.code == "validation_error" && e.message == message
    ensures e.details == DetailsOrEmpty(details)
  {
    NewMcpError(message, Some("validation_error"), details)
  }

  /** `ToolExecutionError(tool_name, error)`. */
  function ToolExecutionError(toolName: string, error: string): (e: McpError)
    ensures e.code == "tool_execution_error"
    ensures e.message == "Tool '" + toolName + "' execution failed: " + error
    ensures Keys(e.details) == ["tool_name", "error"]
    ensures Get(e.details, "tool_name") == Some(JStr(toolName)) && Get(e.details, "error") == Some(JStr(error))
  {
    var details := [("tool_name", JStr(toolName)), ("error", JStr(error))];
    assert Keys(details[1..]) == ["error"];
    NewMcpError("Tool '" + toolName + "' execution failed: " + error, Some("tool_execution_error"), Some(details))
  }

  /**
   * The `error` object of an error response: `code` and `message`, then
   * `details` when they are truthy, then `stack_trace` when asked for.
   */
  function ErrorFields(message: string, code: string, details: Option<Fields>,
                       includeStackTrace: bool, trace: string): (body: Fields)
    ensures Get(body, "code") == Some(JStr(code))
    ensures Get(body, "message") == Some(JStr(message))
    ensures "details" in Keys(body) <==> details.Some? && details.value != []
    ensures details.Some? && details.value != [] ==> Get(body, "details") == Some(JObj(details.value))
    ensures "stack_trace" in Keys(body) <==> includeStackTrace
    ensures includeStackTrace ==> Get(body, "stack_trace") == Some(JStr(trace))
  {
    var base := [("code", JStr(code)), ("message", JStr(message))];
    BaseFields(code, message);
    var withDetails := if details.Some? && details.value != [] then Put(base, "details", JObj(details.value)) else base;
    assert "stack_trace" !in Keys(withDetails);
    if includeStackTrace then Put(withDetails, "stack_trace", JStr(trace)) else withDetails
  }

  /** The two fields every error object starts with, and the optional keys it lacks so far. */
  lemma BaseFields(code: string, message: string)
    ensures var base := [("code", JStr(code)), ("message", JStr(message))];
      && Get(base, "code") == Some(JStr(code)) && Get(base, "message") == Some(JStr(message))
      && Keys(base) == ["code", "message"]
      && "details" !in Keys(base) && "stack_trace" !in Keys(base)
      && "details" != "code" && "details" != "message" && "details" != "stack_trace"
      && "stack_trace" != "code" && "stack_trace" != "message"
  {
    var base := [("code", JStr(code)), ("message", JStr(message))];
    assert Keys(base[1..]) == ["message"];
    assert "details"[0] != "message"[0] && "details"[0] != "stack_trace"[0];
  }

  /** A response whose content is `{"error": {...}}`. */
  predicate IsErrorResponse(r: Response) {
    && r.content.JObj?
    && Keys(r.content.fields) == ["error"]
    && Get(r.content.fields, "error").Some?
    && Get(r.content.fields, "error").value.JObj?
  }

  /** The `error` object of an error response. */
  function ErrorBody(r: Response): Fields
    requires IsErrorResponse(r)
  {
    Get(r.content.fields, "error").value.fields
  }

  /**
   * `create_error_response(message, code="error", details=None,
   * status_code=400, include_stack_trace=False)`; `trace` stands for the text
   * `traceback.format_exc()` would give.
   */
  function CreateErrorResponse(message: string, code: Option<string>, details: Option<Fields>,
                               status: Option<int>, includeStackTrace: bool, trace: string): (r: Response)
    ensures r.status == status.GetOr(400)
    ensures IsErrorResponse(r)
    ensures ErrorBody(r) == ErrorFields(message, code.GetOr("error"), details, includeStackTrace, trace)
  {
    var content := [("error", JObj(ErrorFields(message, code.GetOr("error"), details, includeStackTrace, trace)))];
    assert Keys(content) == ["error"];
    Response(JObj(content), status.GetOr(400))
  }

  /** `handle_validation_error`: 422, `validation_error`, the exception text under `details.error`. */
  function HandleValidationError(path: string, exc: string): (r: Response)
    ensures r.status == 422
    ensures IsErrorResponse(r) && var body := ErrorBody(r);
      && Get(body, "code") == Some(JStr("validation_error"))
      && Get(body, "message") == Some(JStr("Invalid input parameters"))
      && Get(body, "details") == Some(JObj([("error", JStr(exc))]))
      && "stack_trace" !in Keys(body)
  {
    CreateErrorResponse("Invalid input parameters", Some("validation_error"), Some([("error", JStr(exc))]), Some(422), false, "")
  }

  /** `handle_not_found_error`: 404, `not_found`, the request path under `details.path`. */
  function HandleNotFoundError(path: string, exc: string): (r: Response)
    ensures r.status == 404
    ensures IsErrorResponse(r) && var body := ErrorBody(r);
      && Get(body, "code") == Some(JStr("not_found"))
      && Get(body, "message") == Some(JStr("Requested resource not found"))
      && Get(body, "details") == Some(JObj([("path", JStr(path))]))
      && "stack_trace" !in Keys(body)
  {
    CreateErrorResponse("Requested resource not found", Some("not_found"), Some([("path", JStr(path))]), Some(404), false, "")
  }

  /** `handle_internal_error`: 500, `internal_error`, and never a stack trace. */
  function HandleInternalError(path: string, exc: string): (r: Response)
    ensures r.status == 500
    ensures IsErrorResponse(r) && var body := ErrorBody(r);
      && Get(body, "code") == Some(JStr("internal_error"))
      && Get(body, "message") == Some(JStr("An internal error occurred"))
      && Get(body, "details") == Some(JObj([("error", JStr(exc))]))
      && "stack_trace" !in Keys(body)
  {
    CreateErrorResponse("An internal error occurred", Some("internal_error"), Some([("error", JStr(exc))]), Some(500), false, "")
  }

  /** What a tool wrapped by `handle_tool_errors` gives back. */
  datatype ToolReply = Returned(value: Json) | ErrorReply(response: Response)

  /** `handle_tool_errors`: results pass through; exceptions become error responses. */
  function HandleToolErrors(outcome: Result<Json, Raised>): (r: ToolReply)
    ensures outcome.Success? <==> r.Returned?
    ensures outcome.Success? ==> r.value == outcome.value
    ensures r.ErrorReply? ==> r.response.status == 400 && IsErrorResponse(r.response)
  {
    if outcome.Success? then Returned(outcome.value)
    else match outcome.error
      case Mcp(_, e) => ErrorReply(CreateErrorResponse(e.message, Some(e.code), Some(e.details), None, false, ""))
      case Other(_, text) =>
        ErrorReply(CreateErrorResponse("An unexpected error occurred", Some("internal_error"), Some([("error", JStr(text))]), None, false, ""))
  }

  /** A server error keeps its own message, code and (non-empty) details. */
  lemma McpErrorReply(className: string, e: McpError)
    ensures var r := HandleToolErrors(Failure(Mcp(className, e)));
      && r.ErrorReply?
      && var body := ErrorBody(r.response);
      && Get(body, "code") == Some(JStr(e.code))
      && Get(body, "message") == Some(JStr(e.message))
      && ("details" in Keys(body) <==> e.details != [])
      && (e.details != [] ==> Get(body, "details") == Some(JObj(e.details)))
  {
  }

  /** Any other exception is reported as an unexpected internal error carrying its text. */
  lemma OtherErrorReply(typeName: string, text: string)
    ensures var r := HandleToolErrors(Failure(Other(typeName, text)));
      && r.ErrorReply?
      && var body := ErrorBody(r.response);
      && Get(body, "code") == Some(JStr("internal_error"))
      && Get(body, "message") == Some(JStr("An unexpected error occurred"))
      && Get(body, "details") == Some(JObj([("error", JStr(text))]))
  {
  }

  /** A tool that is not found is reported with its name, under its own code. */
  lemma NotFoundToolReply(toolName: string)
    ensures var r := HandleToolErrors(Failure(Mcp("ToolNotFoundError", ToolNotFound(toolName))));
      && r.ErrorReply?
      && Get(ErrorBody(r.response), "code") == Some(JStr("tool_not_found"))
      && Get(ErrorBody(r.response), "details") == Some(JObj([("tool_name", JStr(toolName))]))
  {
    McpErrorReply("ToolNotFoundError", ToolNotFound(toolName));
  }

  /** A validation error raised without details carries none in its reply. */
  lemma BareValidationReply(message: string)
    ensures var r := HandleToolErrors(Failure(Mcp("ValidationError", ValidationError(message, None))));
      && r.ErrorReply? && "details" !in Keys(ErrorBody(r.response))
  {
    McpErrorReply("ValidationError", ValidationError(message, None));
  }

  /** One `k=v` entry of the log context; `v` is the `str()` of the value. */
  function ContextEntry(kv: (string, string)): string {
    kv.0 + "=" + kv.1
  }

  /** The `k=v` entries of a context, in its insertion order. */
  function ContextEntries(context: seq<(string, string)>): (es: seq<string>)
    ensures |es| == |context|
    ensures forall i :: 0 <= i < |context| ==> es[i] == ContextEntry(context[i])
  {
    seq(|context|, i requires 0 <= i < |context| => ContextEntry(context[i]))
  }

  const ContextPrefix := " | Context: "

  /** The suffix `log_error` appends to its message. */
  function LogContext(context: seq<(string, string)>): (r: string)
    ensures r == "" <==> context == []
    ensures context != [] ==> |r| > |ContextPrefix| && r[..|ContextPrefix|] == ContextPrefix
  {
    if context == [] then ""
    else ContextPrefix + Text.Join(ContextEntries(context), ", ")
  }

  /** The line `log_error` logs. */
  function LogLine(typeName: string, text: string, context: seq<(string, string)>): string {
    "Error: " + typeName + ": " + text + LogContext(context)
  }

  /** Each entry is followed by `, ` and the rest, in insertion order. */
  lemma ContextEntriesInOrder(kv: (string, string), rest: seq<(string, string)>)
    requires rest != []
    ensures LogContext([kv] + rest) == ContextPrefix + ContextEntry(kv) + ", " + LogContext(rest)[|ContextPrefix|..]
  {
    var es := ContextEntries([kv] + rest);
    assert es[1..] == ContextEntries(rest);
  }

  /** What `safe_execute` returns: `(result, None)` or `(None, e)`. */
  datatype Pair = Pair(result: Option<Json>, error: Option<Raised>)

  /** `safe_execute(func, ...)`, given what the call returned or raised. */
  function SafeExecute(outcome: Result<Json, Raised>): (p: Pair)
    ensures p.error.None? <==> outcome.Success?
    ensures outcome.Success? ==> p.result == Some(outcome.value)
    ensures outcome.Failure? ==> p.result.None? && p.error == Some(outcome.error)
  {
    if outcome.Success? then Pair(Some(outcome.value), None) else Pair(None, Some(outcome.error))
  }

  /** The line `safe_execute` logs for a failure names the function. */
  function SafeExecuteLog(functionName: string, outcome: Result<Json, Raised>): (line: Option<string>)
    ensures line.Some? <==> outcome.Failure?
  {
    if outcome.Success? then None
    else
      var (typeName, text) := match outcome.error
        case Mcp(c, e) => (c, e.message)
        case Other(t, x) => (t, x);
      Some(LogLine(typeName, text, [("function", functionName)]))
  }

  /** The failure line ends with ` | Context: function=<name>`. */
  lemma SafeExecuteNamesFunction(functionName: string, typeName: string, text: string)
    ensures SafeExecuteLog(functionName, Failure(Other(typeName, text))) ==
              Some("Error: " + typeName + ": " + text + " | Context: function=" + functionName)
  {
    var es := ContextEntries([("function", functionName)]);
    assert "function" + "=" == "function=";
    assert es == ["function=" + functionName];
    assert ContextPrefix + "function=" == " | Context: function=";
    assert Text.Join(es, ", ") == "function=" + functionName;
    var suffix := LogContext([("function", functionName)]);
    assert suffix == " | Context: function=" + functionName;
    assert SafeExecuteLog(functionName, Failure(Other(typeName, text))) == Some(LogLine(typeName, text, [("function", functionName)]));
    var head := "Error: " + typeName + ": " + text;
    assert LogLine(typeName, text, [("function", functionName)]) == head + suffix;
    assert head + (" | Context: function=" + functionName) == head + " | Context: function=" + functionName;
  }
}

=== FILE: json.dfy ===
/**
 * JSON values as the core sees them after `json.loads` (or as Python dicts and
 * lists it builds). An object is an ordered sequence of key/value pairs, because
 * Python dicts keep insertion order and several outputs show it.
 */
module Json {
  import opened Wrappers

  datatype Json =
    | JNull
    | JBool(b: bool)
    | JInt(i: int)
    | JFloat(f: real)
    | JStr(s: string)
    | JArr(items: seq<Json>)
    | JObj(fields: seq<(string, Json)>)

  type Fields = seq<(string, Json)>

  /** The keys of a dict, in insertion order. */
  function Keys(fs: Fields): seq<string>
  {
    if fs == [] then [] else [fs[0].0] + Keys(fs[1..])
  }

  /** No key occurs twice, as in every Python dict. */
  predicate UniqueKeys(fs: Fields)
  {
    fs == [] || (fs[0].0 !in Keys(fs[1..]) && UniqueKeys(fs[1..]))
  }

  /** Python `d.get(k)`: the value stored under `k`, if any. */
  function Get(fs: Fields, k: string): (r: Option<Json>)
    ensures r.Some? <==> k in Keys(fs)
    ensures r.Some? ==> (k, r.value) in fs
  {
    if fs == [] then None
    else if fs[0].0 == k then Some(fs[0].1)
    else Get(fs[1..], k)
  }

  /**
   * Python `d[k] = v`: an existing key keeps its position and gets the new value,
   * a new key is appended at the end.
   */
  function Put(fs: Fields, k: string, v: Json): (r: Fields)
    ensures Get(r, k) == Some(v)
    ensures forall k' :: k' != k ==> Get(r, k') == Get(fs, k')
    ensures Keys(r) == if k in Keys(fs) then Keys(fs) else Keys(fs) + [k]
    ensures UniqueKeys(fs) ==> UniqueKeys(r)
  {
    if fs == [] then [(k, v)]
    else if fs[0].0 == k then [(k, v)] + fs[1..]
    else [fs[0]] + Put(fs[1..], k, v)
  }

  /** Python `dict(pairs)` built by assigning the pairs in order. */
  function FromPairs(pairs: Fields): (r: Fields)
    ensures UniqueKeys(r)
    ensures forall k :: k in Keys(r) <==> k in Keys(pairs)
  {
    if pairs == [] then []
    else
      var init, last := pairs[..|pairs| - 1], pairs[|pairs| - 1];
      KeysAppend(init, last);
      assert init + [last] == pairs;
      Put(FromPairs(init), last.0, last.1)
  }

  lemma {:induction false} KeysAppend(fs: Fields, kv: (string, Json))
    ensures Keys(fs + [kv]) == Keys(fs) + [kv.0]
  {
    if fs != [] {
      assert (fs + [kv])[1..] == fs[1..] + [kv];
      KeysAppend(fs[1..], kv);
    }
  }

  /** The first value under a key of a dict with unique keys is the one at its position. */
  lemma {:induction false} GetAt(fs: Fields, i: nat)
    requires UniqueKeys(fs) && i < |fs|
    ensures Get(fs, fs[i].0) == Some(fs[i].1)
  {
    if i > 0 {
      GetAt(fs[1..], i - 1);
      assert fs[1..][i - 1] == fs[i];
    }
  }

  /** The keys list has one entry per field, at the same position. */
  lemma {:induction false} KeysAt(fs: Fields)
    ensures |Keys(fs)| == |fs|
    ensures forall j :: 0 <= j < |fs| ==> Keys(fs)[j] == fs[j].0
  {
    if fs != [] {
      KeysAt(fs[1..]);
      assert forall j :: 1 <= j < |fs| ==> fs[j] == fs[1..][j - 1];
    }
  }

  /** In a dict with unique keys, two positions hold two different keys. */
  lemma {:induction false} UniqueAt(fs: Fields, i: nat, j: nat)
    requires UniqueKeys(fs) && i < j < |fs|
    ensures fs[i].0 != fs[j].0
  {
    KeysAt(fs[1..]);
    if i > 0 {
      UniqueAt(fs[1..], i - 1, j - 1);
    } else {
      assert Keys(fs[1..])[j - 1] == fs[j].0;
    }
  }

  /** Every dict nested anywhere in `j` has unique keys, as every Python dict does. */
  predicate DeepUnique(j: Json)
    decreases j
  {
    match j
    case JObj(fs) => UniqueKeys(fs) && forall i :: 0 <= i < |fs| ==> DeepUnique(fs[i].1)
    case JArr(items) => forall i :: 0 <= i < |items| ==> DeepUnique(items[i])
    case _ => true
  }

  /** Assigning a new key appends it at the end. */
  lemma {:induction false} PutAbsent(fs: Fields, k: string, v: Json)
    requires k !in Keys(fs)
    ensures Put(fs, k, v) == fs + [(k, v)]
  {
    if fs != [] {
      PutAbsent(fs[1..], k, v);
      assert [fs[0]] + (fs[1..] + [(k, v)]) == fs + [(k, v)];
    }
  }

  /** A lookup passes over the fields before the first one that holds the key. */
  lemma {:induction false} GetFrom(fs: Fields, n: nat, k: string)
    requires n < |fs| && fs[n].0 == k
    requires forall m :: 0 <= m < n ==> fs[m].0 != k
    ensures Get(fs, k) == Some(fs[n].1)
  {
    if n > 0 {
      GetFrom(fs[1..], n - 1, k);
    }
  }
}

=== FILE: observability.dfy ===
/**
 * Tool metrics and the tracing decorator. OpenTelemetry itself (tracer,
 * meter, baggage) is outside the model: whether it is installed is a
 * parameter, and the span the decorator would open is returned as a value.
 */
module Observability {
  import opened Wrappers
  import opened Json
  import ErrorHandling

  /** The per-tool counters of `ToolMetrics`. */
  class ToolMetrics {
    const toolName: string
    var invocations: nat
    var errors: nat
    var totalDuration: real

    /** A new tracker starts with all counters at zero. */
    constructor (toolName: string)
      ensures this.toolName == toolName
      ensures invocations == 0 && errors == 0 && totalDuration == 0.0
    {
      this.toolName := toolName;
      invocations := 0;
      errors := 0;
      totalDuration := 0.0;
    }

    /** `record_invocation`: one more invocation, nothing else changes. */
    method RecordInvocation()
      modifies this
      ensures invocations == old(invocations) + 1
      ensures errors == old(errors) && totalDuration == old(totalDuration)
    {
      invocations := invocations + 1;
    }

    /** `record_error`: one more error, nothing else changes. */
    method RecordError()
      modifies this
      ensures errors == old(errors) + 1
      ensures invocations == old(invocations) && totalDuration == old(totalDuration)
    {
      errors := errors + 1;
    }

    /** `record_duration(duration_ms)`: the total grows by the duration, nothing else changes. */
    method RecordDuration(durationMs: real)
      modifies this
      ensures totalDuration == old(totalDuration) + durationMs
      ensures invocations == old(invocations) && errors == old(errors)
    {
      totalDuration := totalDuration + durationMs;
    }

    /**
     * `get_stats()`: the counters as they are, and the average duration and
     * error rate per invocation, both the integer 0 before any invocation.
     */
    function GetStats(): (s: Stats)
      reads this
      ensures s.toolName == toolName && s.invocations == invocations && s.errors == errors
      ensures invocations == 0 ==> s.errorRate == JInt(0) && s.avgDurationMs == JInt(0)
      ensures invocations > 0 ==> s.errorRate.JFloat? && s.avgDurationMs.JFloat?
      ensures invocations > 0 ==> s.errorRate.f * invocations as real == errors as real
      ensures invocations > 0 ==> s.avgDurationMs.f * invocations as real == totalDuration
    {
      var n := invocations as real;
      var avg := if invocations > 0 then JFloat(totalDuration / n) else JInt(0);
      var rate := if invocations > 0 then JFloat(errors as real / n) else JInt(0);
      Stats(toolName, invocations, errors, rate, avg)
    }
  }

  /** The dict `get_stats` returns, key by key in its order. */
  datatype Stats = Stats(toolName: string, invocations: nat, errors: nat, errorRate: Json, avgDurationMs: Json)

  /** While every invocation is counted before its error, the error rate is a fraction. */
  lemma ErrorRateAtMostOne(m: ToolMetrics)
    requires 0 < m.invocations && m.errors <= m.invocations
    ensures 0.0 <= m.GetStats().errorRate.f <= 1.0
  {
    var r := m.GetStats().errorRate.f;
    var n := m.invocations as real;
    assert r * n == m.errors as real <= n;
    assert (r - 1.0) * n <= 0.0;
  }

  /** Invoking, timing and failing once each, from a fresh tracker. */
  method OneFailedCall(toolName: string, durationMs: real) returns (m: ToolMetrics)
    ensures fresh(m)
    ensures m.invocations == 1 && m.errors == 1 && m.totalDuration == durationMs
    ensures m.GetStats().errorRate == JFloat(1.0)
    ensures m.GetStats().avgDurationMs == JFloat(durationMs)
  {
    m := new ToolMetrics(toolName);
    m.RecordInvocation();
    m.RecordDuration(durationMs);
    m.RecordError();
  }

  /** How a span ends: OK, or an error carrying the exception's text. */
  datatype SpanStatus = StatusOk | StatusError(description: string)

  /** The span `trace_tool_execution` opens around a call. */
  datatype Span = Span(name: string, attributes: Fields, durationMs: Option<real>, status: SpanStatus)

  /** `str(e)` of an exception reaching the decorator. */
  function ExceptionText(e: ErrorHandling.Raised): string {
    match e
    case Mcp(_, err) => err.message
    case Other(_, text) => text
  }

  /** What the decorated call gives its caller, and the span it records (none without OpenTelemetry). */
  datatype Traced = Traced(outcome: Result<Json, ErrorHandling.Raised>, span: Option<Span>)

  /**
   * `trace_tool_execution(tool_name)` applied to a function, sync or async
   * alike: `outcome` is what the function returned or raised and
   * `elapsedSeconds` the clock difference around it.
   */
  function TraceToolExecution(otelAvailable: bool, toolName: string, functionName: string,
                              outcome: Result<Json, ErrorHandling.Raised>, elapsedSeconds: real): (t: Traced)
    ensures t.outcome == outcome
    ensures t.span.Some? <==> otelAvailable
    ensures t.span.Some? ==> t.span.value.name == "tool." + toolName
    ensures t.span.Some? ==> Get(t.span.value.attributes, "tool.name") == Some(JStr(toolName))
    ensures t.span.Some? ==> (t.span.value.status == StatusOk <==> outcome.Success?)
    ensures t.span.Some? && outcome.Success? ==> t.span.value.durationMs == Some(elapsedSeconds * 1000.0)
    ensures t.span.Some? && outcome.Failure? ==>
              t.span.value.durationMs.None? && t.span.value.status == StatusError(ExceptionText(outcome.error))
  {
    if !otelAvailable then Traced(outcome, None)
    else
      var attributes := [("tool.name", JStr(toolName)), ("tool.function", JStr(functionName))];
      var span := if outcome.Success? then Span("tool." + toolName, attributes, Some(elapsedSeconds * 1000.0), StatusOk)
                  else Span("tool." + toolName, attributes, None, StatusError(ExceptionText(outcome.error)));
      Traced(outcome, Some(span))
  }
}

=== FILE: openapi_tools.dfy ===
/**
 * Deriving MCP tools from an OpenAPI document: the base URL, one tool per
 * (path, method) operation with its name, description and parameters, the
 * operation listing, and the HTTP request a generated tool builds from its
 * arguments.
 *
 * The document is the parsed JSON/YAML value; nothing here validates it, so
 * every step applies Python's operators and raises where they raise. The
 * HTTP call, the response and the registration with FastMCP are not modelled:
 * a generated tool is the `ToolDef` value it was created from.
 */
module OpenApiTools {
  import opened Wrappers
  import opened Json
  import opened Py
  import Text

  // ---------------------------------------------------------------------------
  // base URL

  /** A dict document whose `servers` is present and truthy. */
  predicate HasServers(fs: Fields) {
    Get(fs, "servers").Some? && Truthy(Get(fs, "servers").value)
  }

  /**
   * `extract_base_url`: the first server's `url` of an OpenAPI 3 document;
   * else, for a Swagger 2 document with a `host`, `scheme://host basePath`;
   * else `http://localhost:8080`. `render` is `str()` of the values whose
   * text is not modelled (see `Py.StrWith`).
   */
  function ExtractBaseUrl(spec: Json, render: Json -> string): (r: PyResult<Json>)
    ensures spec.JObj? && HasServers(spec.fields) ==>
              var first := At(Get(spec.fields, "servers").value, 0);
              r == if first.Success? then Index(first.value, "url") else Failure(first.error)
    ensures spec.JObj? && !HasServers(spec.fields) && "host" in Keys(spec.fields) ==>
              var scheme := At(Get(spec.fields, "schemes").GetOr(JArr([JStr("https")])), 0);
              r == if scheme.Failure? then Failure(scheme.error)
                   else Success(JStr(StrWith(render, scheme.value) + "://" + StrWith(render, Get(spec.fields, "host").value)
                                     + StrWith(render, Get(spec.fields, "basePath").GetOr(JStr("")))))
    ensures spec.JObj? && !HasServers(spec.fields) && "host" !in Keys(spec.fields) ==>
              r == Success(JStr("http://localhost:8080"))
  {
    var hasServers := In("servers", spec);
    if hasServers.Failure? then Failure(hasServers.error)
    else
      var servers := if hasServers.value then Index(spec, "servers") else Success(JNull);
      if servers.Failure? then Failure(servers.error)
      else if hasServers.value && Truthy(servers.value) then
        var first := At(servers.value, 0);
        if first.Failure? then Failure(first.error) else Index(first.value, "url")
      else
        var hasHost := In("host", spec);
        if hasHost.Failure? then Failure(hasHost.error)
        else if !hasHost.value then Success(JStr("http://localhost:8080"))
        else
          var schemes := GetOr(spec, "schemes", JArr([JStr("https")]));
          var scheme := if schemes.Failure? then schemes else At(schemes.value, 0);
          if scheme.Failure? then Failure(scheme.error)
          else
            var basePath := GetOr(spec, "basePath", JStr(""));
            var host := Index(spec, "host");
            if basePath.Failure? then Failure(basePath.error)
            else if host.Failure? then Failure(host.error)
            else Success(JStr(StrWith(render, scheme.value) + "://" + StrWith(render, host.value) + StrWith(render, basePath.value)))
  }

  /** An OpenAPI 3 document whose first server names a URL uses that URL, whatever else it says. */
  lemma ServersComeFirst(spec: Json, render: Json -> string, servers: seq<Json>)
    requires spec.JObj? && Get(spec.fields, "servers") == Some(JArr(servers))
    requires servers != [] && servers[0].JObj? && "url" in Keys(servers[0].fields)
    ensures ExtractBaseUrl(spec, render) == Success(Get(servers[0].fields, "url").value)
  {
    assert HasServers(spec.fields);
    assert At(JArr(servers), 0) == Success(servers[0]);
  }

  /** A Swagger 2 document without `schemes` is served over HTTPS, at its host and base path. */
  lemma SwaggerDefaultsToHttps(spec: Json, render: Json -> string, host: string)
    requires spec.JObj? && !HasServers(spec.fields) && Get(spec.fields, "host") == Some(JStr(host))
    requires "schemes" !in Keys(spec.fields)
    ensures var basePath := Get(spec.fields, "basePath").GetOr(JStr(""));
            ExtractBaseUrl(spec, render) == Success(JStr("https://" + host + StrWith(render, basePath)))
  {
    assert Get(spec.fields, "schemes").None?;
    assert At(JArr([JStr("https")]), 0) == Success(JStr("https"));
    assert StrWith(render, JStr("https")) == "https" && StrWith(render, JStr(host)) == host;
    assert "https" + "://" == "https://";
  }

  /** A Swagger 2 document uses its first listed scheme. */
  lemma SwaggerUsesFirstScheme(spec: Json, render: Json -> string, host: string, schemes: seq<Json>, basePath: string)
    requires spec.JObj? && !HasServers(spec.fields) && Get(spec.fields, "host") == Some(JStr(host))
    requires Get(spec.fields, "schemes") == Some(JArr(schemes)) && schemes != [] && schemes[0].JStr?
    requires Get(spec.fields, "basePath") == Some(JStr(basePath))
    ensures ExtractBaseUrl(spec, render) == Success(JStr(schemes[0].s + "://" + host + basePath))
  {
  }

  /** A document that names neither servers nor a host falls back to the local address. */
  lemma FallbackUrl(fs: Fields, render: Json -> string)
    requires "servers" !in Keys(fs) && "host" !in Keys(fs)
    ensures ExtractBaseUrl(JObj(fs), render) == Success(JStr("http://localhost:8080"))
  {
  }

  // ---------------------------------------------------------------------------
  // enumerating operations

  /** What a loop over operations produced before it ended, and the exception that ended it, if any. */
  datatype Outcome<T> = Outcome(items: seq<T>, raised: Option<PyError>)

  function Prefixed<T>(ts: seq<T>, o: Outcome<T>): Outcome<T> {
    Outcome(ts + o.items, o.raised)
  }

  /**
   * `for path, path_item in paths.items(): for method in methods: if method in
   * path_item: ...`, from path `i` and method `j` on: each operation present
   * is handed to `build`, and the first exception ends the loop.
   */
  function Enumerate<T>(paths: Fields, methods: seq<string>, build: (string, string, Json) --> PyResult<T>, i: nat, j: nat): Outcome<T>
    requires i <= |paths| && j <= |methods|
    requires Builds(build, methods)
    decreases |paths| - i, |methods| - j
  {
    if i == |paths| then Outcome([], None)
    else if j == |methods| then Enumerate(paths, methods, build, i + 1, 0)
    else
      var present := In(methods[j], paths[i].1);
      if present.Failure? then Outcome([], Some(present.error))
      else if !present.value then Enumerate(paths, methods, build, i, j + 1)
      else
        var op := Index(paths[i].1, methods[j]);
        if op.Failure? then Outcome([], Some(op.error))
        else
          var t := build(paths[i].0, methods[j], op.value);
          if t.Failure? then Outcome([], Some(t.error))
          else Prefixed([t.value], Enumerate(paths, methods, build, i, j + 1))
  }

  /** `build` may be applied to every operation whose method is one of `methods`. */
  ghost predicate Builds<T>(build: (string, string, Json) --> PyResult<T>, methods: seq<string>) {
    forall path, m, op :: m in methods ==> build.requires(path, m, op)
  }

  /** The (path, method, operation) triples present, in visiting order, when no membership test raises. */
  function Operations(paths: Fields, methods: seq<string>, i: nat, j: nat): seq<(string, string, Json)>
    requires i <= |paths| && j <= |methods|
    decreases |paths| - i, |methods| - j
  {
    if i == |paths| then []
    else if j == |methods| then Operations(paths, methods, i + 1, 0)
    else if In(methods[j], paths[i].1) == Success(true) && Index(paths[i].1, methods[j]).Success? then
      [(paths[i].0, methods[j], Index(paths[i].1, methods[j]).value)] + Operations(paths, methods, i, j + 1)
    else Operations(paths, methods, i, j + 1)
  }

  /**
   * When the loop completes, it produced exactly one item per operation
   * present, in path order and, within a path, in method order.
   */
  lemma {:induction false} EnumerateVisitsOperations<T>(paths: Fields, methods: seq<string>, build: (string, string, Json) --> PyResult<T>, i: nat, j: nat)
    requires i <= |paths| && j <= |methods| && Builds(build, methods)
    requires Enumerate(paths, methods, build, i, j).raised.None?
    ensures var items := Enumerate(paths, methods, build, i, j).items;
            var ops := Operations(paths, methods, i, j);
            |items| == |ops| && forall k :: 0 <= k < |ops| ==> ops[k].1 in methods && build(ops[k].0, ops[k].1, ops[k].2) == Success(items[k])
    decreases |paths| - i, |methods| - j
  {
    OperationsUseMethods(paths, methods, i, j);
    if i < |paths| {
      if j == |methods| {
        EnumerateVisitsOperations(paths, methods, build, i + 1, 0);
      } else {
        EnumerateVisitsOperations(paths, methods, build, i, j + 1);
      }
    }
  }

  /** The nested loops themselves. */
  method EnumerateOperations<T>(paths: Fields, methods: seq<string>, build: (string, string, Json) --> PyResult<T>)
    returns (out: Outcome<T>)
    requires Builds(build, methods)
    ensures out == Enumerate(paths, methods, build, 0, 0)
  {
    var items: seq<T> := [];
    var i := 0;
    while i < |paths|
      invariant 0 <= i <= |paths|
      invariant Enumerate(paths, methods, build, 0, 0) == Prefixed(items, Enumerate(paths, methods, build, i, 0))
    {
      var (path, pathItem) := paths[i];
      var j := 0;
      while j < |methods|
        invariant 0 <= j <= |methods|
        invariant Enumerate(paths, methods, build, 0, 0) == Prefixed(items, Enumerate(paths, methods, build, i, j))
      {
        var httpMethod := methods[j];
        var present := In(httpMethod, pathItem);
        if present.Failure? {
          return Outcome(items, Some(present.error));
        }
        if present.value {
          var op := Index(pathItem, httpMethod);
          if op.Failure? {
            return Outcome(items, Some(op.error));
          }
          var t := build(path, httpMethod, op.value);
          if t.Failure? {
            return Outcome(items, Some(t.error));
          }
          items := items + [t.value];
        }
        j := j + 1;
      }
      i := i + 1;
    }
    out := Outcome(items, None);
  }

  /** `spec.get("paths", {}).items()`. */
  function PathItems(spec: Json): PyResult<Fields> {
    var paths := GetOr(spec, "paths", JObj([]));
    if paths.Failure? then Failure(paths.error)
    else if !paths.value.JObj? then Failure(AttributeError)
    else Success(paths.value.fields)
  }

  // ---------------------------------------------------------------------------
  // tools

  const ToolMethods: seq<string> := ["get", "post", "put", "patch", "delete"]

  /** A parameter description, as `extract_parameters` builds it. */
  datatype Param = Param(name: Json, location: Json, required: Json, kind: Json, description: Json)

  /** A generated tool: its name, its description, and the endpoint and parameters it calls with. */
  datatype ToolDef = ToolDef(name: string, description: Json, baseUrl: Json, path: string, httpMethod: string, parameters: seq<Param>)

  /** The name derived from the method and the path: `/` becomes `_`, braces are dropped. */
  function DerivedName(httpMethod: string, path: string): string {
    httpMethod + "_" + Text.Replace(Text.Replace(Text.Replace(path, "/", "_"), "{", ""), "}", "")
  }

  /** The tool name: the `operationId` if given, else the derived name; then `-` becomes `_`. */
  function ToolName(httpMethod: string, path: string, op: Json): (r: PyResult<string>)
    requires httpMethod in ToolMethods
    ensures r.Success? ==> '-' !in r.value
    ensures op.JObj? && "operationId" !in Keys(op.fields) ==>
              r.Success? && httpMethod + "_" <= r.value && '/' !in r.value && '{' !in r.value && '}' !in r.value
    ensures op.JObj? && "operationId" !in Keys(op.fields) ==>
              r == Success(Text.Replace(DerivedName(httpMethod, path), "-", "_"))
    ensures op.JObj? && Get(op.fields, "operationId").Some? && Get(op.fields, "operationId").value.JStr? ==>
              r == Success(Text.Replace(Get(op.fields, "operationId").value.s, "-", "_"))
    ensures op.JObj? && Get(op.fields, "operationId").Some? && !Get(op.fields, "operationId").value.JStr? ==>
              r == Failure(AttributeError)
    ensures !op.JObj? ==> r == Failure(AttributeError)
  {
    var chosen := GetOr(op, "operationId", JStr(DerivedName(httpMethod, path)));
    if chosen.Failure? then Failure(chosen.error)
    else if !chosen.value.JStr? then Failure(AttributeError)
    else
      var name := Text.Replace(chosen.value.s, "-", "_");
      Text.ReplaceRemovesChar(chosen.value.s, '-', "_");
      if op.JObj? && "operationId" !in Keys(op.fields) then
        DerivedNameShape(httpMethod, path);
        assert '-' !in httpMethod && '/' !in httpMethod && '{' !in httpMethod && '}' !in httpMethod;
        Text.ReplaceAfterPrefix(httpMethod + "_", chosen.value.s[|httpMethod| + 1..], "-", "_");
        assert chosen.value.s == (httpMethod + "_") + chosen.value.s[|httpMethod| + 1..];
        Text.ReplaceKeepsAbsent(chosen.value.s, "-", "_", '/');
        Text.ReplaceKeepsAbsent(chosen.value.s, "-", "_", '{');
        Text.ReplaceKeepsAbsent(chosen.value.s, "-", "_", '}');
        Success(name)
      else
        Success(name)
  }

  /** A given `operationId` names the tool, with `-` turned into `_`; one without `-` is kept as it is. */
  lemma OperationIdNamesTool(httpMethod: string, path: string, id: string, op: Json)
    requires httpMethod in ToolMethods
    requires op.JObj? && Get(op.fields, "operationId") == Some(JStr(id))
    ensures ToolName(httpMethod, path, op) == Success(Text.Replace(id, "-", "_"))
    ensures '-' !in id ==> ToolName(httpMethod, path, op) == Success(id)
  {
    if '-' !in id {
      Text.ReplaceAfterPrefix(id, [], "-", "_");
      assert id + [] == id;
    }
  }

  lemma DerivedNameShape(httpMethod: string, path: string)
    ensures httpMethod + "_" <= DerivedName(httpMethod, path)
    ensures '/' !in httpMethod ==> '/' !in DerivedName(httpMethod, path)
    ensures '{' !in httpMethod ==> '{' !in DerivedName(httpMethod, path)
    ensures '}' !in httpMethod ==> '}' !in DerivedName(httpMethod, path)
  {
    var a := Text.Replace(path, "/", "_");
    var b := Text.Replace(a, "{", "");
    var c := Text.Replace(b, "}", "");
    Text.ReplaceRemovesChar(path, '/', "_");
    Text.ReplaceKeepsAbsent(a, "{", "", '/');
    Text.ReplaceKeepsAbsent(b, "}", "", '/');
    Text.ReplaceRemovesChar(a, '{', "");
    Text.ReplaceKeepsAbsent(b, "}", "", '{');
    Text.ReplaceRemovesChar(b, '}', "");
  }

  /** The description: the `description` if given, else the `summary`, else `METHOD path`. */
  function ToolDescription(httpMethod: string, path: string, op: Json): (r: PyResult<Json>)
    ensures op.JObj? && "description" !in Keys(op.fields) && "summary" !in Keys(op.fields) ==>
              r == Success(JStr(Text.Upper(httpMethod) + " " + path))
    ensures op.JObj? && "description" !in Keys(op.fields) && "summary" in Keys(op.fields) ==>
              r == Success(Get(op.fields, "summary").value)
    ensures op.JObj? && "description" in Keys(op.fields) ==> r == Success(Get(op.fields, "description").value)
    ensures !op.JObj? ==> r == Failure(AttributeError)
  {
    var summary := GetOr(op, "summary", JStr(Text.Upper(httpMethod) + " " + path));
    if summary.Failure? then Failure(summary.error) else GetOr(op, "description", summary.value)
  }

  /** One listed parameter, after resolving a `$ref` to `components.parameters.<last segment>`. */
  function ListedParam(param: Json, spec: Json): PyResult<Param>
  {
    var resolved := Resolve(param, spec);
    if resolved.Failure? then Failure(resolved.error)
    else if !resolved.value.JObj? then Failure(AttributeError)
    else
      var fs := resolved.value.fields;
      var schema := Get(fs, "schema").GetOr(JObj([]));
      if !schema.JObj? then Failure(AttributeError)
      else Success(Param(Get(fs, "name").GetOr(JNull), Get(fs, "in").GetOr(JNull), Get(fs, "required").GetOr(JBool(false)),
                         Get(schema.fields, "type").GetOr(JStr("string")), Get(fs, "description").GetOr(JStr(""))))
  }

  /** The text of a parameter's `$ref`, when it is a string. */
  function RefText(fs: Fields): Option<string> {
    var ref := Get(fs, "$ref");
    if ref.Some? && ref.value.JStr? then Some(ref.value.s) else None
  }

  /** The entries of `spec["components"]["parameters"]`, when both are dicts. */
  function ComponentParameters(fs: Fields): Option<Fields> {
    var components := Get(fs, "components");
    if components.None? || !components.value.JObj? then None
    else
      var parameters := Get(components.value.fields, "parameters");
      if parameters.None? || !parameters.value.JObj? then None else Some(parameters.value.fields)
  }

  /** The parameter a `$ref` points to, or the parameter itself when it has none or it does not resolve. */
  function Resolve(param: Json, spec: Json): (r: PyResult<Json>)
    ensures r.Success? && r.value != param ==>
              In("$ref", param) == Success(true) && Index(param, "$ref").Success? && Index(param, "$ref").value.JStr?
  {
    var hasRef := In("$ref", param);
    if hasRef.Failure? then Failure(hasRef.error)
    else if !hasRef.value then Success(param)
    else
      var ref := Index(param, "$ref");
      if ref.Failure? then Failure(ref.error)
      else if !ref.value.JStr? then Failure(AttributeError)
      else
        LookUp(param, Text.LastSegment(ref.value.s, '/'), spec)
  }

  /** `spec["components"]["parameters"].get(name, param)`, when the document has both. */
  function LookUp(param: Json, name: string, spec: Json): PyResult<Json> {
    var hasComponents := In("components", spec);
    if hasComponents.Failure? then Failure(hasComponents.error)
    else if !hasComponents.value then Success(param)
    else
      var components := Index(spec, "components");
      if components.Failure? then Failure(components.error)
      else
        var hasParameters := In("parameters", components.value);
        if hasParameters.Failure? then Failure(hasParameters.error)
        else if !hasParameters.value then Success(param)
        else
          var parameters := Index(components.value, "parameters");
          if parameters.Failure? then Failure(parameters.error)
          else GetOr(parameters.value, name, param)
  }

  /** A dict parameter without `$ref` is kept; a `$ref` that is not a string raises `AttributeError`. */
  lemma ResolveWithoutRefText(param: Json, spec: Json)
    requires param.JObj?
    ensures "$ref" !in Keys(param.fields) ==> Resolve(param, spec) == Success(param)
    ensures Get(param.fields, "$ref").Some? && !Get(param.fields, "$ref").value.JStr? ==>
              Resolve(param, spec) == Failure(AttributeError)
  {
  }

  /** A string `$ref` in a document without `components.parameters` leaves the parameter as it is. */
  lemma ResolveWithoutComponents(param: Json, spec: Json)
    requires param.JObj? && RefText(param.fields).Some? && spec.JObj?
    ensures "components" !in Keys(spec.fields) ==> Resolve(param, spec) == Success(param)
    ensures Get(spec.fields, "components").Some? && Get(spec.fields, "components").value.JObj?
            && "parameters" !in Keys(Get(spec.fields, "components").value.fields) ==>
              Resolve(param, spec) == Success(param)
  {
    RefIsText(param, spec);
    LookUpWithoutComponents(param, Text.LastSegment(RefText(param.fields).value, '/'), spec);
  }

  /**
   * A string `$ref` resolves by its last `/` segment among `components.parameters`,
   * falling back to the parameter itself.
   */
  lemma ResolveByComponents(param: Json, spec: Json)
    requires param.JObj? && RefText(param.fields).Some? && spec.JObj? && ComponentParameters(spec.fields).Some?
    ensures Resolve(param, spec) ==
              Success(Get(ComponentParameters(spec.fields).value, Text.LastSegment(RefText(param.fields).value, '/')).GetOr(param))
  {
    RefIsText(param, spec);
    LookUpByComponents(param, Text.LastSegment(RefText(param.fields).value, '/'), spec);
  }

  lemma LookUpWithoutComponents(param: Json, name: string, spec: Json)
    requires spec.JObj?
    ensures "components" !in Keys(spec.fields) ==> LookUp(param, name, spec) == Success(param)
    ensures Get(spec.fields, "components").Some? && Get(spec.fields, "components").value.JObj?
            && "parameters" !in Keys(Get(spec.fields, "components").value.fields) ==>
              LookUp(param, name, spec) == Success(param)
  {
    if Get(spec.fields, "components").Some? {
      assert "components" in Keys(spec.fields);
    }
  }

  lemma LookUpByComponents(param: Json, name: string, spec: Json)
    requires spec.JObj? && ComponentParameters(spec.fields).Some?
    ensures LookUp(param, name, spec) == Success(Get(ComponentParameters(spec.fields).value, name).GetOr(param))
  {
    var components := Get(spec.fields, "components").value;
    assert "components" in Keys(spec.fields);
    assert "parameters" in Keys(components.fields);
  }

  /** A dict parameter with a string `$ref` goes on to the lookup by its last segment. */
  lemma RefIsText(param: Json, spec: Json)
    requires param.JObj? && RefText(param.fields).Some?
    ensures Resolve(param, spec) == LookUp(param, Text.LastSegment(RefText(param.fields).value, '/'), spec)
  {
    assert "$ref" in Keys(param.fields);
    assert Index(param, "$ref") == Success(JStr(RefText(param.fields).value));
  }

  /** A reference resolves by its last `/` segment to the component of that name, in any document. */
  lemma RefResolves(param: Json, spec: Json, ref: string, name: string, target: Json)
    requires '/' !in name
    requires param.JObj? && Get(param.fields, "$ref") == Some(JStr(ref + "/" + name))
    requires spec.JObj? && ComponentParameters(spec.fields).Some?
    requires Get(ComponentParameters(spec.fields).value, name) == Some(target)
    ensures Resolve(param, spec) == Success(target)
  {
    Text.LastSegmentAfter(ref, name, '/');
    ResolveByComponents(param, spec);
  }

  /** When the named component is missing, the reference object itself is used. */
  lemma DanglingRefKept(param: Json, spec: Json, ref: string, name: string)
    requires '/' !in name
    requires param.JObj? && Get(param.fields, "$ref") == Some(JStr(ref + "/" + name))
    requires spec.JObj? && ComponentParameters(spec.fields).Some?
    requires name !in Keys(ComponentParameters(spec.fields).value)
    ensures Resolve(param, spec) == Success(param)
  {
    Text.LastSegmentAfter(ref, name, '/');
    ResolveByComponents(param, spec);
  }

  /** One property of the JSON request body: required iff listed under the schema's `required`. */
  function BodyParam(name: string, propSchema: Json, required: Json): PyResult<Param>
  {
    var isRequired := In(name, required);
    if isRequired.Failure? then Failure(isRequired.error)
    else if !propSchema.JObj? then Failure(AttributeError)
    else Success(Param(JStr(name), JStr("body"), JBool(isRequired.value),
                       Get(propSchema.fields, "type").GetOr(JStr("string")),
                       Get(propSchema.fields, "description").GetOr(JStr(""))))
  }

  /** `ListedParam` for one document. */
  function ListedParamIn(spec: Json): Json -> PyResult<Param> {
    param => ListedParam(param, spec)
  }

  /** `BodyParam` for one schema's `required` list. */
  function BodyParamOf(required: Json): ((string, Json)) -> PyResult<Param> {
    (prop: (string, Json)) => BodyParam(prop.0, prop.1, required)
  }

  /** A loop that appends `f(x)` for each `x` from position `k` on; the first exception ends it. */
  function MapAll<A, B>(xs: seq<A>, f: A -> PyResult<B>, k: nat): PyResult<seq<B>>
    requires k <= |xs|
    decreases |xs| - k
  {
    if k == |xs| then Success([])
    else
      var y := f(xs[k]);
      var rest := MapAll(xs, f, k + 1);
      if y.Failure? then Failure(y.error)
      else if rest.Failure? then rest
      else Success([y.value] + rest.value)
  }

  /** When the loop completes, its result has one item per input, each `f` of that input. */
  lemma {:induction false} MapAllAt<A, B>(xs: seq<A>, f: A -> PyResult<B>, k: nat)
    requires k <= |xs| && MapAll(xs, f, k).Success?
    ensures |MapAll(xs, f, k).value| == |xs| - k
    ensures forall m :: k <= m < |xs| ==> f(xs[m]) == Success(MapAll(xs, f, k).value[m - k])
    decreases |xs| - k
  {
    if k < |xs| {
      MapAllAt(xs, f, k + 1);
    }
  }

  /** The loop completes exactly when `f` raises for no input. */
  lemma {:induction false} MapAllSucceeds<A, B>(xs: seq<A>, f: A -> PyResult<B>, k: nat)
    requires k <= |xs|
    ensures MapAll(xs, f, k).Success? <==> forall m :: k <= m < |xs| ==> f(xs[m]).Success?
    decreases |xs| - k
  {
    if k < |xs| {
      MapAllSucceeds(xs, f, k + 1);
    }
  }

  /** The loop itself. */
  method CollectAll<A, B>(xs: seq<A>, f: A -> PyResult<B>) returns (r: PyResult<seq<B>>)
    ensures r == MapAll(xs, f, 0)
  {
    var ys: seq<B> := [];
    var k := 0;
    AppendedNothing(MapAll(xs, f, 0));
    while k < |xs|
      invariant 0 <= k <= |xs|
      invariant MapAll(xs, f, 0) == Appended(ys, MapAll(xs, f, k))
    {
      var y := f(xs[k]);
      if y.Failure? {
        return Failure(y.error);
      }
      AppendedTwice(ys, [y.value], MapAll(xs, f, k + 1));
      ys := ys + [y.value];
      k := k + 1;
    }
    assert ys + [] == ys;
    r := Success(ys);
  }

  /** `ts` placed in front of a successful result; a failure passes through. */
  function Appended<T>(ts: seq<T>, r: PyResult<seq<T>>): PyResult<seq<T>> {
    if r.Failure? then r else Success(ts + r.value)
  }

  lemma AppendedNothing<T>(r: PyResult<seq<T>>)
    ensures Appended([], r) == r
  {
    if r.Success? {
      assert [] + r.value == r.value;
    }
  }

  lemma AppendedTwice<T>(a: seq<T>, b: seq<T>, r: PyResult<seq<T>>)
    ensures Appended(a, Appended(b, r)) == Appended(a + b, r)
  {
    if r.Success? {
      assert a + (b + r.value) == (a + b) + r.value;
    }
  }

  /** The listed parameters of an operation, as an iteration over `operation.get("parameters", [])`. */
  function ParameterList(op: Json): PyResult<seq<Json>> {
    var listed := GetOr(op, "parameters", JArr([]));
    if listed.Failure? then Failure(listed.error) else Iterate(listed.value)
  }

  /** The body properties and the schema's `required` value, or `None` without a JSON request body. */
  function BodySchema(op: Json): PyResult<Option<(Fields, Json)>> {
    var hasBody := In("requestBody", op);
    if hasBody.Failure? then Failure(hasBody.error)
    else if !hasBody.value then Success(None)
    else
      var body := Index(op, "requestBody");
      var content := if body.Failure? then body else GetOr(body.value, "content", JObj([]));
      if content.Failure? then Failure(content.error)
      else
        var hasJson := In("application/json", content.value);
        if hasJson.Failure? then Failure(hasJson.error)
        else if !hasJson.value then Success(None)
        else
          var media := Index(content.value, "application/json");
          var schema := if media.Failure? then media else GetOr(media.value, "schema", JObj([]));
          if schema.Failure? then Failure(schema.error)
          else
            var props := GetOr(schema.value, "properties", JObj([]));
            if props.Failure? then Failure(props.error)
            else if !props.value.JObj? then Failure(AttributeError)
            else Success(Some((props.value.fields, Get(schema.value.fields, "required").GetOr(JArr([])))))
  }

  /** `extract_parameters`: the listed parameters, then the JSON body properties. */
  function Parameters(op: Json, spec: Json): PyResult<seq<Param>> {
    var listed := ParameterList(op);
    if listed.Failure? then Failure(listed.error)
    else
      var ps := MapAll(listed.value, ListedParamIn(spec), 0);
      if ps.Failure? then ps
      else
        var body := BodySchema(op);
        if body.Failure? then Failure(body.error)
        else if body.value.None? then ps
        else
          var bs := MapAll(body.value.value.0, BodyParamOf(body.value.value.1), 0);
          if bs.Failure? then bs else Success(ps.value + bs.value)
  }

  /** `extract_parameters`, with its two appending loops. */
  method ExtractParameters(op: Json, spec: Json) returns (r: PyResult<seq<Param>>)
    ensures r == Parameters(op, spec)
  {
    var listed := ParameterList(op);
    if listed.Failure? {
      return Failure(listed.error);
    }
    r := CollectAll(listed.value, ListedParamIn(spec));
    if r.Failure? {
      return;
    }
    var body := BodySchema(op);
    if body.Failure? {
      return Failure(body.error);
    }
    if body.value.Some? {
      var fromBody := CollectAll(body.value.value.0, BodyParamOf(body.value.value.1));
      r := if fromBody.Failure? then fromBody else Success(r.value + fromBody.value);
    }
  }

  /** The listed parameters come first, one per entry and in order; without a JSON body there is nothing else. */
  lemma ListedParametersFirst(op: Json, spec: Json)
    requires Parameters(op, spec).Success?
    ensures var ps := Parameters(op, spec).value;
            var listed := ParameterList(op).value;
            && |listed| <= |ps|
            && (forall k :: 0 <= k < |listed| ==> ListedParam(listed[k], spec) == Success(ps[k]))
            && (BodySchema(op).value.None? ==> |ps| == |listed|)
  {
    var listed := ParameterList(op).value;
    var ps := MapAll(listed, ListedParamIn(spec), 0).value;
    var rest := if BodySchema(op).value.None? then []
                else MapAll(BodySchema(op).value.value.0, BodyParamOf(BodySchema(op).value.value.1), 0).value;
    assert Parameters(op, spec).value == ps + rest;
    ListedParamsBefore(listed, spec, rest);
  }

  /** The listed-parameter loop builds one parameter per entry, in order, ahead of whatever follows. */
  lemma ListedParamsBefore(listed: seq<Json>, spec: Json, rest: seq<Param>)
    requires MapAll(listed, ListedParamIn(spec), 0).Success?
    ensures var ps := MapAll(listed, ListedParamIn(spec), 0).value + rest;
            && |listed| <= |ps| && (rest == [] ==> |ps| == |listed|)
            && forall k :: 0 <= k < |listed| ==> ListedParam(listed[k], spec) == Success(ps[k])
  {
    var built := MapAll(listed, ListedParamIn(spec), 0).value;
    MapAllAt(listed, ListedParamIn(spec), 0);
    forall k | 0 <= k < |listed|
      ensures ListedParam(listed[k], spec) == Success((built + rest)[k])
    {
      assert ListedParamIn(spec)(listed[k]) == Success(built[k]);
      assert (built + rest)[k] == built[k];
      assert ListedParamIn(spec)(listed[k]) == ListedParam(listed[k], spec);
    }
  }

  /** After them comes one parameter per body property, in order, each built from that property. */
  lemma BodyParametersFollow(op: Json, spec: Json)
    requires Parameters(op, spec).Success? && BodySchema(op).value.Some?
    ensures var ps := Parameters(op, spec).value;
            var listed := ParameterList(op).value;
            var props := BodySchema(op).value.value.0;
            && |ps| == |listed| + |props|
            && forall k :: 0 <= k < |props| ==>
                 BodyParam(props[k].0, props[k].1, BodySchema(op).value.value.1) == Success(ps[|listed| + k])
  {
    var listed := ParameterList(op).value;
    var (props, required) := BodySchema(op).value.value;
    var ps := MapAll(listed, ListedParamIn(spec), 0);
    var bs := MapAll(props, BodyParamOf(required), 0);
    assert Parameters(op, spec) == Success(ps.value + bs.value);
    MapAllAt(listed, ListedParamIn(spec), 0);
    BodyParamsAt(props, required);
    BodyParamsAfter(ps.value, bs.value, props, required);
  }

  /** Appending the body parameters after the listed ones shifts their positions by the listed count. */
  lemma BodyParamsAfter(ps: seq<Param>, bs: seq<Param>, props: Fields, required: Json)
    requires |bs| == |props|
    requires forall k :: 0 <= k < |props| ==> BodyParam(props[k].0, props[k].1, required) == Success(bs[k])
    ensures |ps + bs| == |ps| + |props|
    ensures forall k :: 0 <= k < |props| ==> BodyParam(props[k].0, props[k].1, required) == Success((ps + bs)[|ps| + k])
  {
  }

  /** The body loop builds one parameter per property, in order. */
  lemma BodyParamsAt(props: Fields, required: Json)
    requires MapAll(props, BodyParamOf(required), 0).Success?
    ensures var bs := MapAll(props, BodyParamOf(required), 0).value;
            && |bs| == |props|
            && forall k :: 0 <= k < |props| ==> BodyParam(props[k].0, props[k].1, required) == Success(bs[k])
  {
    MapAllAt(props, BodyParamOf(required), 0);
    forall k | 0 <= k < |props|
      ensures BodyParamOf(required)(props[k]) == BodyParam(props[k].0, props[k].1, required)
    {
    }
  }

  /** Without `required`, `schema` or `description`, a listed parameter is optional, a string and undescribed. */
  lemma ListedParamDefaults(fs: Fields, spec: Json)
    requires "$ref" !in Keys(fs) && "required" !in Keys(fs) && "schema" !in Keys(fs) && "description" !in Keys(fs)
    ensures ListedParam(JObj(fs), spec)
         == Success(Param(Get(fs, "name").GetOr(JNull), Get(fs, "in").GetOr(JNull), JBool(false), JStr("string"), JStr("")))
  {
    ResolveWithoutRefText(JObj(fs), spec);
  }

  /**
   * A dict parameter without `$ref` whose `schema`, if any, is a dict reads its
   * five entries from itself, with the defaults for those it lacks.
   */
  lemma ListedParamReadsFields(fs: Fields, spec: Json)
    requires "$ref" !in Keys(fs) && Get(fs, "schema").GetOr(JObj([])).JObj?
    ensures ListedParam(JObj(fs), spec)
         == Success(Param(Get(fs, "name").GetOr(JNull), Get(fs, "in").GetOr(JNull), Get(fs, "required").GetOr(JBool(false)),
                          Get(Get(fs, "schema").GetOr(JObj([])).fields, "type").GetOr(JStr("string")),
                          Get(fs, "description").GetOr(JStr(""))))
  {
    ResolveWithoutRefText(JObj(fs), spec);
  }

  /** A body property is required exactly when the schema lists its name. */
  lemma BodyRequiredIffListed(name: string, propSchema: Fields, required: seq<Json>)
    ensures BodyParam(name, JObj(propSchema), JArr(required)).Success?
    ensures BodyParam(name, JObj(propSchema), JArr(required)).value.required == JBool(JStr(name) in required)
    ensures BodyParam(name, JObj(propSchema), JArr(required)).value.location == JStr("body")
  {
  }

  /** `generate_tools_from_spec`'s per-operation work: name, description, parameters. */
  function MakeTool(spec: Json, baseUrl: Json, path: string, httpMethod: string, op: Json): (r: PyResult<ToolDef>)
    requires httpMethod in ToolMethods
    ensures r.Success? ==>
              && r.value.baseUrl == baseUrl && r.value.path == path && r.value.httpMethod == Text.Upper(httpMethod)
              && ToolName(httpMethod, path, op) == Success(r.value.name)
              && '-' !in r.value.name
              && Parameters(op, spec) == Success(r.value.parameters)
              && ToolDescription(httpMethod, path, op) == Success(r.value.description)
    ensures r.Success? <==>
              ToolName(httpMethod, path, op).Success? && ToolDescription(httpMethod, path, op).Success?
              && Parameters(op, spec).Success?
    ensures r.Failure? ==>
              r.error == (if ToolName(httpMethod, path, op).Failure? then ToolName(httpMethod, path, op).error
                          else if ToolDescription(httpMethod, path, op).Failure? then ToolDescription(httpMethod, path, op).error
                          else Parameters(op, spec).error)
  {
    var name := ToolName(httpMethod, path, op);
    if name.Failure? then Failure(name.error)
    else
      var description := ToolDescription(httpMethod, path, op);
      if description.Failure? then Failure(description.error)
      else
        var params := Parameters(op, spec);
        if params.Failure? then Failure(params.error)
        else Success(ToolDef(name.value, description.value, baseUrl, path, Text.Upper(httpMethod), params.value))
  }

  function ToolBuilder(spec: Json, baseUrl: Json): (b: (string, string, Json) --> PyResult<ToolDef>)
    ensures Builds(b, ToolMethods)
  {
    (path, httpMethod, op) requires httpMethod in ToolMethods => MakeTool(spec, baseUrl, path, httpMethod, op)
  }

  /** What `generate_tools_from_spec` registers before it returns or raises. */
  function Generated(spec: Json, baseUrl: Json): Outcome<ToolDef> {
    var paths := PathItems(spec);
    if paths.Failure? then Outcome([], Some(paths.error))
    else Enumerate(paths.value, ToolMethods, ToolBuilder(spec, baseUrl), 0, 0)
  }

  /**
   * `generate_tools_from_spec`: the tools registered, in order, and the
   * exception that stopped it, if any; the count it returns is `|tools|`.
   */
  method GenerateTools(spec: Json, baseUrl: Json) returns (tools: seq<ToolDef>, raised: Option<PyError>)
    ensures Outcome(tools, raised) == Generated(spec, baseUrl)
  {
    var paths := PathItems(spec);
    if paths.Failure? {
      return [], Some(paths.error);
    }
    var out := EnumerateOperations(paths.value, ToolMethods, ToolBuilder(spec, baseUrl));
    tools, raised := out.items, out.raised;
  }

  /**
   * `register_openapi_tools` once the document is loaded: the given base URL,
   * or the one the document names, then generation. Whatever it raises is
   * logged, and the tools registered before it stay registered.
   */
  method RegisterOpenApiTools(spec: Json, baseUrl: Option<Json>, render: Json -> string)
    returns (tools: seq<ToolDef>, raised: Option<PyError>)
    ensures var url := if baseUrl.Some? then Success(baseUrl.value) else ExtractBaseUrl(spec, render);
      && (url.Failure? ==> tools == [] && raised == Some(url.error))
      && (url.Success? ==> Outcome(tools, raised) == Generated(spec, url.value))
  {
    var url := if baseUrl.Some? then Success(baseUrl.value) else ExtractBaseUrl(spec, render);
    if url.Failure? {
      return [], Some(url.error);
    }
    tools, raised := GenerateTools(spec, url.value);
  }

  /**
   * When generation completes, there is one tool per (path, method) operation
   * with method in get, post, put, patch, delete, in visiting order; each is
   * built from its own operation and calls the same base URL.
   */
  lemma ToolsMatchOperations(spec: Json, baseUrl: Json)
    requires Generated(spec, baseUrl).raised.None?
    ensures var tools := Generated(spec, baseUrl).items;
            var ops := Operations(PathItems(spec).value, ToolMethods, 0, 0);
            && |tools| == |ops|
            && forall k :: 0 <= k < |ops| ==>
                 ops[k].1 in ToolMethods &&
                 MakeTool(spec, baseUrl, ops[k].0, ops[k].1, ops[k].2) == Success(tools[k]) &&
                 tools[k].path == ops[k].0 && tools[k].httpMethod == Text.Upper(ops[k].1) &&
                 tools[k].baseUrl == baseUrl && '-' !in tools[k].name
  {
    var paths := PathItems(spec).value;
    EnumerateVisitsOperations(paths, ToolMethods, ToolBuilder(spec, baseUrl), 0, 0);
    OperationsUseMethods(paths, ToolMethods, 0, 0);
  }

  lemma {:induction false} OperationsUseMethods(paths: Fields, methods: seq<string>, i: nat, j: nat)
    requires i <= |paths| && j <= |methods|
    ensures forall k :: 0 <= k < |Operations(paths, methods, i, j)| ==> Operations(paths, methods, i, j)[k].1 in methods
    decreases |paths| - i, |methods| - j
  {
    if i < |paths| {
      if j == |methods| {
        OperationsUseMethods(paths, methods, i + 1, 0);
      } else {
        OperationsUseMethods(paths, methods, i, j + 1);
      }
    }
  }

  // ---------------------------------------------------------------------------
  // operation listing

  const ListedMethods: seq<string> := ["get", "post", "put", "patch", "delete", "options", "head"]

  datatype OperationInfo = OperationInfo(path: string, httpMethod: string, operationId: Json, summary: Json, description: Json, tags: Json)

  /** One entry of `get_operation_list`: the method upper-cased, missing fields `None`, tags `[]`. */
  function OperationEntry(path: string, httpMethod: string, op: Json): (r: PyResult<OperationInfo>)
    ensures r.Success? <==> op.JObj?
    ensures r.Success? ==> r.value.httpMethod == Text.Upper(httpMethod) && r.value.path == path
    ensures r.Success? && "tags" !in Keys(op.fields) ==> r.value.tags == JArr([])
  {
    if !op.JObj? then Failure(AttributeError)
    else Success(OperationInfo(path, Text.Upper(httpMethod), Get(op.fields, "operationId").GetOr(JNull),
                               Get(op.fields, "summary").GetOr(JNull), Get(op.fields, "description").GetOr(JNull),
                               Get(op.fields, "tags").GetOr(JArr([]))))
  }

  /** `get_operation_list`, over all seven methods. */
  method GetOperationList(spec: Json) returns (ops: seq<OperationInfo>, raised: Option<PyError>)
    ensures var paths := PathItems(spec);
      && (paths.Failure? ==> ops == [] && raised == Some(paths.error))
      && (paths.Success? ==> Outcome(ops, raised) == Enumerate(paths.value, ListedMethods, OperationEntry, 0, 0))
  {
    var paths := PathItems(spec);
    if paths.Failure? {
      return [], Some(paths.error);
    }
    var out := EnumerateOperations(paths.value, ListedMethods, OperationEntry);
    ops, raised := out.items, out.raised;
  }

  /**
   * When the listing completes, it has one entry per (path, method) operation
   * over all seven methods, in visiting order, each naming its path and its
   * upper-cased method.
   */
  lemma ListingMatchesOperations(spec: Json)
    requires PathItems(spec).Success?
    requires Enumerate(PathItems(spec).value, ListedMethods, OperationEntry, 0, 0).raised.None?
    ensures var entries := Enumerate(PathItems(spec).value, ListedMethods, OperationEntry, 0, 0).items;
            var ops := Operations(PathItems(spec).value, ListedMethods, 0, 0);
            && |entries| == |ops|
            && forall k :: 0 <= k < |ops| ==>
                 ops[k].1 in ListedMethods && ops[k].2.JObj? &&
                 entries[k].path == ops[k].0 && entries[k].httpMethod == Text.Upper(ops[k].1)
  {
    EnumerateVisitsOperations(PathItems(spec).value, ListedMethods, OperationEntry, 0, 0);
  }

  // ---------------------------------------------------------------------------
  // the request a generated tool sends

  datatype Request = Request(httpMethod: string, url: string, query: Fields, body: Option<Fields>)

  /** A parameter the call supplied, at the given location. */
  predicate Supplied(p: Param, location: string, kwargs: Fields) {
    p.location == JStr(location) && p.name.JStr? && p.name.s in Keys(kwargs)
  }

  /** The URL after substituting the supplied path parameters from position `k` on. */
  function FillPath(url: string, params: seq<Param>, kwargs: Fields, render: Json -> string, k: nat): string
    requires k <= |params|
    decreases |params| - k
  {
    if k == |params| then url
    else if Supplied(params[k], "path", kwargs) then
      var name := params[k].name.s;
      FillPath(Text.Replace(url, "{" + name + "}", StrWith(render, Get(kwargs, name).value)), params, kwargs, render, k + 1)
    else FillPath(url, params, kwargs, render, k + 1)
  }

  /** The supplied parameters at a location, assigned into a dict in parameter order. */
  function Collect(params: seq<Param>, location: string, kwargs: Fields, acc: Fields, k: nat): Fields
    requires k <= |params|
    decreases |params| - k
  {
    if k == |params| then acc
    else if Supplied(params[k], location, kwargs) then
      var name := params[k].name.s;
      Collect(params, location, kwargs, Put(acc, name, Get(kwargs, name).value), k + 1)
    else Collect(params, location, kwargs, acc, k + 1)
  }

  /**
   * The request `api_tool_function` sends: path values substituted into
   * `base_url + path`, supplied query and body parameters collected, and no
   * body for GET and DELETE or when nothing was collected for it.
   */
  method BuildRequest(baseUrl: string, path: string, httpMethod: string, params: seq<Param>, kwargs: Fields,
                      render: Json -> string)
    returns (req: Request)
    ensures req.httpMethod == httpMethod
    ensures req.url == FillPath(baseUrl + path, params, kwargs, render, 0)
    ensures req.query == Collect(params, "query", kwargs, [], 0)
    ensures var body := Collect(params, "body", kwargs, [], 0);
            req.body == if httpMethod in ["GET", "DELETE"] || body == [] then None else Some(body)
  {
    var url := baseUrl + path;
    var k := 0;
    while k < |params|
      invariant 0 <= k <= |params|
      invariant FillPath(url, params, kwargs, render, k) == FillPath(baseUrl + path, params, kwargs, render, 0)
    {
      var p := params[k];
      if Supplied(p, "path", kwargs) {
        url := Text.Replace(url, "{" + p.name.s + "}", StrWith(render, Get(kwargs, p.name.s).value));
      }
      k := k + 1;
    }
    var query: Fields := [];
    k := 0;
    while k < |params|
      invariant 0 <= k <= |params|
      invariant Collect(params, "query", kwargs, query, k) == Collect(params, "query", kwargs, [], 0)
    {
      var p := params[k];
      if Supplied(p, "query", kwargs) {
        query := Put(query, p.name.s, Get(kwargs, p.name.s).value);
      }
      k := k + 1;
    }
    var body: Fields := [];
    k := 0;
    while k < |params|
      invariant 0 <= k <= |params|
      invariant Collect(params, "body", kwargs, body, k) == Collect(params, "body", kwargs, [], 0)
    {
      var p := params[k];
      if Supplied(p, "body", kwargs) {
        body := Put(body, p.name.s, Get(kwargs, p.name.s).value);
      }
      k := k + 1;
    }
    req := Request(httpMethod, url, query, if httpMethod in ["GET", "DELETE"] || body == [] then None else Some(body));
  }

  /** Some parameter from position `k` on supplies `key` at `location`. */
  predicate SuppliesKey(params: seq<Param>, location: string, kwargs: Fields, key: string, k: nat) {
    exists m :: k <= m < |params| && Supplied(params[m], location, kwargs) && params[m].name.s == key
  }

  /**
   * The collected dict holds exactly the supplied parameters of its location,
   * each with the value the call gave it, besides what it held before.
   */
  lemma {:induction false} CollectExactly(params: seq<Param>, location: string, kwargs: Fields, acc: Fields, k: nat, key: string)
    requires k <= |params|
    ensures Get(Collect(params, location, kwargs, acc, k), key)
         == if SuppliesKey(params, location, kwargs, key, k) then Get(kwargs, key) else Get(acc, key)
    decreases |params| - k
  {
    if k < |params| {
      var p := params[k];
      if Supplied(p, location, kwargs) {
        var acc' := Put(acc, p.name.s, Get(kwargs, p.name.s).value);
        CollectExactly(params, location, kwargs, acc', k + 1, key);
        if p.name.s == key {
          assert SuppliesKey(params, location, kwargs, key, k);
          if !SuppliesKey(params, location, kwargs, key, k + 1) {
            assert Get(acc', key) == Get(kwargs, key);
          }
        } else {
          SuppliesKeyStep(params, location, kwargs, key, k);
        }
      } else {
        CollectExactly(params, location, kwargs, acc, k + 1, key);
        SuppliesKeyStep(params, location, kwargs, key, k);
      }
    }
  }

  lemma SuppliesKeyStep(params: seq<Param>, location: string, kwargs: Fields, key: string, k: nat)
    requires k < |params| && !(Supplied(params[k], location, kwargs) && params[k].name.s == key)
    ensures SuppliesKey(params, location, kwargs, key, k) == SuppliesKey(params, location, kwargs, key, k + 1)
  {
    if SuppliesKey(params, location, kwargs, key, k) {
      var m :| k <= m < |params| && Supplied(params[m], location, kwargs) && params[m].name.s == key;
      assert m != k;
    }
  }

  /** With no path value supplied, the URL is the base URL followed by the path template. */
  lemma {:induction false} UrlWithoutPathValues(url: string, params: seq<Param>, kwargs: Fields, render: Json -> string, k: nat)
    requires k <= |params|
    requires forall m :: k <= m < |params| ==> !Supplied(params[m], "path", kwargs)
    ensures FillPath(url, params, kwargs, render, k) == url
    decreases |params| - k
  {
    if k < |params| {
      UrlWithoutPathValues(url, params, kwargs, render, k + 1);
    }
  }

  /** A single placeholder whose value is supplied is replaced by the value's text. */
  lemma PlaceholderFilled(base: string, before: string, name: string, after: string, value: Json, render: Json -> string)
    requires '{' !in base && '{' !in before && '{' !in after
    ensures var kwargs := [(name, value)];
            var params := [Param(JStr(name), JStr("path"), JBool(true), JStr("string"), JStr(""))];
            FillPath(base + before + "{" + name + "}" + after, params, kwargs, render, 0)
              == base + before + StrWith(render, value) + after
  {
    var pat := "{" + name + "}";
    var kwargs := [(name, value)];
    var params := [Param(JStr(name), JStr("path"), JBool(true), JStr("string"), JStr(""))];
    assert Keys(kwargs) == [name];
    assert Supplied(params[0], "path", kwargs);
    var url := base + before + "{" + name + "}" + after;
    assert url == (base + before) + (pat + after);
    var text := StrWith(render, value);
    Text.ReplaceAfterPrefix(base + before, pat + after, pat, text);
    PatternAtStart(pat, after, text);
    assert FillPath(url, params, kwargs, render, 0) == Text.Replace(url, pat, text);
  }

  /** A placeholder at the start of text with no further `{` is replaced once. */
  lemma PatternAtStart(pat: string, after: string, text: string)
    requires |pat| > 0 && pat[0] == '{' && '{' !in after
    ensures Text.Replace(pat + after, pat, text) == text + after
  {
    assert pat <= pat + after;
    assert (pat + after)[|pat|..] == after;
    Text.ReplaceAfterPrefix(after, [], pat, text);
    assert after + [] == after;
  }
}

=== FILE: py.dfy ===
/**
 * The Python operators the core applies to JSON values, with the exception
 * each one raises where Python raises one. A raised exception is a `Failure`.
 */
module Py {
  import opened Wrappers
  import opened Json
  import Text

  /** The built-in exceptions the core raises or catches. */
  datatype PyError = KeyError | IndexError | TypeError | AttributeError | ValueError

  type PyResult<T> = Result<T, PyError>

  /** Python truthiness (`if x:`, `not x`, `x or y`). */
  predicate Truthy(j: Json) {
    match j
    case JNull => false
    case JBool(b) => b
    case JInt(i) => i != 0
    case JFloat(f) => f != 0.0
    case JStr(s) => s != []
    case JArr(items) => items != []
    case JObj(fs) => fs != []
  }

  /** Python `needle in j` for a `str` needle: dict keys, list items, substrings. */
  function In(needle: string, j: Json): PyResult<bool> {
    match j
    case JObj(fs) => Success(needle in Keys(fs))
    case JArr(items) => Success(JStr(needle) in items)
    case JStr(s) => Success(Text.IsSubstring(needle, s))
    case _ => Failure(TypeError)
  }

  /** Python `j[key]` for a `str` key. */
  function Index(j: Json, key: string): PyResult<Json> {
    match j
    case JObj(fs) =>
      var v := Get(fs, key);
      if v.Some? then Success(v.value) else Failure(KeyError)
    case _ => Failure(TypeError)
  }

  /** Python `len(s)`-relative position of an `int` index, or -1 when out of range. */
  function Position(n: int, len: nat): int {
    var k := if n < 0 then n + len else n;
    if 0 <= k < len then k else -1
  }

  /** Python `j[n]` for an `int` index; a JSON object has no `int` keys. */
  function At(j: Json, n: int): PyResult<Json> {
    match j
    case JArr(items) =>
      var k := Position(n, |items|);
      if k < 0 then Failure(IndexError) else Success(items[k])
    case JStr(s) =>
      var k := Position(n, |s|);
      if k < 0 then Failure(IndexError) else Success(JStr([s[k]]))
    case JObj(_) => Failure(KeyError)
    case _ => Failure(TypeError)
  }

  /** Python `j.get(key, dflt)`; only a dict has `get`. */
  function GetOr(j: Json, key: string, dflt: Json): PyResult<Json> {
    match j
    case JObj(fs) => Success(Get(fs, key).GetOr(dflt))
    case _ => Failure(AttributeError)
  }

  /** Python `for x in j`: list items, dict keys, or one-character strings. */
  function Iterate(j: Json): PyResult<seq<Json>> {
    match j
    case JArr(items) => Success(items)
    case JObj(fs) => Success(seq(|fs|, i requires 0 <= i < |fs| => JStr(fs[i].0)))
    case JStr(s) => Success(seq(|s|, i requires 0 <= i < |s| => JStr([s[i]])))
    case _ => Failure(TypeError)
  }

  /** The end of the Python slice `[:n]` of a sequence of length `len`. */
  function SliceEnd(n: int, len: nat): (e: nat)
    ensures e <= len
  {
    if n < 0 then (if n + len < 0 then 0 else n + len) else if n > len then len else n
  }

  /** Python `j[:n]` for lists and strings. */
  function SliceTo(j: Json, n: int): PyResult<Json> {
    match j
    case JArr(items) => Success(JArr(items[..SliceEnd(n, |items|)]))
    case JStr(s) => Success(JStr(s[..SliceEnd(n, |s|)]))
    case _ => Failure(TypeError)
  }

  /** Python `int(f)` for a float: truncation toward zero. */
  function Trunc(f: real): int {
    if f >= 0.0 then f.Floor else -((-f).Floor)
  }

  /** Python `int(j)`. */
  function ToInt(j: Json): PyResult<int> {
    match j
    case JInt(i) => Success(i)
    case JBool(b) => Success(if b then 1 else 0)
    case JFloat(f) => Success(Trunc(f))
    case JStr(s) =>
      var v := Text.ParseInt(s);
      if v.Some? then Success(v.value) else Failure(ValueError)
    case _ => Failure(TypeError)
  }

  /** Python `float(j)`. */
  function ToFloat(j: Json): PyResult<real> {
    match j
    case JInt(i) => Success(i as real)
    case JBool(b) => Success(if b then 1.0 else 0.0)
    case JFloat(f) => Success(f)
    case JStr(s) =>
      var v := Text.ParseDecimal(s);
      if v.Some? then Success(v.value) else Failure(ValueError)
    case _ => Failure(TypeError)
  }

  /** The numeric value of an `int`, `float` or `bool` (a `bool` is an `int` in Python). */
  function Number(j: Json): Option<real> {
    match j
    case JInt(i) => Some(i as real)
    case JFloat(f) => Some(f)
    case JBool(b) => Some(if b then 1.0 else 0.0)
    case _ => None
  }

  /** Python `a < b` for numbers and for strings; other mixes raise `TypeError`. */
  function Less(a: Json, b: Json): (r: PyResult<bool>)
    ensures Number(a).Some? && Number(b).Some? ==> r == Success(Number(a).value < Number(b).value)
  {
    if Number(a).Some? && Number(b).Some? then Success(Number(a).value < Number(b).value)
    else if a.JStr? && b.JStr? then Success(Text.LexLess(a.s, b.s))
    else Failure(TypeError)
  }

  /** Python `a <= b` for numbers and for strings; other mixes raise `TypeError`. */
  function LessEq(a: Json, b: Json): (r: PyResult<bool>)
    ensures Number(a).Some? && Number(b).Some? ==> r == Success(Number(a).value <= Number(b).value)
  {
    if Number(a).Some? && Number(b).Some? then Success(Number(a).value <= Number(b).value)
    else if a.JStr? && b.JStr? then Success(a.s == b.s || Text.LexLess(a.s, b.s))
    else Failure(TypeError)
  }

  /** Python `j == n` for an integer literal `n`. */
  predicate EqualsInt(j: Json, n: int) {
    Number(j) == Some(n as real)
  }

  /** Python `str(j)` for the scalar values whose text the core relies on. */
  function Str(j: Json): Option<string> {
    match j
    case JStr(s) => Some(s)
    case JInt(i) => Some(Text.IntToString(i))
    case JBool(b) => Some(if b then "True" else "False")
    case JNull => Some("None")
    case _ => None
  }

  /**
   * Python `str(j)` (and an f-string field): the modelled text of a scalar,
   * and `render(j)` for a float, list or dict, whose text is not modelled.
   */
  function StrWith(render: Json -> string, j: Json): (s: string)
    ensures Str(j).Some? ==> s == Str(j).value
    ensures Str(j).None? ==> s == render(j)
  {
    if Str(j).Some? then Str(j).value else render(j)
  }

  /** The Python classes a JSON value can belong to. */
  datatype PyType = NoneType | BoolType | IntType | FloatType | StrType | ListType | DictType

  function TypeOf(j: Json): PyType {
    match j
    case JNull => NoneType
    case JBool(_) => BoolType
    case JInt(_) => IntType
    case JFloat(_) => FloatType
    case JStr(_) => StrType
    case JArr(_) => ListType
    case JObj(_) => DictType
  }

  /** Python `isinstance(j, t)`: `bool` is a subclass of `int`. */
  predicate IsInstance(j: Json, t: PyType) {
    TypeOf(j) == t || (t == IntType && j.JBool?)
  }

  /** Python `t.__name__`. */
  function TypeName(t: PyType): string {
    match t
    case NoneType => "NoneType"
    case BoolType => "bool"
    case IntType => "int"
    case FloatType => "float"
    case StrType => "str"
    case ListType => "list"
    case DictType => "dict"
  }

  /** `str(x)` read back by `int()` gives `x` for every integer. */
  lemma StrToIntRoundTrip(i: int)
    ensures Str(JInt(i)).Some? && ToInt(JStr(Str(JInt(i)).value)) == Success(i)
  {
    Text.IntToStringRoundTrip(i);
  }
}

=== FILE: remote_client.dfy ===
/**
 * How the remote test client addresses a deployed server: the runtime ARN is
 * percent-encoded into the invocation URL, and a bearer token, when there is
 * one, goes into the headers. The MCP session over that URL is outside the
 * model.
 */
module RemoteClient {
  import opened Wrappers
  import opened Json
  import Text
  import Configuration

  /** The escape for one character of the ARN. */
  function EncodeChar(c: char): string {
    if c == ':' then "%3A" else if c == '/' then "%2F" else [c]
  }

  /** Each character replaced by its escape: the reference definition of the encoding. */
  function Escaped(s: string): (r: string)
    ensures ':' !in r && '/' !in r
  {
    if s == [] then [] else EncodeChar(s[0]) + Escaped(s[1..])
  }

  /** `agent_arn.replace(':', '%3A').replace('/', '%2F')`. */
  function EncodeArn(arn: string): (e: string)
    ensures e == Escaped(arn)
    ensures ':' !in e && '/' !in e
  {
    ReplaceTwiceEscapes(arn);
    Text.Replace(Text.Replace(arn, ":", "%3A"), "/", "%2F")
  }

  /** Replacing one character handles the first character and then the rest. */
  lemma ReplaceCharStep(s: string, c: char, rep: string)
    requires s != []
    ensures Text.Replace(s, [c], rep) == (if s[0] == c then rep else [s[0]]) + Text.Replace(s[1..], [c], rep)
  {
    if s[0] == c {
      assert [c] <= s;
    } else {
      assert !([c] <= s);
    }
  }

  /** Escaping `/` in text free of `:` and already escaped for `:` gives the reference encoding. */
  lemma {:induction false} ReplaceTwiceEscapes(s: string)
    ensures Text.Replace(Text.Replace(s, ":", "%3A"), "/", "%2F") == Escaped(s)
    decreases |s|
  {
    if s != [] {
      ReplaceCharStep(s, ':', "%3A");
      var head := if s[0] == ':' then "%3A" else [s[0]];
      var tail := Text.Replace(s[1..], ":", "%3A");
      if s[0] == ':' {
        Text.ReplaceAfterPrefix(head, tail, "/", "%2F");
      } else if s[0] == '/' {
        assert head + tail == [s[0]] + tail;
        ReplaceCharStep(head + tail, '/', "%2F");
        assert (head + tail)[1..] == tail;
      } else {
        Text.ReplaceAfterPrefix(head, tail, "/", "%2F");
      }
      ReplaceTwiceEscapes(s[1..]);
    }
  }

  /** Characters other than `:` and `/` are left as they are. */
  lemma PlainArnUnchanged(arn: string)
    requires ':' !in arn && '/' !in arn
    ensures EncodeArn(arn) == arn
    decreases |arn|
  {
    if arn != [] {
      PlainArnUnchanged(arn[1..]);
    }
  }

  /** The encoding is prefix-wise: encoding a concatenation encodes each part. */
  lemma {:induction false} EscapedAppend(a: string, b: string)
    ensures Escaped(a + b) == Escaped(a) + Escaped(b)
    decreases |a|
  {
    if a != [] {
      assert (a + b)[0] == a[0];
      assert (a + b)[1..] == a[1..] + b;
      EscapedAppend(a[1..], b);
      assert Escaped(a + b) == EncodeChar(a[0]) + (Escaped(a[1..]) + Escaped(b));
    } else {
      assert a + b == b;
    }
  }

  /**
   * The parts of the runtime's invocation URL between its slashes: scheme,
   * empty authority prefix, regional host, `runtimes`, the encoded ARN and
   * the endpoint with its qualifier.
   */
  function UrlParts(region: string, encodedArn: string): (parts: seq<string>)
    ensures |parts| == 6 && parts[4] == encodedArn
    ensures '/' !in region ==> forall k :: 0 <= k < |parts| && k != 4 ==> '/' !in parts[k]
  {
    ["https:", "", "bedrock-agentcore." + region + ".amazonaws.com", "runtimes", encodedArn, "invocations?qualifier=DEFAULT"]
  }

  /**
   * `https://bedrock-agentcore.{region}.amazonaws.com/runtimes/{encoded}/invocations?qualifier=DEFAULT`,
   * written as its parts joined by `/`.
   */
  function McpUrl(region: string, encodedArn: string): (url: string)
    ensures url == "https://bedrock-agentcore." + region + ".amazonaws.com/runtimes/" + encodedArn
                   + "/invocations?qualifier=DEFAULT"
  {
    UrlText(region, encodedArn);
    Text.Join(UrlParts(region, encodedArn), "/")
  }

  /** The joined parts spell out the f-string of the client. */
  lemma UrlText(region: string, encodedArn: string)
    ensures Text.Join(UrlParts(region, encodedArn), "/")
         == "https://bedrock-agentcore." + region + ".amazonaws.com/runtimes/" + encodedArn + "/invocations?qualifier=DEFAULT"
  {
    JoinedUrl(UrlParts(region, encodedArn));
    Regroup("https:", "bedrock-agentcore.", region, ".amazonaws.com", "runtimes", encodedArn, "invocations?qualifier=DEFAULT");
    SchemeLiteral();
    HostLiteral();
    EndpointLiteral();
  }

  // The constant pieces of the f-string, each as the joined parts write it.

  lemma SchemeLiteral()
    ensures "https:" + "/" + "" + "/" + "bedrock-agentcore." == "https://bedrock-agentcore."
  {
  }

  lemma HostLiteral()
    ensures ".amazonaws.com" + "/" + "runtimes" + "/" == ".amazonaws.com/runtimes/"
  {
  }

  lemma EndpointLiteral()
    ensures "/" + "invocations?qualifier=DEFAULT" == "/invocations?qualifier=DEFAULT"
  {
  }

  /** Regrouping the joined parts around the region and the encoded ARN. */
  lemma Regroup(scheme: string, hostHead: string, region: string, hostTail: string, runtimes: string, arn: string, endpoint: string)
    ensures scheme + "/" + "" + "/" + (hostHead + region + hostTail) + "/" + runtimes + "/" + arn + "/" + endpoint
         == (scheme + "/" + "" + "/" + hostHead) + region + (hostTail + "/" + runtimes + "/") + arn + ("/" + endpoint)
  {
  }

  /** Six URL parts joined by `/`, written out. */
  lemma JoinedUrl(parts: seq<string>)
    requires |parts| == 6
    ensures Text.Join(parts, "/") == parts[0] + "/" + parts[1] + "/" + parts[2] + "/" + parts[3] + "/" + parts[4] + "/" + parts[5]
  {
    var p := parts;
    assert p[1..][1..] == p[2..] && p[2..][1..] == p[3..] && p[3..][1..] == p[4..] && p[4..][1..] == p[5..];
    assert Text.Join(p[5..], "/") == p[5];
    assert Text.Join(p[4..], "/") == p[4] + "/" + p[5];
    assert Text.Join(p[3..], "/") == p[3] + "/" + (p[4] + "/" + p[5]);
    assert Text.Join(p[2..], "/") == p[2] + "/" + (p[3] + "/" + (p[4] + "/" + p[5]));
    assert Text.Join(p[1..], "/") == p[1] + "/" + (p[2] + "/" + (p[3] + "/" + (p[4] + "/" + p[5])));
  }

  /** With no `/` in the region, splitting the URL on `/` gives back the encoded ARN as one whole segment. */
  lemma UrlNamesRuntime(region: string, arn: string)
    requires '/' !in region
    ensures Text.Split(McpUrl(region, EncodeArn(arn)), '/') == UrlParts(region, EncodeArn(arn))
  {
    var parts := UrlParts(region, EncodeArn(arn));
    assert '/' !in parts[2] by {
      assert '/' !in "bedrock-agentcore." && '/' !in ".amazonaws.com";
    }
    assert '/' !in parts[5];
    Text.SplitJoin(parts, '/');
  }

  /** The request headers: JSON content, plus a bearer token when one is set. */
  function Headers(bearerToken: Option<string>): (h: Fields)
    ensures Get(h, "Content-Type") == Some(JStr("application/json"))
    ensures "Authorization" in Keys(h) <==> bearerToken.Some? && bearerToken.value != []
    ensures "Authorization" in Keys(h) ==> Get(h, "Authorization") == Some(JStr("Bearer " + bearerToken.value))
  {
    var h := [("Content-Type", JStr("application/json"))];
    if bearerToken.Some? && bearerToken.value != [] then Put(h, "Authorization", JStr("Bearer " + bearerToken.value)) else h
  }

  /** Where and how the client connects. */
  datatype Connection = Connection(url: string, headers: Fields)

  /** The variable named, when it is set (Python `os.getenv(name)`). */
  function Lookup(env: Configuration.Env, name: string): Option<string> {
    if name in env then Some(env[name]) else None
  }

  /**
   * The set-up of `test_deployed_server`: a missing or empty `AGENT_ARN`
   * ends the process with status 1 before any connection.
   */
  function Setup(env: Configuration.Env): (r: Result<Connection, int>)
    ensures r.Failure? <==> Lookup(env, "AGENT_ARN").None? || Lookup(env, "AGENT_ARN").value == []
    ensures r.Failure? ==> r.error == 1
    ensures r.Success? ==> r.value.url == McpUrl(Configuration.Getenv(env, "AWS_REGION", "us-west-2"), EncodeArn(env["AGENT_ARN"]))
    ensures r.Success? ==> r.value.headers == Headers(Lookup(env, "BEARER_TOKEN"))
  {
    var arn := Lookup(env, "AGENT_ARN");
    if arn.None? || arn.value == [] then Failure(1)
    else
      var region := Configuration.Getenv(env, "AWS_REGION", "us-west-2");
      Success(Connection(McpUrl(region, EncodeArn(arn.value)), Headers(Lookup(env, "BEARER_TOKEN"))))
  }

  /** Without `AWS_REGION` the client talks to `us-west-2`. */
  lemma DefaultRegion(env: Configuration.Env)
    requires "AGENT_ARN" in env && env["AGENT_ARN"] != [] && "AWS_REGION" !in env
    ensures Setup(env).Success?
    ensures Setup(env).value.url == McpUrl("us-west-2", EncodeArn(env["AGENT_ARN"]))
  {
  }
}

=== FILE: remote_iam_client.dfy ===
/**
 * The IAM-authenticated remote test client: reading an MCP reply sent as a
 * server-sent event stream, choosing between one event and the list of all,
 * the invocation request it sends, and the tool it tries.
 *
 * The stream reader is the simplified event-stream reader of the client: a
 * line contributes only when it starts with `data: ` (section 9.2 of the WHATWG
 * HTML Living Standard defines the full format). `json.loads` is the parameter
 * `decode`, which yields `None` where it raises `JSONDecodeError`.
 */
module IamClient {
  import opened Wrappers
  import opened Json
  import opened Py
  import Text

  const DataPrefix := "data: "

  /** The events one line contributes: the decoded payload of a `data: ` line, if it decodes. */
  function LineEvents(line: string, decode: string -> Option<Json>): (es: seq<Json>)
    ensures |es| <= 1
    ensures es != [] ==> DataPrefix <= line && decode(line[|DataPrefix|..]) == Some(es[0])
  {
    if DataPrefix <= line then
      var d := decode(line[|DataPrefix|..]);
      if d.Some? then [d.value] else []
    else []
  }

  /** The events of a sequence of lines, line by line. */
  function Events(lines: seq<string>, decode: string -> Option<Json>): seq<Json>
  {
    if lines == [] then []
    else Events(lines[..|lines| - 1], decode) + LineEvents(lines[|lines| - 1], decode)
  }

  /** The payloads of the `data: ` lines, in order. */
  function Payloads(lines: seq<string>): (ps: seq<string>)
    ensures |ps| <= |lines|
  {
    if lines == [] then []
    else (if DataPrefix <= lines[0] then [lines[0][|DataPrefix|..]] else []) + Payloads(lines[1..])
  }

  /** The payloads that decode, decoded, in order. */
  function DecodeAll(payloads: seq<string>, decode: string -> Option<Json>): (es: seq<Json>)
    ensures |es| <= |payloads|
    ensures (forall i :: 0 <= i < |payloads| ==> decode(payloads[i]).Some?) ==>
              |es| == |payloads| && forall i :: 0 <= i < |payloads| ==> Some(es[i]) == decode(payloads[i])
  {
    if payloads == [] then []
    else
      var d := decode(payloads[0]);
      var rest := DecodeAll(payloads[1..], decode);
      assert forall i :: 1 <= i < |payloads| ==> payloads[i] == payloads[1..][i - 1];
      (if d.Some? then [d.value] else []) + rest
  }

  /** Reading lines one after the other is reading the first part, then the second. */
  lemma {:induction false} EventsAppend(a: seq<string>, b: seq<string>, decode: string -> Option<Json>)
    ensures Events(a + b, decode) == Events(a, decode) + Events(b, decode)
    decreases |b|
  {
    if b == [] {
      assert a + b == a;
    } else {
      var b' := b[..|b| - 1];
      var last := LineEvents(b[|b| - 1], decode);
      assert (a + b)[..|a + b| - 1] == a + b';
      assert (a + b)[|a + b| - 1] == b[|b| - 1];
      assert Events(a + b, decode) == Events(a + b', decode) + last;
      EventsAppend(a, b', decode);
      assert Events(b, decode) == Events(b', decode) + last;
    }
  }

  /**
   * The events are exactly the decodable `data: ` payloads, in line order: a
   * line that is not a `data: ` line adds nothing, and one that does not decode
   * is skipped.
   */
  lemma {:induction false} EventsAreDecodedPayloads(lines: seq<string>, decode: string -> Option<Json>)
    ensures Events(lines, decode) == DecodeAll(Payloads(lines), decode)
  {
    if lines != [] {
      EventsAreDecodedPayloads(lines[1..], decode);
      EventsAppend([lines[0]], lines[1..], decode);
      assert [lines[0]] + lines[1..] == lines;
      assert Events([lines[0]], decode) == LineEvents(lines[0], decode);
      var p := if DataPrefix <= lines[0] then [lines[0][|DataPrefix|..]] else [];
      DecodeAllAppend(p, Payloads(lines[1..]), decode);
    }
  }

  lemma {:induction false} DecodeAllAppend(p: seq<string>, q: seq<string>, decode: string -> Option<Json>)
    requires |p| <= 1
    ensures DecodeAll(p + q, decode) == DecodeAll(p, decode) + DecodeAll(q, decode)
  {
    if p == [] {
      assert p + q == q;
    } else {
      assert (p + q)[0] == p[0];
      assert (p + q)[1..] == q;
      assert p[1..] == [];
    }
  }

  /** There are never more events than `data: ` lines, nor more `data: ` lines than lines. */
  lemma EventsBound(lines: seq<string>, decode: string -> Option<Json>)
    ensures |Events(lines, decode)| <= |Payloads(lines)| <= |lines|
  {
    EventsAreDecodedPayloads(lines, decode);
  }

  /** A `data: ` line that does not decode is skipped and the lines after it still count. */
  lemma SkipsUndecodable(before: seq<string>, line: string, after: seq<string>, decode: string -> Option<Json>)
    requires DataPrefix <= line && decode(line[|DataPrefix|..]).None?
    ensures Events(before + [line] + after, decode) == Events(before, decode) + Events(after, decode)
  {
    LineOnly(line, decode);
    var x := before + [line];
    EventsAppend(x, after, decode);
    EventsAppend(before, [line], decode);
    assert Events(x, decode) == Events(before, decode);
  }

  lemma LineOnly(line: string, decode: string -> Option<Json>)
    ensures Events([line], decode) == LineEvents(line, decode)
  {
    assert [line][..0] == [];
  }

  /** `parse_sse_response`: strip the body, split it into lines, keep the decodable `data: ` payloads. */
  method ParseSse(body: string, decode: string -> Option<Json>) returns (results: seq<Json>)
    ensures results == Events(Text.Split(Text.Strip(body), '\n'), decode)
  {
    var lines := Text.Split(Text.Strip(body), '\n');
    results := [];
    var i := 0;
    while i < |lines|
      invariant 0 <= i <= |lines|
      invariant results == Events(lines[..i], decode)
    {
      var line := lines[i];
      if DataPrefix <= line {
        var payload := line[6..];
        var data := decode(payload);
        if data.Some? {
          results := results + [data.value];
        }
      }
      assert lines[..i + 1][..i] == lines[..i];
      i := i + 1;
    }
    assert lines[..|lines|] == lines;
  }

  /** Blank space around the whole body, such as blank lines before or after it, changes nothing. */
  lemma ParseIgnoresPadding(left: string, body: string, right: string, decode: string -> Option<Json>)
    requires Text.AllSpace(left) && Text.AllSpace(right)
    ensures Events(Text.Split(Text.Strip(left + body + right), '\n'), decode)
         == Events(Text.Split(Text.Strip(body), '\n'), decode)
  {
    Text.StripPadded(left, body, right);
  }

  /** What `invoke_mcp_server` returns: the only event, or else the list of all of them. */
  function SelectResult(events: seq<Json>): (r: Json)
    ensures |events| == 1 ==> r == events[0]
    ensures |events| != 1 ==> r == JArr(events)
  {
    if |events| == 1 then events[0] else JArr(events)
  }

  /** A caller cannot tell one event that is a list from several events. */
  lemma SelectionIsAmbiguous(a: Json, b: Json)
    ensures SelectResult([JArr([a, b])]) == SelectResult([a, b])
  {
  }

  datatype InvokeRequest = InvokeRequest(
    agentRuntimeArn: string,
    runtimeSessionId: string,
    mcpSessionId: string,
    mcpProtocolVersion: string,
    payload: Json,
    qualifier: string,
    accept: string)

  /** The request of `invoke_mcp_server`: it accepts event streams and reuses the session id for MCP. */
  function BuildRequest(arn: string, sessionId: string, payload: Json): (r: InvokeRequest)
    ensures Text.IsSubstring("text/event-stream", r.accept)
    ensures r.mcpSessionId == r.runtimeSessionId == sessionId
    ensures r.agentRuntimeArn == arn && r.payload == payload && r.qualifier == "DEFAULT"
  {
    var accept := "application/json, text/event-stream";
    Text.SubstringAt("text/event-stream", accept, 18);
    InvokeRequest(arn, sessionId, sessionId, "2024-11-05", payload, "DEFAULT", accept)
  }

  /** The reply of `invoke_agent_runtime`: a body, or a client error that is reported and re-raised. */
  datatype InvokeReply = Streamed(body: string) | Rejected(errorCode: string)

  /**
   * `invoke_mcp_server`: a rejected call is re-raised with its error code; a
   * streamed body yields the decodable `data: ` payloads of its lines, the only
   * one alone or else all of them as a list.
   */
  function InvokeMcpServer(reply: InvokeReply, decode: string -> Option<Json>): (r: Result<Json, string>)
    ensures reply.Rejected? ==> r == Failure(reply.errorCode)
    ensures reply.Streamed? ==> r == Success(SelectResult(Events(Text.Split(Text.Strip(reply.body), '\n'), decode)))
    ensures reply.Streamed? ==>
              r == Success(SelectResult(DecodeAll(Payloads(Text.Split(Text.Strip(reply.body), '\n')), decode)))
  {
    match reply
    case Rejected(code) => Failure(code)
    case Streamed(body) =>
      var lines := Text.Split(Text.Strip(body), '\n');
      EventsAreDecodedPayloads(lines, decode);
      Success(SelectResult(Events(lines, decode)))
  }

  /** The session id of the test run, `test-session-` and 32 hex digits. */
  function SessionId(hex: string): (id: string)
    requires |hex| == 32 && Text.IsLowerHex(hex)
    ensures |id| >= 33 && id[13..] == hex
  {
    "test-session-" + hex
  }

  // ---------------------------------------------------------------------------
  // choosing the tool to call

  datatype ToolCall = ToolCall(name: Json, arguments: Json)

  const AddArguments := JObj([("a", JInt(5)), ("b", JInt(3))])

  /**
   * The tool listed first under the name `add_numbers`, scanning from `from`;
   * reading a tool without a name raises.
   */
  function AddNumbersFrom(tools: seq<Json>, from: nat): (r: PyResult<bool>)
    requires from <= |tools|
    ensures r == Success(true) ==> exists i :: from <= i < |tools| && Index(tools[i], "name") == Success(JStr("add_numbers"))
    decreases |tools| - from
  {
    if from == |tools| then Success(false)
    else
      var name := Index(tools[from], "name");
      if name.Failure? then Failure(name.error)
      else if name.value == JStr("add_numbers") then Success(true)
      else AddNumbersFrom(tools, from + 1)
  }

  /**
   * The call the client makes: `add_numbers` with `{a: 5, b: 3}` when listed,
   * otherwise the first tool with `{}`, and no call when that tool's name is
   * falsy.
   */
  function ChosenCall(tools: seq<Json>): PyResult<Option<ToolCall>>
  {
    var found := AddNumbersFrom(tools, 0);
    if found.Failure? then Failure(found.error)
    else if found.value then Success(Some(ToolCall(JStr("add_numbers"), AddArguments)))
    else if tools == [] then Success(None)
    else
      var first := Index(tools[0], "name");
      if first.Failure? then Failure(first.error)
      else if Truthy(first.value) then Success(Some(ToolCall(first.value, JObj([]))))
      else Success(None)
  }

  /** The `for ... break` loop of the client and the fallback after it. */
  method SelectTool(tools: seq<Json>) returns (call: PyResult<Option<ToolCall>>)
    ensures call == ChosenCall(tools)
  {
    var i := 0;
    while i < |tools|
      invariant 0 <= i <= |tools|
      invariant AddNumbersFrom(tools, 0) == AddNumbersFrom(tools, i)
      invariant i > 0 ==> Index(tools[0], "name").Success?
    {
      var name := Index(tools[i], "name");
      if name.Failure? {
        return Failure(name.error);
      }
      if name.value == JStr("add_numbers") {
        return Success(Some(ToolCall(JStr("add_numbers"), AddArguments)));
      }
      i := i + 1;
    }
    if tools == [] {
      return Success(None);
    }
    var first := Index(tools[0], "name");
    call := if Truthy(first.value) then Success(Some(ToolCall(first.value, JObj([])))) else Success(None);
  }

  /** When `add_numbers` is listed and every tool has a name, it is the tool called. */
  lemma {:induction false} PrefersAddNumbers(tools: seq<Json>, k: nat)
    requires k < |tools| && Index(tools[k], "name") == Success(JStr("add_numbers"))
    requires forall i :: 0 <= i < |tools| ==> Index(tools[i], "name").Success?
    ensures ChosenCall(tools) == Success(Some(ToolCall(JStr("add_numbers"), AddArguments)))
  {
    AddNumbersFound(tools, 0, k);
  }

  lemma {:induction false} AddNumbersFound(tools: seq<Json>, from: nat, k: nat)
    requires from <= k < |tools| && Index(tools[k], "name") == Success(JStr("add_numbers"))
    requires forall i :: 0 <= i < |tools| ==> Index(tools[i], "name").Success?
    ensures AddNumbersFrom(tools, from) == Success(true)
    decreases k - from
  {
    if Index(tools[from], "name").value != JStr("add_numbers") {
      AddNumbersFound(tools, from + 1, k);
    }
  }

  /** Without `add_numbers`, the first tool is called with no arguments. */
  lemma {:induction false} FallsBackToFirst(tools: seq<Json>)
    requires tools != []
    requires forall i :: 0 <= i < |tools| ==> Index(tools[i], "name").Success?
    requires forall i :: 0 <= i < |tools| ==> Index(tools[i], "name") != Success(JStr("add_numbers"))
    requires Truthy(Index(tools[0], "name").value)
    ensures ChosenCall(tools) == Success(Some(ToolCall(Index(tools[0], "name").value, JObj([]))))
  {
    NoAddNumbers(tools, 0);
  }

  lemma {:induction false} NoAddNumbers(tools: seq<Json>, from: nat)
    requires from <= |tools|
    requires forall i :: 0 <= i < |tools| ==> Index(tools[i], "name").Success?
    requires forall i :: 0 <= i < |tools| ==> Index(tools[i], "name") != Success(JStr("add_numbers"))
    ensures AddNumbersFrom(tools, from) == Success(false)
    decreases |tools| - from
  {
    if from < |tools| {
      NoAddNumbers(tools, from + 1);
    }
  }

  /**
   * The tools the client reads from the `tools/list` result: `None` when the
   * server answered with an error, otherwise the listed tools, each of which
   * must have a name because the client prints it.
   */
  function ListedTools(result: Json): (r: PyResult<Option<seq<Json>>>)
    ensures r.Success? && r.value.Some? ==> forall i :: 0 <= i < |r.value.value| ==> Index(r.value.value[i], "name").Success?
  {
    var err := In("error", result);
    if err.Failure? then Failure(err.error)
    else if err.value then Success(None)
    else
      var outer := GetOr(result, "result", JObj([]));
      var tools := if outer.Failure? then outer else GetOr(outer.value, "tools", JArr([]));
      var items := if tools.Failure? then Failure(tools.error) else Iterate(tools.value);
      if items.Failure? then Failure(items.error)
      else if NamesReadable(items.value) then Success(Some(items.value))
      else Failure(FirstNameError(items.value))
  }

  predicate NamesReadable(tools: seq<Json>) {
    forall i :: 0 <= i < |tools| ==> Index(tools[i], "name").Success?
  }

  /** The exception raised by the first tool without a readable name. */
  function FirstNameError(tools: seq<Json>): PyError
    requires !NamesReadable(tools)
  {
    if Index(tools[0], "name").Failure? then Index(tools[0], "name").error
    else
      assert forall i :: 1 <= i < |tools| ==> tools[i] == tools[1..][i - 1];
      FirstNameError(tools[1..])
  }

  /** A listing the client accepted never makes the tool selection raise. */
  lemma {:induction false} SelectionAfterListing(result: Json)
    requires ListedTools(result).Success? && ListedTools(result).value.Some?
    ensures ChosenCall(ListedTools(result).value.value).Success?
  {
    var tools := ListedTools(result).value.value;
    if exists k :: 0 <= k < |tools| && Index(tools[k], "name") == Success(JStr("add_numbers")) {
      var k :| 0 <= k < |tools| && Index(tools[k], "name") == Success(JStr("add_numbers"));
      PrefersAddNumbers(tools, k);
    } else {
      NoAddNumbers(tools, 0);
    }
  }
}

=== FILE: server.dfy ===
/**
 * Tool loading at server start-up and the health endpoint. Registering tools
 * with the MCP framework is outside the model: whether each loader succeeds
 * is given by `Loaders`, and the loader records every attempt it makes.
 */
module Server {
  import opened Wrappers
  import opened Json
  import opened Py
  import Text
  import Configuration

  /** What each registration step would do, standing in for the imported modules. */
  datatype Loaders = Loaders(
    calculatorLoads: bool,     // `register_calculator_tools` returns normally
    directLoads: bool,         // `register_direct_tools` returns normally
    openApiInstalled: bool,    // `tools.openapi_tools` can be imported
    specLoads: Json -> bool)   // `register_openapi_tools(mcp, spec_path)` returns normally

  /** One step the loader takes, in the order it takes them. */
  datatype Attempt =
    | UnknownMode(mode: string)       // an unrecognised mode, reported before falling back
    | Calculator(loaded: bool)
    | Direct(loaded: bool)
    | OpenApiUnavailable              // the `ImportError` branch
    | NoSpecs                         // `specs` is empty (falsy)
    | SpecsUnreadable(error: PyError) // iterating `specs` raised
    | Spec(path: Json, loaded: bool)

  /** `load_direct_tools`: both loaders are tried, each in its own `try`. */
  function DirectAttempts(env: Loaders): (r: seq<Attempt>)
    ensures r == [Calculator(env.calculatorLoads), Direct(env.directLoads)]
  {
    [Calculator(env.calculatorLoads), Direct(env.directLoads)]
  }

  /** One attempt per spec path, in list order, each with its own outcome. */
  function SpecAttempts(paths: seq<Json>, env: Loaders): (r: seq<Attempt>)
    ensures |r| == |paths|
    ensures forall k :: 0 <= k < |paths| ==> r[k] == Spec(paths[k], env.specLoads(paths[k]))
  {
    seq(|paths|, k requires 0 <= k < |paths| => Spec(paths[k], env.specLoads(paths[k])))
  }

  /** `load_openapi_tools` given the configured `tools.openapi.specs`. */
  function OpenApiAttempts(specs: Json, env: Loaders): seq<Attempt> {
    if !env.openApiInstalled then [OpenApiUnavailable]
    else if !Truthy(specs) then [NoSpecs]
    else
      var paths := Iterate(specs);
      if paths.Failure? then [SpecsUnreadable(paths.error)] else SpecAttempts(paths.value, env)
  }

  /** `mode.lower()`; a mode that is not a string has no `lower`. */
  function Lowered(mode: Json): PyResult<string> {
    if mode.JStr? then Success(Text.Lower(mode.s)) else Failure(AttributeError)
  }

  /** `config.get("tools.mode", "direct").lower()`. */
  function Mode(cfg: Configuration.Config): PyResult<string>
    reads cfg
  {
    Lowered(cfg.Lookup("tools.mode", JStr("direct")))
  }

  /** `config.get("tools.openapi.specs", [])`. */
  function Specs(cfg: Configuration.Config): Json
    reads cfg
  {
    cfg.Lookup("tools.openapi.specs", JArr([]))
  }

  /** The attempts `load_tools` makes for a (lower-cased) mode. */
  function ModeAttempts(mode: string, specs: Json, env: Loaders): seq<Attempt> {
    if mode == "direct" then DirectAttempts(env)
    else if mode == "openapi" then OpenApiAttempts(specs, env)
    else if mode == "both" then DirectAttempts(env) + OpenApiAttempts(specs, env)
    else [UnknownMode(mode)] + DirectAttempts(env)
  }

  /** Whether an attempt belongs to `load_direct_tools`. */
  predicate IsDirect(a: Attempt) {
    a.Calculator? || a.Direct?
  }

  class ToolLoader {
    /** Every loader attempt made so far. */
    var attempts: seq<Attempt>

    constructor ()
      ensures attempts == []
    {
      attempts := [];
    }

    /** `load_direct_tools()`. */
    method LoadDirectTools(env: Loaders)
      modifies this
      ensures attempts == old(attempts) + DirectAttempts(env)
    {
      attempts := attempts + [Calculator(env.calculatorLoads)];
      attempts := attempts + [Direct(env.directLoads)];
    }

    /** `load_openapi_tools()`: reads the configured spec list, then loads it. */
    method LoadOpenApiTools(cfg: Configuration.Config, env: Loaders)
      modifies this
      ensures attempts == old(attempts) + OpenApiAttempts(Specs(cfg), env)
    {
      var specs := cfg.GetPath("tools.openapi.specs", JArr([]));
      LoadSpecs(specs, env);
    }

    /** The body of `load_openapi_tools` for the spec list it read: one `try` per spec path. */
    method LoadSpecs(specs: Json, env: Loaders)
      modifies this
      ensures attempts == old(attempts) + OpenApiAttempts(specs, env)
    {
      if !env.openApiInstalled {
        attempts := attempts + [OpenApiUnavailable];
        return;
      }
      if !Truthy(specs) {
        attempts := attempts + [NoSpecs];
        return;
      }
      var paths := Iterate(specs);
      if paths.Failure? {
        attempts := attempts + [SpecsUnreadable(paths.error)];
        return;
      }
      var items := paths.value;
      for k := 0 to |items|
        invariant attempts == old(attempts) + SpecAttempts(items[..k], env)
      {
        assert items[..k + 1] == items[..k] + [items[k]];
        attempts := attempts + [Spec(items[k], env.specLoads(items[k]))];
      }
      assert items[..|items|] == items;
    }

    /**
     * `load_tools()`: an exception from reading the mode propagates out of
     * start-up. Reading the configuration has no effect, so the spec list the
     * OpenAPI loader would read is read here once.
     */
    method LoadTools(cfg: Configuration.Config, env: Loaders) returns (raised: Option<PyError>)
      modifies this
      ensures Mode(cfg).Failure? ==> raised == Some(Mode(cfg).error) && attempts == old(attempts)
      ensures Mode(cfg).Success? ==> raised.None?
      ensures Mode(cfg).Success? ==> attempts == old(attempts) + ModeAttempts(Mode(cfg).value, Specs(cfg), env)
    {
      var value := cfg.GetPath("tools.mode", JStr("direct"));
      var mode := Lowered(value);
      if mode.Failure? {
        return Some(mode.error);
      }
      var specs := cfg.GetPath("tools.openapi.specs", JArr([]));
      Dispatch(mode.value, specs, env);
      raised := None;
    }

    /** The `if`/`elif` chain of `load_tools` on the lower-cased mode. */
    method Dispatch(mode: string, specs: Json, env: Loaders)
      modifies this
      ensures attempts == old(attempts) + ModeAttempts(mode, specs, env)
    {
      if mode == "direct" {
        LoadDirectTools(env);
      } else if mode == "openapi" {
        LoadSpecs(specs, env);
      } else if mode == "both" {
        LoadDirectTools(env);
        LoadSpecs(specs, env);
      } else {
        attempts := attempts + [UnknownMode(mode)];
        LoadDirectTools(env);
      }
    }
  }

  /** Lower-casing leaves text without upper-case letters as it is. */
  lemma LowerKeeps(s: string)
    requires forall i :: 0 <= i < |s| ==> !Text.IsAsciiUpper(s[i])
    ensures Text.Lower(s) == s
  {
  }

  /** Without a configured mode the server loads the direct tools only. */
  lemma DefaultModeIsDirect(cfg: Configuration.Config, specs: Json, env: Loaders)
    requires cfg.config == JObj([])
    ensures Mode(cfg) == Success("direct")
    ensures forall a :: a in ModeAttempts(Mode(cfg).value, specs, env) ==> IsDirect(a)
  {
    LowerKeeps("direct");
  }

  /** The mode is matched without regard to case. */
  lemma ModeIgnoresCase(mode: string, specs: Json, env: Loaders)
    ensures ModeAttempts(Text.Lower(Text.Upper(mode)), specs, env) == ModeAttempts(Text.Lower(mode), specs, env)
  {
    Text.LowerUpper(mode);
  }

  /** Which loaders run in each mode: never the OpenAPI loader in `direct` or an unknown mode, never the direct ones in `openapi`. */
  lemma DispatchSeparatesLoaders(mode: string, specs: Json, env: Loaders)
    ensures mode == "openapi" ==> forall a :: a in ModeAttempts(mode, specs, env) ==> !IsDirect(a)
    ensures mode != "openapi" && mode != "both" ==> forall a :: a in ModeAttempts(mode, specs, env) ==> IsDirect(a) || a.UnknownMode?
    ensures mode == "both" ==> ModeAttempts(mode, specs, env)[..2] == DirectAttempts(env)
  {
    if mode == "openapi" {
      var r := OpenApiAttempts(specs, env);
      forall a | a in r
        ensures !IsDirect(a)
      {
        var k :| 0 <= k < |r| && r[k] == a;
      }
    }
  }

  /** Every configured spec is attempted, in order, whatever happened to the ones before. */
  lemma EverySpecAttempted(items: seq<Json>, env: Loaders)
    requires env.openApiInstalled && items != []
    ensures var r := OpenApiAttempts(JArr(items), env);
      && |r| == |items|
      && forall k :: 0 <= k < |items| ==> r[k] == Spec(items[k], env.specLoads(items[k]))
  {
  }

  /** An empty spec list registers nothing. */
  lemma EmptySpecListLoadsNothing(env: Loaders)
    requires env.openApiInstalled
    ensures OpenApiAttempts(JArr([]), env) == [NoSpecs]
  {
  }

  /** The `/ping` payload for a server name and version. */
  function HealthPayload(server: Json, version: Json): (payload: Fields)
    ensures Keys(payload) == ["status", "server", "version"]
    ensures Get(payload, "status") == Some(JStr("healthy"))
    ensures Get(payload, "server") == Some(server)
    ensures Get(payload, "version") == Some(version)
  {
    var payload := [("status", JStr("healthy")), ("server", server), ("version", version)];
    assert Keys(payload[2..]) == ["version"];
    assert Keys(payload[1..]) == ["server", "version"];
    payload
  }

  /** `health_check()`: the payload of `GET /ping`, always `healthy`. */
  function HealthCheck(cfg: Configuration.Config): (payload: Fields)
    reads cfg
    ensures Get(payload, "status") == Some(JStr("healthy"))
    ensures Get(payload, "server") == Some(cfg.Lookup("mcp.server_name", JStr("mcp-server")))
    ensures Get(payload, "version") == Some(cfg.Lookup("mcp.server_version", JStr("1.0.0")))
  {
    HealthPayload(cfg.Lookup("mcp.server_name", JStr("mcp-server")), cfg.Lookup("mcp.server_version", JStr("1.0.0")))
  }

  /** With no configuration the health payload reports the default name and version. */
  lemma DefaultHealth(cfg: Configuration.Config)
    requires cfg.config == JObj([])
    ensures Get(HealthCheck(cfg), "server") == Some(JStr("mcp-server"))
    ensures Get(HealthCheck(cfg), "version") == Some(JStr("1.0.0"))
  {
  }
}

=== FILE: text.dfy ===
/**
 * The Python `str` operations the core relies on, written out over `seq<char>`:
 * `strip`, `split`, `join`, `replace`, `startswith`, `in` (substring),
 * ASCII case mapping, `str(int)` and `int(str)`.
 */
module Text {
  import opened Wrappers

  /** The characters for which Python's `str.isspace()` holds. */
  predicate IsSpace(c: char) {
    c == ' ' || ('\t' <= c <= '\r') || ('\U{1c}' <= c <= '\U{1f}')
    || c == '\U{85}' || c == '\U{a0}' || c == '\U{1680}'
    || ('\U{2000}' <= c <= '\U{200a}') || c == '\U{2028}' || c == '\U{2029}'
    || c == '\U{202f}' || c == '\U{205f}' || c == '\U{3000}'
  }

  predicate AllSpace(s: string) {
    forall i :: 0 <= i < |s| ==> IsSpace(s[i])
  }

  predicate IsDigit(c: char) { '0' <= c <= '9' }
  predicate IsAsciiUpper(c: char) { 'A' <= c <= 'Z' }
  predicate IsAsciiLower(c: char) { 'a' <= c <= 'z' }
  predicate IsAsciiLetter(c: char) { IsAsciiUpper(c) || IsAsciiLower(c) }

  /** Lower-case hexadecimal digits, as produced by `uuid4().hex`. */
  predicate IsLowerHex(s: string) {
    forall i :: 0 <= i < |s| ==> IsDigit(s[i]) || 'a' <= s[i] <= 'f'
  }

  // ---------------------------------------------------------------------------
  // strip

  /** Number of whitespace characters at the start of `s`. */
  function LeadingSpace(s: string): (n: nat)
    ensures n <= |s|
    ensures AllSpace(s[..n])
    ensures n < |s| ==> !IsSpace(s[n])
  {
    if s == [] || !IsSpace(s[0]) then 0
    else
      var n := 1 + LeadingSpace(s[1..]);
      assert forall i :: 1 <= i < n ==> s[i] == s[1..][i - 1];
      n
  }

  /** Index where the trailing run of whitespace of `s` begins. */
  function TrailingSpaceStart(s: string): (n: nat)
    ensures n <= |s|
    ensures AllSpace(s[n..])
    ensures n > 0 ==> !IsSpace(s[n - 1])
  {
    if s == [] || !IsSpace(s[|s| - 1]) then |s|
    else
      var n := TrailingSpaceStart(s[..|s| - 1]);
      assert forall i :: n <= i < |s| - 1 ==> s[i] == s[..|s| - 1][i];
      n
  }

  /** Python `s.strip()`: `s` without its leading and trailing whitespace. */
  function Strip(s: string): (r: string)
    ensures r == [] || (!IsSpace(r[0]) && !IsSpace(r[|r| - 1]))
    ensures exists a :: 0 <= a <= |s| - |r| && r == s[a..a + |r|] && AllSpace(s[..a]) && AllSpace(s[a + |r|..])
  {
    var a := LeadingSpace(s);
    var b := TrailingSpaceStart(s);
    if b <= a then
      assert s[a..a] == [];
      []
    else
      var r := s[a..b];
      assert r == s[a..a + |r|];
      r
  }

  lemma {:induction false} StripIdempotent(s: string)
    ensures Strip(Strip(s)) == Strip(s)
  {
    var r := Strip(s);
    var a := LeadingSpace(r);
    var b := TrailingSpaceStart(r);
    assert r[0..|r|] == r;
  }

  /** Stripping a string that does not start or end with whitespace changes nothing. */
  lemma StripNoEdgeSpace(s: string)
    requires s != [] ==> !IsSpace(s[0]) && !IsSpace(s[|s| - 1])
    ensures Strip(s) == s
  {
    var a := LeadingSpace(s);
    var b := TrailingSpaceStart(s);
    assert s[0..|s|] == s;
  }

  lemma {:induction false} LeadingSpaceAt(s: string, a: nat)
    requires a < |s| && AllSpace(s[..a]) && !IsSpace(s[a])
    ensures LeadingSpace(s) == a
  {
    if a > 0 {
      assert IsSpace(s[..a][0]);
      assert s[1..][..a - 1] == s[1..a];
      assert forall i :: 0 <= i < a - 1 ==> s[1..a][i] == s[..a][i + 1];
      LeadingSpaceAt(s[1..], a - 1);
    }
  }

  lemma {:induction false} LeadingSpaceAll(s: string)
    requires AllSpace(s)
    ensures LeadingSpace(s) == |s|
  {
    if s != [] {
      assert AllSpace(s[1..]) by {
        assert forall i :: 0 <= i < |s| - 1 ==> s[1..][i] == s[i + 1];
      }
      LeadingSpaceAll(s[1..]);
    }
  }

  lemma {:induction false} TrailingSpaceAt(s: string, b: nat)
    requires 0 < b <= |s| && AllSpace(s[b..]) && !IsSpace(s[b - 1])
    ensures TrailingSpaceStart(s) == b
    decreases |s|
  {
    if b < |s| {
      var s' := s[..|s| - 1];
      assert IsSpace(s[b..][|s| - 1 - b]);
      assert AllSpace(s'[b..]) by {
        assert forall i :: 0 <= i < |s'| - b ==> s'[b..][i] == s[b..][i];
      }
      TrailingSpaceAt(s', b);
    }
  }

  /** `Strip(s)` is the slice between a run of leading and a run of trailing whitespace. */
  lemma StripUnique(s: string, a: nat, b: nat)
    requires a <= b <= |s| && AllSpace(s[..a]) && AllSpace(s[b..])
    requires a < b ==> !IsSpace(s[a]) && !IsSpace(s[b - 1])
    requires a == b ==> AllSpace(s)
    ensures Strip(s) == s[a..b]
  {
    if a < b {
      LeadingSpaceAt(s, a);
      TrailingSpaceAt(s, b);
    } else {
      LeadingSpaceAll(s);
    }
  }

  /** `s.strip()` is empty exactly when `s` is all whitespace. */
  lemma StripEmptyIffAllSpace(s: string)
    ensures Strip(s) == [] <==> AllSpace(s)
  {
    if Strip(s) == [] {
      var a :| 0 <= a <= |s| && AllSpace(s[..a]) && AllSpace(s[a..]);
      forall i | 0 <= i < |s|
        ensures IsSpace(s[i])
      {
        if i < a {
          assert s[i] == s[..a][i];
        } else {
          assert s[i] == s[a..][i - a];
        }
      }
    }
    if AllSpace(s) {
      LeadingSpaceAll(s);
    }
  }

  lemma AllSpaceConcat(x: string, y: string)
    requires AllSpace(x) && AllSpace(y)
    ensures AllSpace(x + y)
  {
    assert forall i :: 0 <= i < |x + y| ==> (x + y)[i] == if i < |x| then x[i] else y[i - |x|];
  }

  /** A sequence is what comes before position `n`, the element there, and what follows. */
  lemma SplitAround<T>(s: seq<T>, n: nat)
    requires n < |s|
    ensures s == s[..n] + [s[n]] + s[n + 1..]
  {
    assert s[..n] + [s[n]] == s[..n + 1];
  }

  lemma SliceThree<T>(s: seq<T>, a: nat, b: nat)
    requires a <= b <= |s|
    ensures s == s[..a] + s[a..b] + s[b..]
  {
  }

  lemma Regroup<T>(l: seq<T>, p: seq<T>, r: seq<T>, q: seq<T>, k: seq<T>)
    ensures l + (p + r + q) + k == (l + p) + r + (q + k)
  {
  }

  lemma StripPaddedBlank(left: string, s: string, right: string)
    requires AllSpace(left) && AllSpace(right) && TrailingSpaceStart(s) <= LeadingSpace(s)
    ensures Strip(left + s + right) == Strip(s) == []
  {
    var a := LeadingSpace(s);
    var b := TrailingSpaceStart(s);
    assert a == |s|;
    assert s[..a] == s;
    AllSpaceConcat(left, s);
    AllSpaceConcat(left + s, right);
    StripUnique(left + s + right, 0, 0);
  }

  lemma StripPaddedText(left: string, s: string, right: string)
    requires AllSpace(left) && AllSpace(right) && LeadingSpace(s) < TrailingSpaceStart(s)
    ensures Strip(left + s + right) == Strip(s)
  {
    var a := LeadingSpace(s);
    var b := TrailingSpaceStart(s);
    SpaceRuns(s);
    StripPaddedSlice(left, s, right, a, b);
  }

  /** The runs of white space at either end of a string that is not blank. */
  lemma SpaceRuns(s: string)
    requires LeadingSpace(s) < TrailingSpaceStart(s)
    ensures var a, b := LeadingSpace(s), TrailingSpaceStart(s);
      && AllSpace(s[..a]) && AllSpace(s[b..]) && !IsSpace(s[a]) && !IsSpace(s[b - 1])
      && Strip(s) == s[a..b]
  {
  }

  /** Padding `s` keeps its slice between a leading and a trailing run of white space. */
  lemma StripPaddedSlice(left: string, s: string, right: string, a: nat, b: nat)
    requires AllSpace(left) && AllSpace(right)
    requires a < b <= |s| && AllSpace(s[..a]) && AllSpace(s[b..]) && !IsSpace(s[a]) && !IsSpace(s[b - 1])
    ensures Strip(left + s + right) == s[a..b]
  {
    var r := s[a..b];
    var pre, post := s[..a], s[b..];
    assert r[0] == s[a] && r[|r| - 1] == s[b - 1];
    SliceThree(s, a, b);
    Regroup(left, pre, r, post, right);
    AllSpaceConcat(left, pre);
    AllSpaceConcat(post, right);
    StripBetween(left + pre, r, post + right);
  }

  /** Text with no white space at its edges, between two runs of white space, is what `strip` returns. */
  lemma StripBetween(x: string, r: string, y: string)
    requires AllSpace(x) && AllSpace(y) && r != [] && !IsSpace(r[0]) && !IsSpace(r[|r| - 1])
    ensures Strip(x + r + y) == r
  {
    var t := x + r + y;
    assert t[..|x|] == x;
    assert t[|x| + |r|..] == y;
    assert t[|x|..|x| + |r|] == r;
    assert t[|x|] == r[0];
    assert t[|x| + |r| - 1] == r[|r| - 1];
    StripUnique(t, |x|, |x| + |r|);
  }

  /** Whitespace added around a string does not change what `strip` returns. */
  lemma StripPadded(left: string, s: string, right: string)
    requires AllSpace(left) && AllSpace(right)
    ensures Strip(left + s + right) == Strip(s)
  {
    if TrailingSpaceStart(s) <= LeadingSpace(s) {
      StripPaddedBlank(left, s, right);
    } else {
      StripPaddedText(left, s, right);
    }
  }

  // ---------------------------------------------------------------------------
  // substring search, split and join

  /** Python `p in s` for strings. */
  predicate IsSubstring(p: string, s: string)
    decreases |s|
  {
    p <= s || (s != [] && IsSubstring(p, s[1..]))
  }

  lemma {:induction false} SubstringAt(p: string, s: string, k: nat)
    requires k + |p| <= |s| && s[k..k + |p|] == p
    ensures IsSubstring(p, s)
    decreases k
  {
    if k == 0 {
      assert s[..|p|] == p;
    } else {
      assert s[1..][k - 1..k - 1 + |p|] == s[k..k + |p|];
      SubstringAt(p, s[1..], k - 1);
    }
  }

  function IndexOf(s: string, c: char): (i: nat)
    requires c in s
    ensures i < |s| && s[i] == c && c !in s[..i]
  {
    if s[0] == c then 0
    else
      assert c in s[1..] by { var j :| 0 <= j < |s| && s[j] == c; assert s[1..][j - 1] == c; }
      var i := 1 + IndexOf(s[1..], c);
      assert s[..i] == [s[0]] + s[1..][..i - 1];
      i
  }

  /** Python `s.split(sep)` for a one-character separator. */
  function Split(s: string, sep: char): (parts: seq<string>)
    ensures |parts| >= 1
    ensures forall i :: 0 <= i < |parts| ==> sep !in parts[i]
    decreases |s|
  {
    if sep !in s then [s]
    else
      var i := IndexOf(s, sep);
      [s[..i]] + Split(s[i + 1..], sep)
  }

  /** Splitting text that starts with a separator-free piece and a separator yields that piece first. */
  lemma SplitFirst(x: string, rest: string, sep: char)
    requires sep !in x
    ensures Split(x + [sep] + rest, sep) == [x] + Split(rest, sep)
  {
    var s := x + [sep] + rest;
    assert s[..|x|] == x;
    FirstIndex(s, sep, |x|);
    assert s[|x| + 1..] == rest;
  }

  /** Python `sep.join(parts)`. */
  function Join(parts: seq<string>, sep: string): string
  {
    if parts == [] then ""
    else if |parts| == 1 then parts[0]
    else parts[0] + sep + Join(parts[1..], sep)
  }

  /** Joining a piece in front of at least one more puts the separator between them. */
  lemma JoinCons(head: string, ps: seq<string>, sep: string)
    requires ps != []
    ensures Join([head] + ps, sep) == head + sep + Join(ps, sep)
  {
    assert ([head] + ps)[1..] == ps;
  }

  /** Splitting and joining back with the same separator gives the input. */
  lemma {:induction false} JoinSplit(s: string, sep: char)
    ensures Join(Split(s, sep), [sep]) == s
    decreases |s|
  {
    if sep in s {
      var i := IndexOf(s, sep);
      var head, tail := s[..i], s[i + 1..];
      assert s == head + [sep] + tail;
      SplitFirst(head, tail, sep);
      JoinCons(head, Split(tail, sep), [sep]);
      JoinSplit(tail, sep);
    }
  }

  /** Joining pieces free of the separator and splitting again gives the pieces. */
  lemma {:induction false} SplitJoin(parts: seq<string>, sep: char)
    requires |parts| >= 1
    requires forall i :: 0 <= i < |parts| ==> sep !in parts[i]
    ensures Split(Join(parts, [sep]), sep) == parts
    decreases |parts|
  {
    if |parts| > 1 {
      var rest := Join(parts[1..], [sep]);
      var s := parts[0] + [sep] + rest;
      assert sep in s by { assert s[|parts[0]|] == sep; }
      var i := IndexOf(s, sep);
      assert s[..i] == parts[0];
      assert s[i + 1..] == rest;
      SplitJoin(parts[1..], sep);
    }
  }

  /** Python `s.split(sep)[-1]`: the text after the last `sep`, or all of `s`. */
  function LastSegment(s: string, sep: char): (r: string)
    ensures sep !in r
    ensures |r| <= |s| && s[|s| - |r|..] == r
    ensures |r| < |s| ==> s[|s| - |r| - 1] == sep
    decreases |s|
  {
    if s == [] || s[|s| - 1] == sep then []
    else
      var init := s[..|s| - 1];
      var r := LastSegment(init, sep);
      SuffixExtend(s, r);
      r + [s[|s| - 1]]
  }

  /** A suffix of `s` without its last character, extended by that character. */
  lemma SuffixExtend(s: string, r: string)
    requires s != [] && |r| <= |s| - 1 && s[..|s| - 1][|s| - 1 - |r|..] == r
    ensures s[|s| - |r| - 1..] == r + [s[|s| - 1]]
    ensures |r| < |s| - 1 ==> s[|s| - |r| - 2] == s[..|s| - 1][|s| - 1 - |r| - 1]
  {
    assert s[..|s| - 1][|s| - 1 - |r|..] == s[|s| - 1 - |r|..|s| - 1];
  }

  /** The last segment is what follows the last separator. */
  lemma {:induction false} LastSegmentAfter(a: string, b: string, sep: char)
    requires sep !in b
    ensures LastSegment(a + [sep] + b, sep) == b
    decreases |b|
  {
    var s := a + [sep] + b;
    if b != [] {
      var b' := b[..|b| - 1];
      assert s[..|s| - 1] == a + [sep] + b';
      assert s[|s| - 1] == b[|b| - 1];
      assert sep !in b' by {
        assert forall i :: 0 <= i < |b'| ==> b'[i] == b[i];
      }
      LastSegmentAfter(a, b', sep);
      assert b == b' + [b[|b| - 1]];
    }
  }

  /** The first occurrence is where the character occurs with none before it. */
  lemma FirstIndex(s: string, c: char, a: nat)
    requires a < |s| && s[a] == c && c !in s[..a]
    ensures IndexOf(s, c) == a
  {
    var i := IndexOf(s, c);
    assert forall k :: 0 <= k < a ==> s[..a][k] == s[k];
    assert forall k :: 0 <= k < i ==> s[..i][k] == s[k];
  }

  /** Python `a < b` for strings: code-point order, a proper prefix first. */
  predicate LexLess(a: string, b: string)
    decreases |a|
  {
    b != [] && (a == [] || (if a[0] != b[0] then a[0] < b[0] else LexLess(a[1..], b[1..])))
  }

  // ---------------------------------------------------------------------------
  // replace

  /**
   * Python `s.replace(pat, rep)`: every occurrence of `pat`, scanned left to right
   * without overlap, is replaced by `rep`.
   */
  function Replace(s: string, pat: string, rep: string): string
    requires |pat| > 0
    decreases |s|
  {
    if |s| < |pat| then s
    else if pat <= s then rep + Replace(s[|pat|..], pat, rep)
    else [s[0]] + Replace(s[1..], pat, rep)
  }

  /** A character absent from the input and from the replacement is absent from the result. */
  lemma {:induction false} ReplaceKeepsAbsent(s: string, pat: string, rep: string, c: char)
    requires |pat| > 0 && c !in s && c !in rep
    ensures c !in Replace(s, pat, rep)
    decreases |s|
  {
    if |s| >= |pat| {
      if pat <= s {
        ReplaceKeepsAbsent(s[|pat|..], pat, rep, c);
      } else {
        ReplaceKeepsAbsent(s[1..], pat, rep, c);
      }
    }
  }

  /** Replacing a single character by text that does not contain it removes it everywhere. */
  lemma {:induction false} ReplaceRemovesChar(s: string, c: char, rep: string)
    requires c !in rep
    ensures c !in Replace(s, [c], rep)
    decreases |s|
  {
    if |s| >= 1 {
      if [c] <= s {
        ReplaceRemovesChar(s[1..], c, rep);
      } else {
        assert s[0] != c;
        ReplaceRemovesChar(s[1..], c, rep);
      }
    }
  }

  /** Text before the pattern's first character can start is copied unchanged. */
  lemma {:induction false} ReplaceAfterPrefix(a: string, t: string, pat: string, rep: string)
    requires |pat| > 0 && pat[0] !in a
    ensures Replace(a + t, pat, rep) == a + Replace(t, pat, rep)
    decreases |a|
  {
    if a != [] {
      var s := a + t;
      if |s| >= |pat| {
        assert !(pat <= s) by { assert s[0] == a[0]; }
        assert s[1..] == a[1..] + t;
        ReplaceAfterPrefix(a[1..], t, pat, rep);
        assert a == [a[0]] + a[1..];
      } else {
        assert Replace(t, pat, rep) == t;
      }
    } else {
      assert a + t == t;
    }
  }

  /** Replacing a pattern that does not occur changes nothing. */
  lemma {:induction false} ReplaceAbsentPattern(s: string, pat: string, rep: string)
    requires |pat| > 0 && !IsSubstring(pat, s)
    ensures Replace(s, pat, rep) == s
    decreases |s|
  {
    if |s| >= |pat| {
      assert !(pat <= s);
      ReplaceAbsentPattern(s[1..], pat, rep);
    }
  }

  // ---------------------------------------------------------------------------
  // ASCII case mapping (Python's Unicode case tables are reduced to ASCII)

  function LowerChar(c: char): char {
    if IsAsciiUpper(c) then (c as int + 32) as char else c
  }

  function UpperChar(c: char): char {
    if IsAsciiLower(c) then (c as int - 32) as char else c
  }

  /** Python `s.lower()` on ASCII letters. */
  function Lower(s: string): (r: string)
    ensures |r| == |s|
    ensures forall i :: 0 <= i < |s| ==> !IsAsciiUpper(r[i])
    ensures forall i :: 0 <= i < |s| ==> (IsAsciiLetter(s[i]) <==> IsAsciiLetter(r[i]))
  {
    seq(|s|, i requires 0 <= i < |s| => LowerChar(s[i]))
  }

  /** Python `s.upper()` on ASCII letters. */
  function Upper(s: string): (r: string)
    ensures |r| == |s|
    ensures forall i :: 0 <= i < |s| ==> !IsAsciiLower(r[i])
    ensures forall i :: 0 <= i < |s| ==> (IsAsciiLetter(s[i]) <==> IsAsciiLetter(r[i]))
  {
    seq(|s|, i requires 0 <= i < |s| => UpperChar(s[i]))
  }

  /** Case mapping only changes letters, and only their case. */
  lemma LowerUpper(s: string)
    ensures Lower(Upper(s)) == Lower(s)
    ensures Upper(Lower(s)) == Upper(s)
  {
  }

  /**
   * Python `s.title()` on ASCII letters: a letter is upper-cased when the
   * character before it is not a letter, and lower-cased otherwise.
   */
  function TitleFrom(s: string, afterLetter: bool): (r: string)
    ensures |r| == |s|
    decreases |s|
  {
    if s == [] then []
    else
      var c := if !IsAsciiLetter(s[0]) then s[0] else if afterLetter then LowerChar(s[0]) else UpperChar(s[0]);
      [c] + TitleFrom(s[1..], IsAsciiLetter(s[0]))
  }

  function Title(s: string): string {
    TitleFrom(s, false)
  }

  /** In a title-cased string, exactly the letters that start a word are upper case. */
  lemma {:induction false} TitleShape(s: string, afterLetter: bool, i: nat)
    requires i < |s| && IsAsciiLetter(s[i])
    ensures var prevLetter := if i == 0 then afterLetter else IsAsciiLetter(s[i - 1]);
            IsAsciiUpper(TitleFrom(s, afterLetter)[i]) <==> !prevLetter
    decreases i
  {
    if i > 0 {
      TitleShape(s[1..], IsAsciiLetter(s[0]), i - 1);
      assert TitleFrom(s, afterLetter)[i] == TitleFrom(s[1..], IsAsciiLetter(s[0]))[i - 1];
    }
  }

  // ---------------------------------------------------------------------------
  // decimal numbers: str(n) and int(s)

  function DigitChar(d: nat): (c: char)
    requires d < 10
    ensures IsDigit(c) && c as int - '0' as int == d
  {
    ('0' as int + d) as char
  }

  /** Python `str(n)` for a natural number. */
  function NatToString(n: nat): (r: string)
    ensures |r| >= 1
    ensures forall i :: 0 <= i < |r| ==> IsDigit(r[i])
    ensures |r| > 1 ==> r[0] != '0'
    decreases n
  {
    if n < 10 then [DigitChar(n)] else NatToString(n / 10) + [DigitChar(n % 10)]
  }

  /** Python `str(i)` for an integer. */
  function IntToString(i: int): string {
    if i < 0 then "-" + NatToString(-i) else NatToString(i)
  }

  predicate AllDigits(s: string) {
    forall i :: 0 <= i < |s| ==> IsDigit(s[i])
  }

  /** The value of a string of decimal digits. */
  function DigitsValue(ds: string): nat
    requires AllDigits(ds)
  {
    if ds == [] then 0
    else DigitsValue(ds[..|ds| - 1]) * 10 + (ds[|ds| - 1] as int - '0' as int)
  }

  lemma {:induction false} NatToStringValue(n: nat)
    ensures DigitsValue(NatToString(n)) == n
    decreases n
  {
    if n >= 10 {
      NatToStringValue(n / 10);
      var r := NatToString(n);
      assert r[..|r| - 1] == NatToString(n / 10);
    }
  }

  /**
   * The digit part accepted by Python's `int()`: decimal digits, with single
   * underscores allowed between two digits.
   */
  predicate IsDigitGroup(b: string) {
    && |b| >= 1
    && IsDigit(b[0])
    && IsDigit(b[|b| - 1])
    && (forall i :: 0 <= i < |b| ==> IsDigit(b[i]) || b[i] == '_')
    && (forall i :: 0 <= i < |b| - 1 && b[i] == '_' ==> b[i + 1] != '_')
  }

  function DropUnderscores(b: string): (r: string)
    ensures (forall i :: 0 <= i < |b| ==> IsDigit(b[i]) || b[i] == '_') ==> AllDigits(r)
  {
    if b == [] then []
    else (if b[0] == '_' then [] else [b[0]]) + DropUnderscores(b[1..])
  }

  lemma {:induction false} DropUnderscoresOfDigits(b: string)
    requires AllDigits(b)
    ensures DropUnderscores(b) == b
  {
    if b != [] { DropUnderscoresOfDigits(b[1..]); }
  }

  /**
   * Python `int(s)` for a `str`: surrounding whitespace is ignored, one optional
   * sign, then a digit group; anything else is a `ValueError` (here `None`).
   */
  function ParseInt(s: string): Option<int>
  {
    var t := Strip(s);
    if t == [] then None
    else
      var body := if t[0] == '-' || t[0] == '+' then t[1..] else t;
      if !IsDigitGroup(body) then None
      else
        var v: int := DigitsValue(DropUnderscores(body));
        Some(if t[0] == '-' then -v else v)
  }

  /** The text of a natural number is a digit group that reads back as that number. */
  lemma NatStringParses(n: nat)
    ensures var ds := NatToString(n);
      && IsDigitGroup(ds) && DropUnderscores(ds) == ds && DigitsValue(ds) == n
      && '.' !in ds && ds[0] != '-' && ds[0] != '+' && !IsSpace(ds[0]) && !IsSpace(ds[|ds| - 1])
  {
    var ds := NatToString(n);
    NatToStringValue(n);
    DropUnderscoresOfDigits(ds);
    DigitIsPlain(ds[0]);
    DigitIsPlain(ds[|ds| - 1]);
    assert forall j :: 0 <= j < |ds| ==> ds[j] != '.';
  }

  /** A digit is neither white space nor a sign nor a point. */
  lemma DigitIsPlain(c: char)
    requires IsDigit(c)
    ensures !IsSpace(c) && c != '-' && c != '+' && c != '.'
  {
  }

  /** `int(str(i)) == i`. */
  lemma IntToStringRoundTrip(i: int)
    ensures ParseInt(IntToString(i)) == Some(i)
  {
    var s := IntToString(i);
    var n: nat := if i < 0 then -i else i;
    var ds := NatToString(n);
    NatStringParses(n);
    if i < 0 {
      assert s == "-" + ds && s[0] == '-' && s[1..] == ds && s[|s| - 1] == ds[|ds| - 1];
    } else {
      assert s == ds;
    }
    StripNoEdgeSpace(s);
  }

  function Pow10(n: nat): (p: nat)
    ensures p >= 1
  {
    if n == 0 then 1 else 10 * Pow10(n - 1)
  }

  /** The unsigned part of a decimal number: digits, optionally split by one point. */
  function DecimalBody(body: string): Option<real>
  {
    if '.' !in body then
      if IsDigitGroup(body) then Some(DigitsValue(DropUnderscores(body)) as real) else None
    else
      var i := IndexOf(body, '.');
      var whole := body[..i];
      var frac := body[i + 1..];
      if (whole == [] && frac == [])
         || (whole != [] && !IsDigitGroup(whole))
         || (frac != [] && !IsDigitGroup(frac))
      then None
      else
        var f := DropUnderscores(frac);
        Some(DigitsValue(DropUnderscores(whole)) as real + DigitsValue(f) as real / Pow10(|f|) as real)
  }

  /**
   * Python `float(s)` for plain decimal notation: surrounding whitespace is
   * ignored, one optional sign, then digits with an optional fractional part
   * (either side of the point may be empty, not both); anything else is a
   * `ValueError` (here `None`).
   */
  function ParseDecimal(s: string): Option<real>
  {
    var t := Strip(s);
    if t == [] then None
    else
      var v := DecimalBody(if t[0] == '-' || t[0] == '+' then t[1..] else t);
      if v.None? then None
      else Some(if t[0] == '-' then -v.value else v.value)
  }

  /** `float(str(i)) == i` for an integer `i`. */
  lemma IntToStringDecimal(i: int)
    ensures ParseDecimal(IntToString(i)) == Some(i as real)
  {
    if i < 0 {
      NegativeDecimal(i);
    } else {
      NatDecimal(i);
    }
  }

  lemma NatDecimal(n: nat)
    ensures ParseDecimal(NatToString(n)) == Some(n as real)
  {
    var ds := NatToString(n);
    NatBodyDecimal(n);
    NatStringParses(n);
    StripNoEdgeSpace(ds);
  }

  lemma NegativeDecimal(i: int)
    requires i < 0
    ensures ParseDecimal("-" + NatToString(-i)) == Some(i as real)
  {
    var n := -i;
    NatBodyDecimal(n);
    NatLastNotSpace(n);
    SignedStrip(NatToString(n));
    NegatedDecimal("-" + NatToString(n), n as real);
    assert -(n as real) == i as real;
  }

  /** The digits of a natural number do not end in white space. */
  lemma NatLastNotSpace(n: nat)
    ensures NatToString(n) != [] && !IsSpace(NatToString(n)[|NatToString(n)| - 1])
  {
    NatStringParses(n);
  }

  /** A `-` before text that ends in something other than white space survives stripping. */
  lemma SignedStrip(ds: string)
    requires ds != [] && !IsSpace(ds[|ds| - 1])
    ensures Strip("-" + ds) == "-" + ds && ("-" + ds)[1..] == ds
  {
    var s := "-" + ds;
    assert s[0] == '-' && s[|s| - 1] == ds[|ds| - 1];
    StripNoEdgeSpace(s);
  }

  /** The digits of a natural number read back as that number. */
  lemma NatBodyDecimal(n: nat)
    ensures DecimalBody(NatToString(n)) == Some(n as real)
  {
    NatStringParses(n);
  }

  /** A leading `-` before a decimal body negates its value. */
  lemma NegatedDecimal(s: string, v: real)
    requires s != [] && s[0] == '-' && Strip(s) == s && DecimalBody(s[1..]) == Some(v)
    ensures ParseDecimal(s) == Some(-v)
  {
  }
}

=== FILE: validate_deployment.dfy ===
/**
 * The deployment validator: seven checks against a deployed MCP runtime, a
 * result log with pass/fail counters, and the final verdict and report.
 *
 * The runtime is not called: every exchange with it is an input. `Reply` is what
 * `describe_agent_runtime` or `_invoke_runtime` gave back, already decoded from
 * JSON, or the text of the exception it raised (a transport error, a rejected
 * call, or a body that is not JSON).
 */
module DeploymentValidation {
  import opened Wrappers
  import opened Json
  import opened Py
  import Text

  datatype Reply = Raised(text: string) | Returned(value: Json)

  /** The two `uuid4().hex` values drawn by one `_invoke_runtime` call. */
  datatype Uuids = Uuids(first: string, second: string) {
    predicate WellFormed() {
      |first| == 32 && |second| == 32 && Text.IsLowerHex(first) && Text.IsLowerHex(second)
    }
  }

  /** One invocation: the identifiers it draws and the runtime's reply. */
  datatype Exchange = Exchange(ids: Uuids, reply: Reply)

  /** What the validator asks of the AWS control and data planes, in order. */
  datatype Call = Describe(runtimeId: string) | Invoke(params: Json)

  /**
   * Why a check passed or failed; this stands for the message and details
   * strings of the source's result records.
   */
  datatype Finding =
    | RuntimeActive | RuntimeNotActive(status: Json) | DescribeFailed
    | Initialized | InvalidInitResponse | InitFailed
    | ToolsFound(count: nat) | NoToolsListed | InvalidToolsResponse | ToolsListFailed
    | NoToolsToTest | Executed(tool: string) | ExecutedEmpty(tool: string)
    | InvalidParamsAccepted(tool: string) | ToolError(tool: string)
    | InvalidToolResponse(tool: string) | ToolException(testTool: Json)
    | MethodNotFoundReported | OtherErrorReported(code: Json) | NoErrorReturned | ErrorProbeFailed
    | FastResponse | SlowResponse | NoPerformanceResponse | PerformanceFailed
    | AuthSkipped | AuthSucceeded | AuthRejected | AuthCredentialsRefused | AuthException

  datatype Verdict = Verdict(passed: bool, finding: Finding)

  datatype TestRecord = TestRecord(test: string, passed: bool, finding: Finding)

  const RuntimeStatusTest := "Runtime Status"
  const InitializationTest := "MCP Initialization"
  const ToolsDiscoveryTest := "Tools Discovery"
  const ToolExecutionTest := "Tool Execution"
  const ErrorHandlingTest := "Error Handling"
  const PerformanceTest := "Performance"
  const AuthenticationTest := "Authentication"

  /** The JSON-RPC 2.0 error codes "Method not found" and "Invalid params". */
  const MethodNotFound := -32601
  const InvalidParams := -32602

  /** The tools tried first by the execution check, in order of preference. */
  const Candidates := ["add_numbers", "calculator_add", "ping", "health_check"]

  /** The seven checks, in the order a full run performs them. */
  const AllTests := [RuntimeStatusTest, InitializationTest, ToolsDiscoveryTest, ToolExecutionTest,
                     ErrorHandlingTest, PerformanceTest, AuthenticationTest]

  /** The names of the logged checks, in order. */
  function TestNames(rs: seq<TestRecord>): (names: seq<string>)
    ensures |names| == |rs|
  {
    if rs == [] then [] else TestNames(rs[..|rs| - 1]) + [rs[|rs| - 1].test]
  }

  /** Name `i` is the name of record `i`. */
  lemma {:induction false} TestNamesAt(rs: seq<TestRecord>)
    ensures forall i :: 0 <= i < |rs| ==> TestNames(rs)[i] == rs[i].test
  {
    if rs != [] {
      TestNamesAt(rs[..|rs| - 1]);
    }
  }

  function CountPassed(rs: seq<TestRecord>): (n: nat)
    ensures n <= |rs|
  {
    if rs == [] then 0 else CountPassed(rs[..|rs| - 1]) + (if rs[|rs| - 1].passed then 1 else 0)
  }

  /** A bearer token counts only when it is a non-empty string. */
  predicate TokenGiven(token: Option<string>) {
    token.Some? && token.value != []
  }

  /** The runtime id is the part of the ARN after its last `/`. */
  function RuntimeId(arn: string): (id: string)
    ensures '/' !in id
    ensures |id| <= |arn| && arn[|arn| - |id|..] == id
    ensures |id| < |arn| ==> arn[|arn| - |id| - 1] == '/'
  {
    Text.LastSegment(arn, '/')
  }

  /** Python `response and key in response`. */
  function HasMember(r: Json, key: string): PyResult<bool> {
    if !Truthy(r) then Success(false) else In(key, r)
  }

  // ---------------------------------------------------------------------------
  // JSON-RPC requests

  function Request(name: string, id: int): Json {
    JObj([("jsonrpc", JStr("2.0")), ("method", JStr(name)), ("id", JInt(id))])
  }

  const InitializeRequest := JObj([
    ("jsonrpc", JStr("2.0")),
    ("method", JStr("initialize")),
    ("params", JObj([
      ("protocolVersion", JStr("2024-11-05")),
      ("capabilities", JObj([])),
      ("clientInfo", JObj([("name", JStr("validation-client")), ("version", JStr("1.0.0"))]))])),
    ("id", JInt(1))])

  function ToolCallRequest(tool: string, arguments: Json): Json {
    JObj([
      ("jsonrpc", JStr("2.0")),
      ("method", JStr("tools/call")),
      ("params", JObj([("name", JStr(tool)), ("arguments", arguments)])),
      ("id", JInt(3))])
  }

  /**
   * The keyword arguments of `invoke_agent_runtime`. The payload is the JSON value
   * that is serialised into the request.
   */
  function InvokeParams(arn: string, sessionId: string, payload: Json, token: Option<string>): (p: Json)
    ensures p.JObj? && UniqueKeys(p.fields)
    ensures Get(p.fields, "runtimeSessionId") == Some(JStr(sessionId))
    ensures Get(p.fields, "qualifier") == Some(JStr("DEFAULT"))
    ensures "bearerToken" in Keys(p.fields) <==> TokenGiven(token)
  {
    var base := [
      ("agentRuntimeArn", JStr(arn)),
      ("runtimeSessionId", JStr(sessionId)),
      ("payload", payload),
      ("qualifier", JStr("DEFAULT"))];
    assert Keys(base[3..]) == ["qualifier"];
    assert Keys(base[2..]) == ["payload", "qualifier"];
    assert Keys(base[1..]) == ["runtimeSessionId", "payload", "qualifier"];
    assert Keys(base) == ["agentRuntimeArn", "runtimeSessionId", "payload", "qualifier"];
    assert UniqueKeys(base[3..]) && UniqueKeys(base[2..]) && UniqueKeys(base[1..]) && UniqueKeys(base);
    assert Get(base, "runtimeSessionId") == Some(JStr(sessionId));
    assert Get(base, "qualifier") == Some(JStr("DEFAULT"));
    JObj(if TokenGiven(token) then Put(base, "bearerToken", JStr(token.value)) else base)
  }

  // ---------------------------------------------------------------------------
  // Test 1: runtime status

  function RuntimeStatusVerdict(reply: Reply): (v: Verdict)
    ensures v.passed <==> reply.Returned? && reply.value.JObj? && Get(reply.value.fields, "status") == Some(JStr("ACTIVE"))
    ensures reply.Returned? && reply.value.JObj? && "status" !in Keys(reply.value.fields)
            ==> v.finding == RuntimeNotActive(JStr("UNKNOWN"))
  {
    match reply
    case Raised(_) => Verdict(false, DescribeFailed)
    case Returned(r) =>
      var status := GetOr(r, "status", JStr("UNKNOWN"));
      if status.Failure? then Verdict(false, DescribeFailed)
      else if status.value == JStr("ACTIVE") then Verdict(true, RuntimeActive)
      else Verdict(false, RuntimeNotActive(status.value))
  }

  // ---------------------------------------------------------------------------
  // Test 2: initialisation

  /** An initialisation reply the check can read: a `result` object whose `serverInfo`, if any, is an object. */
  predicate InitReadable(r: Json) {
    && r.JObj?
    && var res := Get(r.fields, "result");
    && res.Some? && res.value.JObj?
    && var info := Get(res.value.fields, "serverInfo");
    && (info.None? || info.value.JObj?)
  }

  function InitVerdict(reply: Reply): (v: Verdict)
    ensures v.passed <==> reply.Returned? && InitReadable(reply.value)
  {
    match reply
    case Raised(_) => Verdict(false, InitFailed)
    case Returned(r) =>
      var has := HasMember(r, "result");
      if has.Failure? then Verdict(false, InitFailed)
      else if !has.value then Verdict(false, InvalidInitResponse)
      else
        var res := Index(r, "result");
        if res.Failure? then Verdict(false, InitFailed)
        else
          var info := GetOr(res.value, "serverInfo", JObj([]));
          if info.Failure? then Verdict(false, InitFailed)
          else if GetOr(info.value, "name", JStr("unknown")).Failure? then Verdict(false, InitFailed)
          else Verdict(true, Initialized)
  }

  // ---------------------------------------------------------------------------
  // Test 3: tools discovery

  datatype ToolsOutcome = ToolsOutcome(verdict: Verdict, names: seq<Json>)

  /** `[tool.get('name', 'unnamed') for tool in tools]`. */
  function NamesOf(tools: seq<Json>): (r: PyResult<seq<Json>>)
    ensures r.Success? <==> forall i :: 0 <= i < |tools| ==> tools[i].JObj?
    ensures r.Failure? ==> r.error == AttributeError
    ensures r.Success? ==> |r.value| == |tools|
    ensures r.Success? ==> forall i :: 0 <= i < |tools| ==> r.value[i] == Get(tools[i].fields, "name").GetOr(JStr("unnamed"))
  {
    if forall i :: 0 <= i < |tools| ==> tools[i].JObj? then
      Success(seq(|tools|, i requires 0 <= i < |tools| && tools[i].JObj? => Get(tools[i].fields, "name").GetOr(JStr("unnamed"))))
    else Failure(AttributeError)
  }

  /** `', '.join(names[:3])` raises unless the first three names are strings. */
  predicate FirstThreeAreStrings(names: seq<Json>) {
    forall i :: 0 <= i < |names| && i < 3 ==> names[i].JStr?
  }

  function ToolsListOutcome(reply: Reply): (o: ToolsOutcome)
    ensures o.verdict.passed ==> o.names != [] && FirstThreeAreStrings(o.names)
    ensures !o.verdict.passed ==> o.names == []
    ensures o.verdict.passed ==> reply.Returned? && reply.value.JObj?
  {
    match reply
    case Raised(_) => ToolsOutcome(Verdict(false, ToolsListFailed), [])
    case Returned(r) =>
      var has := HasMember(r, "result");
      if has.Failure? then ToolsOutcome(Verdict(false, ToolsListFailed), [])
      else if !has.value then ToolsOutcome(Verdict(false, InvalidToolsResponse), [])
      else
        var res := Index(r, "result");
        if res.Failure? then ToolsOutcome(Verdict(false, ToolsListFailed), [])
        else
          var tools := GetOr(res.value, "tools", JArr([]));
          if tools.Failure? then ToolsOutcome(Verdict(false, ToolsListFailed), [])
          else ListedTools(tools.value)
  }

  /** The steps of `test_tools_list` once `result.tools` has been read. */
  function ListedTools(tools: Json): (o: ToolsOutcome)
    ensures o.verdict.passed ==> o.names != [] && FirstThreeAreStrings(o.names)
    ensures !o.verdict.passed ==> o.names == []
  {
    var items := Iterate(tools);
    if items.Failure? then ToolsOutcome(Verdict(false, ToolsListFailed), [])
    else
      var names := NamesOf(items.value);
      if names.Failure? then ToolsOutcome(Verdict(false, ToolsListFailed), [])
      else if !Truthy(tools) then ToolsOutcome(Verdict(false, NoToolsListed), [])
      else if !FirstThreeAreStrings(names.value) then ToolsOutcome(Verdict(false, ToolsListFailed), [])
      else
        IterateLength(tools);
        ToolsOutcome(Verdict(true, ToolsFound(|items.value|)), names.value)
  }

  /** Iterating a truthy container yields something, and a falsy one nothing. */
  lemma IterateLength(j: Json)
    requires Iterate(j).Success?
    ensures |Iterate(j).value| > 0 <==> Truthy(j)
  {
  }

  /** A well-formed `tools/list` reply passes and reports the tools' names in order. */
  lemma ToolsListAccepted(fs: Fields, rfs: Fields, tools: seq<Json>)
    requires Get(fs, "result") == Some(JObj(rfs))
    requires Get(rfs, "tools") == Some(JArr(tools))
    requires tools != [] && forall i :: 0 <= i < |tools| ==> tools[i].JObj?
    requires forall i :: 0 <= i < |tools| && i < 3 ==> Get(tools[i].fields, "name").GetOr(JStr("unnamed")).JStr?
    ensures var o := ToolsListOutcome(Returned(JObj(fs)));
            && o.verdict.passed
            && |o.names| == |tools|
            && forall i :: 0 <= i < |tools| ==> o.names[i] == Get(tools[i].fields, "name").GetOr(JStr("unnamed"))
  {
    var names := NamesOf(tools).value;
    assert FirstThreeAreStrings(names);
    ToolsListPasses(fs, JObj(rfs), tools, names);
  }

  /** The path through `test_tools_list` on which every step succeeds. */
  lemma ToolsListPasses(fs: Fields, res: Json, tools: seq<Json>, names: seq<Json>)
    requires Get(fs, "result") == Some(res)
    requires GetOr(res, "tools", JArr([])) == Success(JArr(tools)) && tools != []
    requires NamesOf(tools) == Success(names) && FirstThreeAreStrings(names)
    ensures ToolsListOutcome(Returned(JObj(fs))) == ToolsOutcome(Verdict(true, ToolsFound(|tools|)), names)
  {
    assert HasMember(JObj(fs), "result") == Success(true) by {
      assert "result" in Keys(fs);
    }
    assert Index(JObj(fs), "result") == Success(res);
    ListedToolsPass(tools, names);
  }

  /** A non-empty list of tool objects whose first three names are strings passes. */
  lemma ListedToolsPass(tools: seq<Json>, names: seq<Json>)
    requires tools != [] && NamesOf(tools) == Success(names) && FirstThreeAreStrings(names)
    ensures ListedTools(JArr(tools)) == ToolsOutcome(Verdict(true, ToolsFound(|tools|)), names)
  {
  }

  // ---------------------------------------------------------------------------
  // Test 4: tool execution

  /** The first candidate, in the order of `Candidates`, that the server lists. */
  function FirstCandidate(cands: seq<string>, names: seq<Json>): (c: Option<string>)
    ensures c.Some? ==> c.value in cands && JStr(c.value) in names
    ensures c.None? <==> forall i :: 0 <= i < |cands| ==> JStr(cands[i]) !in names
  {
    if cands == [] then None
    else if JStr(cands[0]) in names then Some(cands[0])
    else FirstCandidate(cands[1..], names)
  }

  /** No candidate before the chosen one is listed. */
  lemma {:induction false} FirstCandidateIsFirst(cands: seq<string>, names: seq<Json>, k: nat)
    requires FirstCandidate(cands, names).Some?
    requires k < |cands| && cands[k] == FirstCandidate(cands, names).value
    requires forall i, j :: 0 <= i < j < |cands| ==> cands[i] != cands[j]
    ensures forall i :: 0 <= i < k ==> JStr(cands[i]) !in names
  {
    if JStr(cands[0]) !in names && k > 0 {
      FirstCandidateIsFirst(cands[1..], names, k - 1);
      assert forall i :: 1 <= i < k ==> cands[i] == cands[1..][i - 1];
    }
  }

  /** The tool the execution check calls: the first listed candidate, else the first listed tool. */
  function TestTool(names: seq<Json>): (t: Option<Json>)
    ensures t.None? <==> names == []
    ensures t.Some? ==> t.value in names
    ensures t.Some? && (exists i :: 0 <= i < |Candidates| && JStr(Candidates[i]) in names) ==>
              t.value.JStr? && t.value.s in Candidates
    ensures t.Some? && (forall i :: 0 <= i < |Candidates| ==> JStr(Candidates[i]) !in names) ==> t.value == names[0]
  {
    if names == [] then None
    else
      var c := FirstCandidate(Candidates, names);
      Some(if c.Some? then JStr(c.value) else names[0])
  }

  /** The arguments chosen from the shape of the tool's name. */
  function ToolArguments(tool: string): (args: Json)
    ensures var t := Text.Lower(tool);
            (Text.IsSubstring("add", t) || Text.IsSubstring("calculator", t)) ==> args == JObj([("a", JInt(5)), ("b", JInt(3))])
    ensures var t := Text.Lower(tool);
            (!Text.IsSubstring("add", t) && !Text.IsSubstring("calculator", t) && Text.IsSubstring("echo", t))
            ==> args == JObj([("message", JStr("validation test"))])
    ensures var t := Text.Lower(tool);
            (!Text.IsSubstring("add", t) && !Text.IsSubstring("calculator", t) && !Text.IsSubstring("echo", t))
            ==> args == JObj([])
  {
    var t := Text.Lower(tool);
    if Text.IsSubstring("add", t) || Text.IsSubstring("calculator", t) then JObj([("a", JInt(5)), ("b", JInt(3))])
    else if Text.IsSubstring("echo", t) then JObj([("message", JStr("validation test"))])
    else JObj([])
  }

  /** The success branch can read the reply: an object `result` whose first content item, if any, has a sliceable `text`. */
  predicate ResultReadable(r: Json) {
    && r.JObj?
    && var res := Get(r.fields, "result");
    && res.Some? && res.value.JObj?
    && var content := Get(res.value.fields, "content").GetOr(JArr([]));
    && (!Truthy(content) || ContentReadable(content))
  }

  predicate ContentReadable(content: Json) {
    var first := At(content, 0);
    && first.Success? && first.value.JObj?
    && var text := Get(first.value.fields, "text").GetOr(JStr("No text result"));
    && (text.JStr? || text.JArr?)
  }

  /** The reply is a JSON-RPC error object with the "Invalid params" code and no `result`. */
  predicate InvalidParamsError(r: Json) {
    && r.JObj?
    && "result" !in Keys(r.fields)
    && var e := Get(r.fields, "error");
    && e.Some? && e.value.JObj?
    && EqualsInt(Get(e.value.fields, "code").GetOr(JNull), InvalidParams)
  }

  function ToolReplyVerdict(tool: string, reply: Reply): (v: Verdict)
    ensures v.passed <==> reply.Returned? && (ResultReadable(reply.value) || InvalidParamsError(reply.value))
  {
    match reply
    case Raised(_) => Verdict(false, ToolException(JStr(tool)))
    case Returned(r) =>
      var hasResult := HasMember(r, "result");
      if hasResult.Failure? then Verdict(false, ToolException(JStr(tool)))
      else if hasResult.value then
        var res := Index(r, "result");
        var content := if res.Failure? then res else GetOr(res.value, "content", JArr([]));
        if content.Failure? then Verdict(false, ToolException(JStr(tool)))
        else if !Truthy(content.value) then Verdict(true, ExecutedEmpty(tool))
        else
          var first := At(content.value, 0);
          var text := if first.Failure? then first else GetOr(first.value, "text", JStr("No text result"));
          var preview := if text.Failure? then text else SliceTo(text.value, 100);
          if preview.Failure? then Verdict(false, ToolException(JStr(tool)))
          else Verdict(true, Executed(tool))
      else
        var hasError := HasMember(r, "error");
        if hasError.Failure? then Verdict(false, ToolException(JStr(tool)))
        else if hasError.value then
          var err := Index(r, "error");
          var code := if err.Failure? then err else GetOr(err.value, "code", JNull);
          if code.Failure? then Verdict(false, ToolException(JStr(tool)))
          else if EqualsInt(code.value, InvalidParams) then Verdict(true, InvalidParamsAccepted(tool))
          else Verdict(false, ToolError(tool))
        else Verdict(false, InvalidToolResponse(tool))
  }

  // ---------------------------------------------------------------------------
  // Test 5: error handling

  function ErrorProbeVerdict(reply: Reply): (v: Verdict)
    ensures v.passed <==> reply.Returned? && reply.value.JObj?
                          && var e := Get(reply.value.fields, "error"); e.Some? && e.value.JObj?
    ensures v.finding == MethodNotFoundReported ==> v.passed
  {
    match reply
    case Raised(_) => Verdict(false, ErrorProbeFailed)
    case Returned(r) =>
      var has := HasMember(r, "error");
      if has.Failure? then Verdict(false, ErrorProbeFailed)
      else if !has.value then Verdict(false, NoErrorReturned)
      else
        var err := Index(r, "error");
        var code := if err.Failure? then err else GetOr(err.value, "code", JInt(0));
        if code.Failure? then Verdict(false, ErrorProbeFailed)
        else if EqualsInt(code.value, MethodNotFound) then Verdict(true, MethodNotFoundReported)
        else Verdict(true, OtherErrorReported(code.value))
  }

  // ---------------------------------------------------------------------------
  // Test 6: performance

  function PerformanceVerdict(reply: Reply, elapsedMs: real): (v: Verdict)
    ensures v.passed ==> elapsedMs < 5000.0 && reply.Returned? && Truthy(reply.value)
    ensures reply.Returned? && reply.value.JObj? && "result" in Keys(reply.value.fields)
            ==> (v.passed <==> elapsedMs < 5000.0)
  {
    match reply
    case Raised(_) => Verdict(false, PerformanceFailed)
    case Returned(r) =>
      var has := HasMember(r, "result");
      if has.Failure? then Verdict(false, PerformanceFailed)
      else if !has.value then Verdict(false, NoPerformanceResponse)
      else if elapsedMs < 5000.0 then Verdict(true, FastResponse)
      else Verdict(false, SlowResponse)
  }

  /**
   * The performance check only asks whether `result` is `in` the reply, so a list
   * naming "result" passes it while the initialisation check rejects it.
   */
  lemma PerformanceIsLenient()
    ensures PerformanceVerdict(Returned(JArr([JStr("result")])), 0.0).passed
    ensures !InitVerdict(Returned(JArr([JStr("result")]))).passed
  {
  }

  // ---------------------------------------------------------------------------
  // Test 7: authentication

  function AuthReplyVerdict(reply: Reply): (v: Verdict)
    ensures v.passed <==> reply.Returned? && HasMember(reply.value, "result") == Success(true)
    ensures v.finding == AuthCredentialsRefused <==>
              reply.Raised? && (Text.IsSubstring("Unauthorized", reply.text) || Text.IsSubstring("403", reply.text))
  {
    match reply
    case Raised(text) =>
      if Text.IsSubstring("Unauthorized", text) || Text.IsSubstring("403", text)
      then Verdict(false, AuthCredentialsRefused)
      else Verdict(false, AuthException)
    case Returned(r) =>
      var has := HasMember(r, "result");
      if has.Failure? then Verdict(false, AuthException)
      else if has.value then Verdict(true, AuthSucceeded)
      else Verdict(false, AuthRejected)
  }

  // ---------------------------------------------------------------------------
  // Summary

  datatype Health = Healthy | MostlyHealthy | Unhealthy

  /** `passed / total * 100`, or the integer 0 when nothing ran. */
  function SuccessRate(passed: nat, total: nat): (r: Json)
    ensures total == 0 ==> r == JInt(0)
    ensures passed <= total ==> Number(r).Some? && 0.0 <= Number(r).value <= 100.0
    ensures total > 0 ==> (Number(r) == Some(100.0) <==> passed == total)
  {
    if total > 0 then
      var q := passed as real / total as real;
      Ratio(passed as real, total as real);
      JFloat(q * 100.0)
    else JInt(0)
  }

  /** A quotient of non-negative reals: one exactly for equal operands, at most one for a smaller dividend. */
  lemma Ratio(p: real, t: real)
    requires t > 0.0 && 0.0 <= p
    ensures (p / t == 1.0 <==> p == t) && 0.0 <= p / t
    ensures p <= t ==> p / t <= 1.0
  {
    var q := p / t;
    assert q * t == p;
    if q == 1.0 {
      assert p == 1.0 * t;
    }
    if p <= t {
      assert (q - 1.0) * t <= 0.0;
    }
  }

  /** A rate of at least 80 per cent, said without division. */
  lemma RateAtLeastEighty(p: real, t: real)
    ensures 0.0 < t ==> (p / t * 100.0 >= 80.0 <==> p * 100.0 >= 80.0 * t)
  {
    if t <= 0.0 { return; }
    var q := p / t;
    assert q * t == p;
    assert (q * 100.0 - 80.0) * t == p * 100.0 - 80.0 * t;
    if q * 100.0 - 80.0 < 0.0 {
      assert (q * 100.0 - 80.0) * t < 0.0;
    }
  }

  function HealthOf(passed: nat, total: nat): (h: Health)
    ensures h == Healthy <==> passed == total
    ensures h == MostlyHealthy ==> total > 0 && passed != total && passed * 100 >= 80 * total
  {
    var rate := SuccessRate(passed, total);
    RateAtLeastEighty(passed as real, total as real);
    if passed == total then Healthy
    else if Number(rate).value >= 80.0 then MostlyHealthy
    else Unhealthy
  }

  /**
   * The three bands of the summary: all passed, otherwise at least 80 per
   * cent of a non-empty run, otherwise unhealthy.
   */
  lemma HealthBands(passed: nat, total: nat)
    ensures HealthOf(passed, total) == Healthy <==> passed == total
    ensures HealthOf(passed, total) == MostlyHealthy <==> total > 0 && passed != total && passed * 100 >= 80 * total
    ensures HealthOf(passed, total) == Unhealthy <==> passed != total && (total == 0 || passed * 100 < 80 * total)
  {
    RateAtLeastEighty(passed as real, total as real);
  }

  datatype Report = Report(
    timestamp: string,
    runtimeArn: string,
    region: string,
    authenticationUsed: bool,
    totalTests: nat,
    passedTests: nat,
    successRate: Json,
    testResults: seq<TestRecord>)

  /** The environment of one full validation run. */
  datatype Environment = Environment(
    describe: Reply,
    init: Exchange,
    toolsList: Exchange,
    toolCall: Exchange,
    errorProbe: Exchange,
    performance: Exchange,
    elapsedMs: real,
    auth: Exchange)
  {
    predicate WellFormed() {
      && init.ids.WellFormed() && toolsList.ids.WellFormed() && toolCall.ids.WellFormed()
      && errorProbe.ids.WellFormed() && performance.ids.WellFormed() && auth.ids.WellFormed()
    }
  }

  /** The request `_invoke_runtime` sends for `payload` during exchange `ex`. */
  function Sent(arn: string, ex: Exchange, payload: Json, token: Option<string>): Call {
    Invoke(InvokeParams(arn, "validation-session-" + ex.ids.second, payload, token))
  }

  /** What `test_tool_execution` logs: no names, a tool name that is not a string, or the reply's verdict. */
  function ToolExecutionVerdict(names: seq<Json>, reply: Reply): Verdict {
    if names == [] then Verdict(false, NoToolsToTest)
    else if !TestTool(names).value.JStr? then Verdict(false, ToolException(TestTool(names).value))
    else ToolReplyVerdict(TestTool(names).value.s, reply)
  }

  /** The requests `test_tool_execution` sends: one `tools/call` when there is a string tool name. */
  function ToolExecutionCalls(arn: string, token: Option<string>, names: seq<Json>, ex: Exchange): seq<Call> {
    if names == [] || !TestTool(names).value.JStr? then []
    else
      var tool := TestTool(names).value.s;
      [Sent(arn, ex, ToolCallRequest(tool, ToolArguments(tool)), token)]
  }

  /** What `test_authentication` logs: a pass without a token, else the reply's verdict. */
  function AuthVerdict(token: Option<string>, reply: Reply): Verdict {
    if TokenGiven(token) then AuthReplyVerdict(reply) else Verdict(true, AuthSkipped)
  }

  /** The requests `test_authentication` sends: one `tools/list` when a token is given. */
  function AuthCalls(arn: string, token: Option<string>, ex: Exchange): seq<Call> {
    if TokenGiven(token) then [Sent(arn, ex, Request("tools/list", 6), token)] else []
  }

  /** The seven records a full run logs against the deployment `env`, in order. */
  function RunRecords(env: Environment, token: Option<string>): seq<TestRecord> {
    var status := RuntimeStatusVerdict(env.describe);
    var init := InitVerdict(env.init.reply);
    var listed := ToolsListOutcome(env.toolsList.reply);
    var exec := ToolExecutionVerdict(listed.names, env.toolCall.reply);
    var probe := ErrorProbeVerdict(env.errorProbe.reply);
    var perf := PerformanceVerdict(env.performance.reply, env.elapsedMs);
    var auth := AuthVerdict(token, env.auth.reply);
    [TestRecord(RuntimeStatusTest, status.passed, status.finding),
     TestRecord(InitializationTest, init.passed, init.finding),
     TestRecord(ToolsDiscoveryTest, listed.verdict.passed, listed.verdict.finding),
     TestRecord(ToolExecutionTest, exec.passed, exec.finding),
     TestRecord(ErrorHandlingTest, probe.passed, probe.finding),
     TestRecord(PerformanceTest, perf.passed, perf.finding),
     TestRecord(AuthenticationTest, auth.passed, auth.finding)]
  }

  /** Everything a full run asks of AWS, in order. */
  function RunCalls(arn: string, token: Option<string>, env: Environment): seq<Call> {
    var names := ToolsListOutcome(env.toolsList.reply).names;
    [Describe(RuntimeId(arn))]
    + [Sent(arn, env.init, InitializeRequest, token)]
    + [Sent(arn, env.toolsList, Request("tools/list", 2), token)]
    + ToolExecutionCalls(arn, token, names, env.toolCall)
    + [Sent(arn, env.errorProbe, Request("nonexistent/method", 4), token)]
    + [Sent(arn, env.performance, Request("tools/list", 5), token)]
    + AuthCalls(arn, token, env.auth)
  }

  predicate AllPassed(rs: seq<TestRecord>) {
    forall i :: 0 <= i < |rs| ==> rs[i].passed
  }

  /** The seven records of a run all pass exactly when each check of the deployment passes. */
  lemma RunPassesIffEveryCheck(env: Environment, token: Option<string>)
    ensures AllPassed(RunRecords(env, token)) <==>
              && RuntimeStatusVerdict(env.describe).passed
              && InitVerdict(env.init.reply).passed
              && ToolsListOutcome(env.toolsList.reply).verdict.passed
              && ToolExecutionVerdict(ToolsListOutcome(env.toolsList.reply).names, env.toolCall.reply).passed
              && ErrorProbeVerdict(env.errorProbe.reply).passed
              && PerformanceVerdict(env.performance.reply, env.elapsedMs).passed
              && (TokenGiven(token) ==> AuthReplyVerdict(env.auth.reply).passed)
  {
    AllSevenPassed(RunRecords(env, token));
  }

  lemma AllSevenPassed(rs: seq<TestRecord>)
    requires |rs| == 7
    ensures AllPassed(rs) <==> rs[0].passed && rs[1].passed && rs[2].passed && rs[3].passed
                               && rs[4].passed && rs[5].passed && rs[6].passed
  {
    if rs[0].passed && rs[1].passed && rs[2].passed && rs[3].passed && rs[4].passed && rs[5].passed && rs[6].passed {
      forall i | 0 <= i < 7
        ensures rs[i].passed
      {
        assert i == 0 || i == 1 || i == 2 || i == 3 || i == 4 || i == 5 || i == 6;
      }
    }
  }

  /** A run appends the seven checks' names, in order, to those logged before it. */
  lemma RunNamed(before: seq<TestRecord>, env: Environment, token: Option<string>)
    ensures TestNames(before + RunRecords(env, token)) == TestNames(before) + AllTests
  {
    var rs := RunRecords(env, token);
    TestNamesAt(rs);
    assert TestNames(rs) == AllTests;
    TestNamesAppend(before, rs);
  }

  lemma {:induction false} TestNamesAppend(a: seq<TestRecord>, b: seq<TestRecord>)
    ensures TestNames(a + b) == TestNames(a) + TestNames(b)
  {
    if b == [] {
      assert a + b == a;
    } else {
      var ab := a + b;
      assert ab[..|ab| - 1] == a + b[..|b| - 1];
      assert ab[|ab| - 1] == b[|b| - 1];
      TestNamesAppend(a, b[..|b| - 1]);
    }
  }

  lemma {:induction false} CountPassedAppend(a: seq<TestRecord>, b: seq<TestRecord>)
    ensures CountPassed(a + b) == CountPassed(a) + CountPassed(b)
  {
    if b == [] {
      assert a + b == a;
    } else {
      var ab := a + b;
      assert ab[..|ab| - 1] == a + b[..|b| - 1];
      assert ab[|ab| - 1] == b[|b| - 1];
      CountPassedAppend(a, b[..|b| - 1]);
      assert CountPassed(ab) == CountPassed(a + b[..|b| - 1]) + (if b[|b| - 1].passed then 1 else 0);

    }
  }

  /** Every record passed exactly when the pass counter equals the record count. */
  lemma {:induction false} CountPassedFull(rs: seq<TestRecord>)
    ensures CountPassed(rs) == |rs| <==> AllPassed(rs)
  {
    if rs != [] {
      CountPassedFull(rs[..|rs| - 1]);
      assert forall i :: 0 <= i < |rs| - 1 ==> rs[..|rs| - 1][i] == rs[i];
    }
  }

  /** After a run, every logged check passed exactly when all earlier ones did and the run's did. */
  lemma PassedAfterRun(before: seq<TestRecord>, run: seq<TestRecord>)
    ensures CountPassed(before + run) == |before + run| <==> CountPassed(before) == |before| && AllPassed(run)
  {
    CountPassedAppend(before, run);
    CountPassedFull(run);
  }

  /** Proof step of `run_all_tests`: seven items appended in turn. */
  lemma InTurn<T>(s0: seq<T>, s1: seq<T>, s2: seq<T>, s3: seq<T>, s4: seq<T>, s5: seq<T>, s6: seq<T>, s7: seq<T>,
                  x1: seq<T>, x2: seq<T>, x3: seq<T>, x4: seq<T>, x5: seq<T>, x6: seq<T>, x7: seq<T>)
    requires s1 == s0 + x1 && s2 == s1 + x2 && s3 == s2 + x3 && s4 == s3 + x4
    requires s5 == s4 + x5 && s6 == s5 + x6 && s7 == s6 + x7
    ensures s7 == s0 + (x1 + x2 + x3 + x4 + x5 + x6 + x7)
  {
  }

  /** Proof step of `run_all_tests`: the seven records logged in turn are `RunRecords`. */
  lemma LoggedInTurn(env: Environment, token: Option<string>, r0: seq<TestRecord>, r1: seq<TestRecord>,
                     r2: seq<TestRecord>, r3: seq<TestRecord>, r4: seq<TestRecord>, r5: seq<TestRecord>,
                     r6: seq<TestRecord>, r7: seq<TestRecord>)
    requires var v := RuntimeStatusVerdict(env.describe); r1 == r0 + [TestRecord(RuntimeStatusTest, v.passed, v.finding)]
    requires var v := InitVerdict(env.init.reply); r2 == r1 + [TestRecord(InitializationTest, v.passed, v.finding)]
    requires var o := ToolsListOutcome(env.toolsList.reply);
             r3 == r2 + [TestRecord(ToolsDiscoveryTest, o.verdict.passed, o.verdict.finding)]
    requires var v := ToolExecutionVerdict(ToolsListOutcome(env.toolsList.reply).names, env.toolCall.reply);
             r4 == r3 + [TestRecord(ToolExecutionTest, v.passed, v.finding)]
    requires var v := ErrorProbeVerdict(env.errorProbe.reply); r5 == r4 + [TestRecord(ErrorHandlingTest, v.passed, v.finding)]
    requires var v := PerformanceVerdict(env.performance.reply, env.elapsedMs);
             r6 == r5 + [TestRecord(PerformanceTest, v.passed, v.finding)]
    requires var v := AuthVerdict(token, env.auth.reply); r7 == r6 + [TestRecord(AuthenticationTest, v.passed, v.finding)]
    ensures r7 == r0 + RunRecords(env, token)
  {
  }

  /** Proof step of `run_all_tests`: the requests sent in turn are `RunCalls`. */
  lemma SentInTurn(arn: string, token: Option<string>, env: Environment, c0: seq<Call>, c1: seq<Call>,
                   c2: seq<Call>, c3: seq<Call>, c4: seq<Call>, c5: seq<Call>, c6: seq<Call>, c7: seq<Call>)
    requires c1 == c0 + [Describe(RuntimeId(arn))]
    requires c2 == c1 + [Sent(arn, env.init, InitializeRequest, token)]
    requires c3 == c2 + [Sent(arn, env.toolsList, Request("tools/list", 2), token)]
    requires c4 == c3 + ToolExecutionCalls(arn, token, ToolsListOutcome(env.toolsList.reply).names, env.toolCall)
    requires c5 == c4 + [Sent(arn, env.errorProbe, Request("nonexistent/method", 4), token)]
    requires c6 == c5 + [Sent(arn, env.performance, Request("tools/list", 5), token)]
    requires c7 == c6 + AuthCalls(arn, token, env.auth)
    ensures c7 == c0 + RunCalls(arn, token, env)
  {
    InTurn(c0, c1, c2, c3, c4, c5, c6, c7, [Describe(RuntimeId(arn))], [Sent(arn, env.init, InitializeRequest, token)],
           [Sent(arn, env.toolsList, Request("tools/list", 2), token)],
           ToolExecutionCalls(arn, token, ToolsListOutcome(env.toolsList.reply).names, env.toolCall),
           [Sent(arn, env.errorProbe, Request("nonexistent/method", 4), token)],
           [Sent(arn, env.performance, Request("tools/list", 5), token)], AuthCalls(arn, token, env.auth));
  }

  class DeploymentValidator {
    const runtimeArn: string
    const region: string
    const bearerToken: Option<string>

    var testResults: seq<TestRecord>
    var passedTests: nat
    var totalTests: nat
    /** Everything sent to AWS so far. */
    var calls: seq<Call>

    ghost predicate Valid()
      reads this
    {
      totalTests == |testResults| && passedTests == CountPassed(testResults)
    }

    constructor(runtimeArn: string, region: string, bearerToken: Option<string>)
      ensures Valid()
      ensures this.runtimeArn == runtimeArn && this.region == region && this.bearerToken == bearerToken
      ensures testResults == [] && passedTests == 0 && totalTests == 0 && calls == []
    {
      this.runtimeArn := runtimeArn;
      this.region := region;
      this.bearerToken := bearerToken;
      testResults := [];
      passedTests := 0;
      totalTests := 0;
      calls := [];
    }

    method LogTest(test: string, passed: bool, finding: Finding)
      requires Valid()
      modifies this
      ensures Valid()
      ensures testResults == old(testResults) + [TestRecord(test, passed, finding)]
      ensures TestNames(testResults) == TestNames(old(testResults)) + [test]
      ensures totalTests == old(totalTests) + 1
      ensures passedTests == old(passedTests) + (if passed then 1 else 0)
      ensures passedTests <= totalTests
      ensures calls == old(calls)
    {
      totalTests := totalTests + 1;
      if passed {
        passedTests := passedTests + 1;
      }
      testResults := testResults + [TestRecord(test, passed, finding)];
      assert testResults[..|testResults| - 1] == old(testResults);
    }

    /**
     * `_invoke_runtime`: the first session id, `validation-` and 8 hex digits, is
     * always too short, so the one sent is `validation-session-` and 32 hex digits.
     */
    method InvokeRuntime(payload: Json, ex: Exchange) returns (reply: Reply)
      requires ex.ids.WellFormed()
      modifies this
      ensures reply == ex.reply
      ensures calls == old(calls) + [Invoke(InvokeParams(runtimeArn, "validation-session-" + ex.ids.second, payload, bearerToken))]
      ensures |"validation-session-" + ex.ids.second| >= 33
      ensures testResults == old(testResults) && passedTests == old(passedTests) && totalTests == old(totalTests)
    {
      var sessionId := "validation-" + ex.ids.first[..8];
      if |sessionId| < 33 {
        sessionId := "validation-session-" + ex.ids.second;
      }
      calls := calls + [Invoke(InvokeParams(runtimeArn, sessionId, payload, bearerToken))];
      reply := ex.reply;
    }

    method TestRuntimeStatus(describe: Reply) returns (ok: bool)
      requires Valid()
      modifies this
      ensures Valid()
      ensures TestNames(testResults) == TestNames(old(testResults)) + [RuntimeStatusTest]
      ensures var v := RuntimeStatusVerdict(describe);
              ok == v.passed && testResults == old(testResults) + [TestRecord(RuntimeStatusTest, v.passed, v.finding)]
      ensures calls == old(calls) + [Describe(RuntimeId(runtimeArn))]
    {
      calls := calls + [Describe(RuntimeId(runtimeArn))];
      var v := RuntimeStatusVerdict(describe);
      LogTest(RuntimeStatusTest, v.passed, v.finding);
      ok := v.passed;
    }

    method TestInitialization(ex: Exchange) returns (ok: bool)
      requires Valid() && ex.ids.WellFormed()
      modifies this
      ensures Valid()
      ensures TestNames(testResults) == TestNames(old(testResults)) + [InitializationTest]
      ensures var v := InitVerdict(ex.reply);
              ok == v.passed && testResults == old(testResults) + [TestRecord(InitializationTest, v.passed, v.finding)]
      ensures calls == old(calls) + [Invoke(InvokeParams(runtimeArn, "validation-session-" + ex.ids.second, InitializeRequest, bearerToken))]
    {
      var reply := InvokeRuntime(InitializeRequest, ex);
      var v := InitVerdict(reply);
      LogTest(InitializationTest, v.passed, v.finding);
      ok := v.passed;
    }

    method TestToolsList(ex: Exchange) returns (ok: bool, names: seq<Json>)
      requires Valid() && ex.ids.WellFormed()
      modifies this
      ensures Valid()
      ensures TestNames(testResults) == TestNames(old(testResults)) + [ToolsDiscoveryTest]
      ensures var o := ToolsListOutcome(ex.reply);
              ok == o.verdict.passed && names == o.names
              && testResults == old(testResults) + [TestRecord(ToolsDiscoveryTest, o.verdict.passed, o.verdict.finding)]
      ensures calls == old(calls) + [Invoke(InvokeParams(runtimeArn, "validation-session-" + ex.ids.second, Request("tools/list", 2), bearerToken))]
    {
      var reply := InvokeRuntime(Request("tools/list", 2), ex);
      var o := ToolsListOutcome(reply);
      LogTest(ToolsDiscoveryTest, o.verdict.passed, o.verdict.finding);
      ok, names := o.verdict.passed, o.names;
    }

    /** The loop over the candidates, stopping at the first one listed. */
    static method FindCandidate(names: seq<Json>) returns (found: Option<string>)
      ensures found == FirstCandidate(Candidates, names)
    {
      found := None;
      var i := 0;
      while i < |Candidates|
        invariant 0 <= i <= |Candidates|
        invariant FirstCandidate(Candidates, names) == FirstCandidate(Candidates[i..], names)
      {
        assert Candidates[i..][1..] == Candidates[i + 1..];
        if JStr(Candidates[i]) in names {
          found := Some(Candidates[i]);
          return;
        }
        i := i + 1;
      }
    }

    method TestToolExecution(names: seq<Json>, ex: Exchange) returns (ok: bool)
      requires Valid() && ex.ids.WellFormed()
      modifies this
      ensures Valid()
      ensures TestNames(testResults) == TestNames(old(testResults)) + [ToolExecutionTest]
      ensures |testResults| == |old(testResults)| + 1 && testResults[..|old(testResults)|] == old(testResults)
      ensures testResults[|testResults| - 1].test == ToolExecutionTest && testResults[|testResults| - 1].passed == ok
      ensures names == [] ==> !ok && calls == old(calls) && testResults[|testResults| - 1].finding == NoToolsToTest
      ensures names != [] && TestTool(names).value.JStr? ==>
                var tool := TestTool(names).value.s;
                && calls == old(calls) + [Invoke(InvokeParams(runtimeArn, "validation-session-" + ex.ids.second,
                                                             ToolCallRequest(tool, ToolArguments(tool)), bearerToken))]
                && ok == ToolReplyVerdict(tool, ex.reply).passed
      ensures names != [] && !TestTool(names).value.JStr? ==> !ok && calls == old(calls)
      ensures var v := ToolExecutionVerdict(names, ex.reply);
              ok == v.passed && testResults == old(testResults) + [TestRecord(ToolExecutionTest, v.passed, v.finding)]
      ensures calls == old(calls) + ToolExecutionCalls(runtimeArn, bearerToken, names, ex)
    {
      if names == [] {
        LogTest(ToolExecutionTest, false, NoToolsToTest);
        return false;
      }
      var found := FindCandidate(names);
      var testTool := if found.Some? then JStr(found.value) else names[0];
      if !testTool.JStr? {
        // `test_tool.lower()` raises before anything is sent
        LogTest(ToolExecutionTest, false, ToolException(testTool));
        return false;
      }
      var tool := testTool.s;
      var reply := InvokeRuntime(ToolCallRequest(tool, ToolArguments(tool)), ex);
      var v := ToolReplyVerdict(tool, reply);
      LogTest(ToolExecutionTest, v.passed, v.finding);
      ok := v.passed;
    }

    method TestErrorHandling(ex: Exchange) returns (ok: bool)
      requires Valid() && ex.ids.WellFormed()
      modifies this
      ensures Valid()
      ensures TestNames(testResults) == TestNames(old(testResults)) + [ErrorHandlingTest]
      ensures var v := ErrorProbeVerdict(ex.reply);
              ok == v.passed && testResults == old(testResults) + [TestRecord(ErrorHandlingTest, v.passed, v.finding)]
      ensures calls == old(calls) + [Invoke(InvokeParams(runtimeArn, "validation-session-" + ex.ids.second, Request("nonexistent/method", 4), bearerToken))]
    {
      var reply := InvokeRuntime(Request("nonexistent/method", 4), ex);
      var v := ErrorProbeVerdict(reply);
      LogTest(ErrorHandlingTest, v.passed, v.finding);
      ok := v.passed;
    }

    /** `elapsedMs` is the measured round-trip time of the request. */
    method TestPerformance(ex: Exchange, elapsedMs: real) returns (ok: bool)
      requires Valid() && ex.ids.WellFormed()
      modifies this
      ensures Valid()
      ensures TestNames(testResults) == TestNames(old(testResults)) + [PerformanceTest]
      ensures var v := PerformanceVerdict(ex.reply, elapsedMs);
              ok == v.passed && testResults == old(testResults) + [TestRecord(PerformanceTest, v.passed, v.finding)]
      ensures calls == old(calls) + [Invoke(InvokeParams(runtimeArn, "validation-session-" + ex.ids.second, Request("tools/list", 5), bearerToken))]
    {
      var reply := InvokeRuntime(Request("tools/list", 5), ex);
      var v := PerformanceVerdict(reply, elapsedMs);
      LogTest(PerformanceTest, v.passed, v.finding);
      ok := v.passed;
    }

    method TestAuthentication(ex: Exchange) returns (ok: bool)
      requires Valid() && ex.ids.WellFormed()
      modifies this
      ensures Valid()
      ensures TestNames(testResults) == TestNames(old(testResults)) + [AuthenticationTest]
      ensures !TokenGiven(bearerToken) ==>
                ok && calls == old(calls) && testResults == old(testResults) + [TestRecord(AuthenticationTest, true, AuthSkipped)]
      ensures TokenGiven(bearerToken) ==>
                var v := AuthReplyVerdict(ex.reply);
                ok == v.passed && testResults == old(testResults) + [TestRecord(AuthenticationTest, v.passed, v.finding)]
                && calls == old(calls) + [Invoke(InvokeParams(runtimeArn, "validation-session-" + ex.ids.second, Request("tools/list", 6), bearerToken))]
      ensures var v := AuthVerdict(bearerToken, ex.reply);
              ok == v.passed && testResults == old(testResults) + [TestRecord(AuthenticationTest, v.passed, v.finding)]
      ensures calls == old(calls) + AuthCalls(runtimeArn, bearerToken, ex)
    {
      if !TokenGiven(bearerToken) {
        LogTest(AuthenticationTest, true, AuthSkipped);
        return true;
      }
      var reply := InvokeRuntime(Request("tools/list", 6), ex);
      var v := AuthReplyVerdict(reply);
      LogTest(AuthenticationTest, v.passed, v.finding);
      ok := v.passed;
    }

    /**
     * The seven checks in order against the deployment `env`: the records and
     * requests are those of `RunRecords` and `RunCalls`, and the run succeeds
     * exactly when every check logged so far, these seven included, passed.
     */
    method RunAllTests(env: Environment) returns (ok: bool, health: Health)
      requires Valid() && env.WellFormed()
      modifies this
      ensures Valid()
      ensures testResults == old(testResults) + RunRecords(env, bearerToken)
      ensures calls == old(calls) + RunCalls(runtimeArn, bearerToken, env)
      ensures TestNames(testResults) == TestNames(old(testResults)) + AllTests
      ensures ok <==> old(passedTests) == old(totalTests) && AllPassed(RunRecords(env, bearerToken))
      ensures health == HealthOf(passedTests, totalTests) && (ok <==> health == Healthy)
    {
      ghost var r0, c0 := testResults, calls;
      var _ := TestRuntimeStatus(env.describe);
      ghost var r1, c1 := testResults, calls;
      var _ := TestInitialization(env.init);
      ghost var r2, c2 := testResults, calls;
      var _, names := TestToolsList(env.toolsList);
      ghost var r3, c3 := testResults, calls;
      var _ := TestToolExecution(names, env.toolCall);
      ghost var r4, c4 := testResults, calls;
      var _ := TestErrorHandling(env.errorProbe);
      ghost var r5, c5 := testResults, calls;
      var _ := TestPerformance(env.performance, env.elapsedMs);
      ghost var r6, c6 := testResults, calls;
      var _ := TestAuthentication(env.auth);
      LoggedInTurn(env, bearerToken, r0, r1, r2, r3, r4, r5, r6, testResults);
      SentInTurn(runtimeArn, bearerToken, env, c0, c1, c2, c3, c4, c5, c6, calls);
      PassedAfterRun(r0, RunRecords(env, bearerToken));
      RunNamed(r0, env, bearerToken);
      health := HealthOf(passedTests, totalTests);
      ok := passedTests == totalTests;
    }

    function GenerateReport(timestamp: string): (r: Report)
      reads this
      ensures r.testResults == testResults && r.runtimeArn == runtimeArn && r.region == region
      ensures r.authenticationUsed <==> TokenGiven(bearerToken)
      ensures r.timestamp == timestamp && r.totalTests == totalTests && r.passedTests == passedTests
      ensures r.successRate == SuccessRate(r.passedTests, r.totalTests)
      ensures r.totalTests == 0 ==> r.successRate == JInt(0)
      ensures Valid() ==> r.passedTests == CountPassed(r.testResults) <= r.totalTests == |r.testResults|
    {
      Report(timestamp, runtimeArn, region, TokenGiven(bearerToken), totalTests, passedTests,
             SuccessRate(passedTests, totalTests), testResults)
    }
  }
}

=== FILE: validation.dfy ===
/**
 * The input validators wrapped around tools: which input a decorator checks,
 * the required-field, type and range checks with the exception each raises,
 * string sanitising, and the e-mail and URL recognisers.
 *
 * A decorator's effect is a `Gate`: call the wrapped tool, or raise a
 * `ValidationException` before calling it. The tool itself is not modelled.
 */
module Validation {
  import opened Wrappers
  import opened Json
  import opened Py
  import Text

  datatype ValidationException = ValidationException(message: string, errors: Fields)

  /** What a validating wrapper does with one call. */
  datatype Gate = Proceed | Reject(ex: ValidationException)

  // ---------------------------------------------------------------------------
  // the input a decorator checks

  /**
   * The first positional argument when it is a dict, else the keyword
   * arguments when there are any, else nothing.
   */
  function InputData(args: seq<Json>, kwargs: Fields): (r: Option<Fields>)
    ensures r.None? <==> (|args| == 0 || !args[0].JObj?) && kwargs == []
  {
    if |args| > 0 && args[0].JObj? then Some(args[0].fields)
    else if kwargs != [] then Some(kwargs)
    else None
  }

  /** The fields a decorator checks; empty when it checks nothing (`if input_data:`). */
  function Checked(args: seq<Json>, kwargs: Fields): Fields {
    InputData(args, kwargs).GetOr([])
  }

  /**
   * A dict in first position is checked even when keyword arguments are also
   * given, and an empty one means nothing is checked at all.
   */
  lemma FirstDictWins(d: Fields, rest: seq<Json>, kwargs: Fields)
    ensures Checked([JObj(d)] + rest, kwargs) == d
  {
  }

  /** Without a dict in first position, the keyword arguments are checked. */
  lemma KeywordsOtherwise(args: seq<Json>, kwargs: Fields)
    requires |args| == 0 || !args[0].JObj?
    ensures Checked(args, kwargs) == kwargs
  {
  }

  // ---------------------------------------------------------------------------
  // required fields

  /** `[field for field in required_fields if field not in input_data]`. */
  function MissingFields(required: seq<string>, input: Fields): (missing: seq<string>)
    ensures |missing| <= |required|
    ensures forall f :: f in missing <==> f in required && f !in Keys(input)
  {
    if required == [] then []
    else
      (if required[0] in Keys(input) then [] else [required[0]]) + MissingFields(required[1..], input)
  }

  /** The missing fields keep the order of `required_fields`. */
  lemma {:induction false} MissingFieldsAppend(a: seq<string>, b: seq<string>, input: Fields)
    ensures MissingFields(a + b, input) == MissingFields(a, input) + MissingFields(b, input)
  {
    if a == [] {
      assert a + b == b;
    } else {
      assert (a + b)[1..] == a[1..] + b;
      MissingFieldsAppend(a[1..], b, input);
    }
  }

  function Strings(ss: seq<string>): (js: seq<Json>)
    ensures |js| == |ss| && forall i :: 0 <= i < |ss| ==> js[i] == JStr(ss[i])
  {
    seq(|ss|, i requires 0 <= i < |ss| => JStr(ss[i]))
  }

  /** `validate_required_fields(required_fields)` applied to one call. */
  function RequireFields(required: seq<string>, args: seq<Json>, kwargs: Fields): (g: Gate)
    ensures g.Reject? <==> exists f :: f in required && f !in Keys(Checked(args, kwargs)) && Checked(args, kwargs) != []
    ensures g.Reject? ==> g.ex.errors == [("missing_fields", JArr(Strings(MissingFields(required, Checked(args, kwargs)))))]
  {
    var input := Checked(args, kwargs);
    var missing := MissingFields(required, input);
    if input != [] && missing != [] then
      assert missing[0] in missing;
      Reject(ValidationException("Missing required fields: " + Text.Join(missing, ", "),
                                 [("missing_fields", JArr(Strings(missing)))]))
    else
      assert forall f :: f in required && f !in Keys(input) ==> f in missing;
      Proceed
  }

  // ---------------------------------------------------------------------------
  // types

  /** A present field whose value is not an instance of the expected type. */
  predicate Mistyped(input: Fields, field: string, expected: PyType) {
    Get(input, field).Some? && !IsInstance(Get(input, field).value, expected)
  }

  /** The `type_errors` dict after the first `k` entries of `field_types`. */
  function TypeErrorsUpTo(fieldTypes: seq<(string, PyType)>, input: Fields, k: nat): Fields
    requires k <= |fieldTypes|
  {
    if k == 0 then []
    else
      var errors := TypeErrorsUpTo(fieldTypes, input, k - 1);
      var (field, expected) := fieldTypes[k - 1];
      if Mistyped(input, field, expected) then
        Put(errors, field, JObj([("expected", JStr(TypeName(expected))),
                                 ("actual", JStr(TypeName(TypeOf(Get(input, field).value))))]))
      else errors
  }

  /** The loop of `validate_type` that fills `type_errors`. */
  method TypeErrors(fieldTypes: seq<(string, PyType)>, input: Fields) returns (errors: Fields)
    ensures errors == TypeErrorsUpTo(fieldTypes, input, |fieldTypes|)
  {
    errors := [];
    for k := 0 to |fieldTypes|
      invariant errors == TypeErrorsUpTo(fieldTypes, input, k)
    {
      var (field, expected) := fieldTypes[k];
      var value := Get(input, field);
      if value.Some? && !IsInstance(value.value, expected) {
        errors := Put(errors, field, JObj([("expected", JStr(TypeName(expected))),
                                           ("actual", JStr(TypeName(TypeOf(value.value))))]));
      }
    }
  }

  /** The error keys are exactly the present fields with the wrong type. */
  lemma {:induction false} TypeErrorKeys(fieldTypes: seq<(string, PyType)>, input: Fields, k: nat, field: string)
    requires k <= |fieldTypes|
    ensures field in Keys(TypeErrorsUpTo(fieldTypes, input, k)) <==>
            exists i :: 0 <= i < k && fieldTypes[i].0 == field && Mistyped(input, field, fieldTypes[i].1)
  {
    if k > 0 {
      TypeErrorKeys(fieldTypes, input, k - 1, field);
      var errors := TypeErrorsUpTo(fieldTypes, input, k - 1);
      if field in Keys(TypeErrorsUpTo(fieldTypes, input, k)) && fieldTypes[k - 1].0 != field {
        assert field in Keys(errors);
      }
    }
  }

  /** `validate_type(field_types)` applied to one call. */
  method ValidateType(fieldTypes: seq<(string, PyType)>, args: seq<Json>, kwargs: Fields) returns (g: Gate)
    ensures var input := Checked(args, kwargs);
            g.Reject? <==> input != [] && exists i :: 0 <= i < |fieldTypes| && Mistyped(input, fieldTypes[i].0, fieldTypes[i].1)
    ensures g.Reject? ==> g.ex.errors == TypeErrorsUpTo(fieldTypes, Checked(args, kwargs), |fieldTypes|)
  {
    var input := Checked(args, kwargs);
    if input == [] {
      return Proceed;
    }
    var errors := TypeErrors(fieldTypes, input);
    if errors != [] {
      var field := errors[0].0;
      assert field in Keys(errors);
      TypeErrorKeys(fieldTypes, input, |fieldTypes|, field);
      g := Reject(ValidationException("Type validation failed for fields: " + Text.Join(Keys(errors), ", "), errors));
    } else {
      forall i | 0 <= i < |fieldTypes|
        ensures !Mistyped(input, fieldTypes[i].0, fieldTypes[i].1)
      {
        TypeErrorKeys(fieldTypes, input, |fieldTypes|, fieldTypes[i].0);
      }
      g := Proceed;
    }
  }

  // ---------------------------------------------------------------------------
  // ranges

  /** Python's chained `min_val <= value <= max_val`; the second comparison runs only when the first holds. */
  function InRange(value: Json, lo: Json, hi: Json): (r: PyResult<bool>)
    ensures Number(value).Some? && Number(lo).Some? && Number(hi).Some? ==>
              r == Success(Number(lo).value <= Number(value).value <= Number(hi).value)
  {
    var low := LessEq(lo, value);
    if low.Failure? then low
    else if !low.value then Success(false)
    else LessEq(value, hi)
  }

  /** One iteration of `validate_range`'s loop: a present value out of its bounds is recorded. */
  function RangeStep(errors: Fields, entry: (string, (Json, Json)), input: Fields): PyResult<Fields> {
    var (field, bounds) := entry;
    var value := Get(input, field);
    if value.None? then Success(errors)
    else
      var inside := InRange(value.value, bounds.0, bounds.1);
      if inside.Failure? then Failure(inside.error)
      else if inside.value then Success(errors)
      else Success(Put(errors, field, JObj([("value", value.value), ("min", bounds.0), ("max", bounds.1)])))
  }

  /** The `range_errors` dict after the first `k` entries of `field_ranges`, or the comparison's exception. */
  function RangeErrorsUpTo(fieldRanges: seq<(string, (Json, Json))>, input: Fields, k: nat): PyResult<Fields>
    requires k <= |fieldRanges|
  {
    if k == 0 then Success([])
    else
      var errors := RangeErrorsUpTo(fieldRanges, input, k - 1);
      if errors.Failure? then errors else RangeStep(errors.value, fieldRanges[k - 1], input)
  }

  /** The loop of `validate_range` that fills `range_errors`. */
  method RangeErrors(fieldRanges: seq<(string, (Json, Json))>, input: Fields) returns (r: PyResult<Fields>)
    ensures r == RangeErrorsUpTo(fieldRanges, input, |fieldRanges|)
  {
    var errors: Fields := [];
    for k := 0 to |fieldRanges|
      invariant RangeErrorsUpTo(fieldRanges, input, k) == Success(errors)
    {
      var next := RangeStep(errors, fieldRanges[k], input);
      if next.Failure? {
        RangeFailureStays(fieldRanges, input, k + 1);
        return next;
      }
      errors := next.value;
    }
    r := Success(errors);
  }

  /** An exception from a comparison ends the loop: nothing after it changes the outcome. */
  lemma {:induction false} RangeFailureStays(fieldRanges: seq<(string, (Json, Json))>, input: Fields, k: nat)
    requires 0 < k <= |fieldRanges| && RangeErrorsUpTo(fieldRanges, input, k).Failure?
    ensures RangeErrorsUpTo(fieldRanges, input, |fieldRanges|) == RangeErrorsUpTo(fieldRanges, input, k)
    decreases |fieldRanges| - k
  {
    if k < |fieldRanges| {
      RangeFailureStays(fieldRanges, input, k + 1);
    }
  }

  /** A present numeric field outside its bounds. */
  predicate OutOfRange(input: Fields, field: string, bounds: (Json, Json)) {
    Get(input, field).Some? && InRange(Get(input, field).value, bounds.0, bounds.1) == Success(false)
  }

  /** When every comparison succeeds, the error keys are exactly the present fields out of range. */
  lemma {:induction false} RangeErrorKeys(fieldRanges: seq<(string, (Json, Json))>, input: Fields, k: nat, field: string)
    requires k <= |fieldRanges| && RangeErrorsUpTo(fieldRanges, input, k).Success?
    ensures field in Keys(RangeErrorsUpTo(fieldRanges, input, k).value) <==>
            exists i :: 0 <= i < k && fieldRanges[i].0 == field && OutOfRange(input, field, fieldRanges[i].1)
  {
    if k > 0 {
      RangeErrorKeys(fieldRanges, input, k - 1, field);
      var errors := RangeErrorsUpTo(fieldRanges, input, k - 1).value;
      if field in Keys(RangeErrorsUpTo(fieldRanges, input, k).value) && fieldRanges[k - 1].0 != field {
        assert field in Keys(errors);
      }
    }
  }

  /** The bounds are inclusive: both ends of a numeric range are accepted. */
  lemma RangeIsInclusive(lo: int, hi: int)
    requires lo <= hi
    ensures InRange(JInt(lo), JInt(lo), JInt(hi)) == Success(true)
    ensures InRange(JInt(hi), JInt(lo), JInt(hi)) == Success(true)
    ensures InRange(JInt(hi + 1), JInt(lo), JInt(hi)) == Success(false)
    ensures InRange(JInt(lo - 1), JInt(lo), JInt(hi)) == Success(false)
  {
  }

  /**
   * `validate_range(field_ranges)` applied to one call: the gate, or the
   * exception a comparison raised (a non-comparable value is not a
   * validation error).
   */
  method ValidateRange(fieldRanges: seq<(string, (Json, Json))>, args: seq<Json>, kwargs: Fields) returns (r: PyResult<Gate>)
    ensures var input := Checked(args, kwargs);
            input != [] && RangeErrorsUpTo(fieldRanges, input, |fieldRanges|).Failure? <==> r.Failure?
    ensures var input := Checked(args, kwargs);
            r.Success? ==>
              (r.value.Reject? <==> input != [] && exists i :: 0 <= i < |fieldRanges| && OutOfRange(input, fieldRanges[i].0, fieldRanges[i].1))
    ensures r.Failure? ==> r.error == RangeErrorsUpTo(fieldRanges, Checked(args, kwargs), |fieldRanges|).error
    ensures r.Success? && r.value.Reject? ==>
              r.value.ex.errors == RangeErrorsUpTo(fieldRanges, Checked(args, kwargs), |fieldRanges|).value
  {
    var input := Checked(args, kwargs);
    if input == [] {
      return Success(Proceed);
    }
    var errors := RangeErrors(fieldRanges, input);
    if errors.Failure? {
      return Failure(errors.error);
    }
    if errors.value != [] {
      var field := errors.value[0].0;
      assert field in Keys(errors.value);
      RangeErrorKeys(fieldRanges, input, |fieldRanges|, field);
      r := Success(Reject(ValidationException("Range validation failed for fields: " + Text.Join(Keys(errors.value), ", "), errors.value)));
    } else {
      forall i | 0 <= i < |fieldRanges|
        ensures !OutOfRange(input, fieldRanges[i].0, fieldRanges[i].1)
      {
        RangeErrorKeys(fieldRanges, input, |fieldRanges|, fieldRanges[i].0);
      }
      r := Success(Proceed);
    }
  }

  // ---------------------------------------------------------------------------
  // sanitising

  /**
   * `sanitize_string(value, max_length)`: a non-string raises; otherwise the
   * stripped text, cut to `value[:max_length]` when `max_length` is non-zero
   * and shorter than the text (a negative one drops characters from the end).
   */
  function SanitizeString(value: Json, maxLength: Option<int>): (r: Result<string, ValidationException>)
    ensures r.Success? <==> value.JStr?
    ensures r.Success? ==> r.value <= Text.Strip(value.s)
    ensures r.Success? && maxLength.Some? && maxLength.value > 0 ==>
              var n := if |Text.Strip(value.s)| <= maxLength.value then |Text.Strip(value.s)| else maxLength.value;
              r.value == Text.Strip(value.s)[..n]
    ensures r.Success? && (maxLength.None? || maxLength.value == 0) ==> r.value == Text.Strip(value.s)
    ensures r.Success? && maxLength.Some? && maxLength.value < 0 ==>
              |r.value| == if |Text.Strip(value.s)| + maxLength.value < 0 then 0 else |Text.Strip(value.s)| + maxLength.value
  {
    if !value.JStr? then Failure(ValidationException("Value must be a string", []))
    else
      var stripped := Text.Strip(value.s);
      if maxLength.Some? && maxLength.value != 0 && |stripped| > maxLength.value then
        Success(stripped[..SliceEnd(maxLength.value, |stripped|)])
      else Success(stripped)
  }

  /**
   * Without a limit, sanitising is idempotent. (With one it is not: a cut can
   * leave a space at the end, which the next call strips.)
   */
  lemma SanitizeWithoutLimitIdempotent(s: string)
    ensures var once := SanitizeString(JStr(s), None).value;
            SanitizeString(JStr(once), None) == Success(once)
  {
    Text.StripIdempotent(s);
  }

  /** A cut can leave trailing whitespace: `"a b"` limited to 2 gives `"a "`, which sanitises again to `"a"`. */
  lemma SanitizeWithLimitNotIdempotent()
    ensures SanitizeString(JStr("a b"), Some(2)) == Success("a ")
    ensures SanitizeString(JStr("a "), Some(2)) == Success("a")
  {
    Text.StripNoEdgeSpace("a b");
    Text.StripUnique("a ", 0, 1);
    assert "a b"[..2] == "a ";
    assert "a "[..1] == "a";
  }

  // ---------------------------------------------------------------------------
  // e-mail and URL recognisers

  predicate IsLocalChar(c: char) {
    Text.IsAsciiLetter(c) || Text.IsDigit(c) || c == '.' || c == '_' || c == '%' || c == '+' || c == '-'
  }

  predicate IsDomainChar(c: char) {
    Text.IsAsciiLetter(c) || Text.IsDigit(c) || c == '.' || c == '-'
  }

  predicate AllLocal(s: string) { forall i :: 0 <= i < |s| ==> IsLocalChar(s[i]) }
  predicate AllDomain(s: string) { forall i :: 0 <= i < |s| ==> IsDomainChar(s[i]) }
  predicate AllLetters(s: string) { forall i :: 0 <= i < |s| ==> Text.IsAsciiLetter(s[i]) }

  /** `[a-zA-Z0-9.-]+\.[a-zA-Z]{2,}` matches the whole of `d`. */
  predicate DomainShape(d: string) {
    exists n :: 0 < n < |d| && d[n] == '.' && |d| - n - 1 >= 2 && AllDomain(d[..n]) && AllLetters(d[n + 1..])
  }

  /** `[a-zA-Z0-9._%+-]+@` followed by a domain matches the whole of `t`. */
  predicate EmailShape(t: string) {
    exists a :: 0 < a < |t| && t[a] == '@' && AllLocal(t[..a]) && DomainShape(t[a + 1..])
  }

  /** `(/.*)?`: nothing, or a slash and then anything but a newline. */
  predicate PathTail(p: string) {
    p == [] || (p[0] == '/' && '\n' !in p)
  }

  /** A domain followed by an optional path matches the whole of `r`. */
  predicate HostAndPath(r: string) {
    exists e :: 0 <= e <= |r| && DomainShape(r[..e]) && PathTail(r[e..])
  }

  /** `https?://` followed by a domain and an optional path matches the whole of `t`. */
  predicate UrlShape(t: string) {
    ("http://" <= t && HostAndPath(t[7..])) || ("https://" <= t && HostAndPath(t[8..]))
  }

  /** Python's `re.match` with a pattern ending in `$`: the whole text, or all of it but one final newline. */
  predicate MatchesToEnd(t: string, shape: string -> bool) {
    shape(t) || (|t| > 0 && t[|t| - 1] == '\n' && shape(t[..|t| - 1]))
  }

  /** Scans a domain: the text after its last dot is the top-level part. */
  function ScanDomain(d: string): bool {
    var tld := Text.LastSegment(d, '.');
    |tld| < |d| && |tld| >= 2 && AllLetters(tld) && |d| - |tld| - 1 >= 1 && AllDomain(d[..|d| - |tld| - 1])
  }

  lemma ScanDomainCorrect(d: string)
    ensures ScanDomain(d) <==> DomainShape(d)
  {
    if ScanDomain(d) {
      ScanDomainSound(d);
    }
    if DomainShape(d) {
      ScanDomainComplete(d);
    }
  }

  lemma ScanDomainSound(d: string)
    requires ScanDomain(d)
    ensures DomainShape(d)
  {
    var tld := Text.LastSegment(d, '.');
    var n := |d| - |tld| - 1;
    assert d[n + 1..] == tld;
    assert d[n] == '.';
    assert 0 < n < |d| && |d| - n - 1 >= 2 && AllDomain(d[..n]) && AllLetters(d[n + 1..]);
  }

  lemma ScanDomainComplete(d: string)
    requires DomainShape(d)
    ensures ScanDomain(d)
  {
    var n :| 0 < n < |d| && d[n] == '.' && |d| - n - 1 >= 2 && AllDomain(d[..n]) && AllLetters(d[n + 1..]);
    ScanDomainAt(d, n);
  }

  /** A domain whose last dot is at `n` scans with `n` as the split point. */
  lemma ScanDomainAt(d: string, n: nat)
    requires 0 < n < |d| && d[n] == '.' && |d| - n - 1 >= 2 && AllDomain(d[..n]) && AllLetters(d[n + 1..])
    ensures Text.LastSegment(d, '.') == d[n + 1..]
  {
    var pre, tld := d[..n], d[n + 1..];
    assert '.' !in tld by {
      assert forall i :: 0 <= i < |tld| ==> Text.IsAsciiLetter(tld[i]);
    }
    Text.SplitAround(d, n);
    Text.LastSegmentAfter(pre, tld, '.');
  }

  /** Scans an address: everything before the first `@` is the local part. */
  function ScanEmail(t: string): bool {
    '@' in t &&
    var a := Text.IndexOf(t, '@');
    0 < a && AllLocal(t[..a]) && ScanDomain(t[a + 1..])
  }

  lemma ScanEmailCorrect(t: string)
    ensures ScanEmail(t) <==> EmailShape(t)
  {
    if ScanEmail(t) {
      var a := Text.IndexOf(t, '@');
      ScanDomainSound(t[a + 1..]);
      assert 0 < a < |t| && t[a] == '@' && AllLocal(t[..a]) && DomainShape(t[a + 1..]);
    }
    if EmailShape(t) {
      ScanEmailComplete(t);
    }
  }

  lemma ScanEmailComplete(t: string)
    requires EmailShape(t)
    ensures ScanEmail(t)
  {
    var a :| 0 < a < |t| && t[a] == '@' && AllLocal(t[..a]) && DomainShape(t[a + 1..]);
    ScanDomainComplete(t[a + 1..]);
    ScanEmailAt(t, a);
  }

  /** An address whose first `@` is at `a` scans with `a` as the split point. */
  lemma ScanEmailAt(t: string, a: nat)
    requires 0 < a < |t| && t[a] == '@' && AllLocal(t[..a]) && ScanDomain(t[a + 1..])
    ensures ScanEmail(t)
  {
    assert '@' !in t[..a] by {
      assert !IsLocalChar('@');
    }
    Text.FirstIndex(t, '@', a);
  }

  /** Everything a domain pattern matches is made of domain characters. */
  lemma DomainShapeChars(d: string)
    requires DomainShape(d)
    ensures AllDomain(d)
  {
    var n :| 0 < n < |d| && d[n] == '.' && |d| - n - 1 >= 2 && AllDomain(d[..n]) && AllLetters(d[n + 1..]);
    assert forall i :: 0 <= i < n ==> d[..n][i] == d[i];
    assert forall i :: n < i < |d| ==> d[n + 1..][i - n - 1] == d[i];
  }

  /** Scans a URL: after the scheme, the host runs up to the first `/`. */
  function ScanHostAndPath(r: string): bool {
    var e := if '/' in r then Text.IndexOf(r, '/') else |r|;
    ScanDomain(r[..e]) && '\n' !in r[e..]
  }

  lemma ScanHostAndPathCorrect(r: string)
    ensures ScanHostAndPath(r) <==> HostAndPath(r)
  {
    var e := if '/' in r then Text.IndexOf(r, '/') else |r|;
    ScanDomainCorrect(r[..e]);
    if HostAndPath(r) {
      var e' :| 0 <= e' <= |r| && DomainShape(r[..e']) && PathTail(r[e'..]);
      DomainShapeChars(r[..e']);
      assert '/' !in r[..e'];
      if e' < |r| {
        assert r[e'] == r[e'..][0] == '/';
        Text.FirstIndex(r, '/', e');
      } else {
        assert r[..e'] == r;
      }
    }
  }

  function ScanUrl(t: string): bool {
    ("http://" <= t && ScanHostAndPath(t[7..])) || ("https://" <= t && ScanHostAndPath(t[8..]))
  }

  lemma ScanUrlCorrect(t: string)
    ensures ScanUrl(t) <==> UrlShape(t)
  {
    if |t| >= 7 { ScanHostAndPathCorrect(t[7..]); }
    if |t| >= 8 { ScanHostAndPathCorrect(t[8..]); }
  }

  /** `validate_email`: the scanner, on the text or on the text less one final newline. */
  function ValidateEmail(email: string): (ok: bool)
    ensures ok <==> MatchesToEnd(email, EmailShape)
  {
    ScanEmailCorrect(email);
    if |email| > 0 && email[|email| - 1] == '\n' then
      ScanEmailCorrect(email[..|email| - 1]);
      ScanEmail(email) || ScanEmail(email[..|email| - 1])
    else ScanEmail(email)
  }

  /** `validate_url`: the scanner, on the text or on the text less one final newline. */
  function ValidateUrl(url: string): (ok: bool)
    ensures ok <==> MatchesToEnd(url, UrlShape)
  {
    ScanUrlCorrect(url);
    if |url| > 0 && url[|url| - 1] == '\n' then
      ScanUrlCorrect(url[..|url| - 1]);
      ScanUrl(url) || ScanUrl(url[..|url| - 1])
    else ScanUrl(url)
  }

  /** Python's `$` also matches before one final newline, so a newline after a valid address is accepted. */
  lemma EmailToleratesFinalNewline(t: string)
    requires EmailShape(t)
    ensures ValidateEmail(t) && ValidateEmail(t + "\n")
  {
    assert (t + "\n")[..|t + "\n"| - 1] == t;
  }

  /** The same holds for URLs. */
  lemma UrlToleratesFinalNewline(t: string)
    requires UrlShape(t)
    ensures ValidateUrl(t) && ValidateUrl(t + "\n")
  {
    assert (t + "\n")[..|t + "\n"| - 1] == t;
  }
}

=== FILE: weather_tools.dfy ===
/**
 * The example weather tools over the wttr.in service: the input guards, the
 * request URL, the extraction of the response into the tool's dict, the
 * forecast loop, the two-location comparison and the mapping of exceptions.
 * The HTTP request is a parameter `fetch` from URL to what the request gives;
 * the tools' JSON text output is modelled as the dict before `json.dumps`.
 */
module WeatherTools {
  import opened Wrappers
  import opened Json
  import opened Py
  import Text

  // ---------------------------------------------------------------------------
  // Requests and exceptions

  /** What `requests.get(url)` and `response.json()` give: a timeout, another request failure with its text, or the decoded body. */
  datatype Fetch = Timeout | RequestFailed(text: string) | Fetched(data: Json)

  /** The exceptions a weather tool raises. */
  datatype Exc =
    | ValueErr(message: string)
    | ConnectionErr(message: string)
    | Uncaught(error: PyError)   // an exception none of the `except` clauses names

  const EmptyLocation := "Location cannot be empty"
  const DaysOutOfRange := "Days must be between 1 and 3"
  const BadResponse := "Invalid response format or location not found: "
  const ComparePrefix := "Failed to compare weather: "

  /** `str(e)`; the text of a built-in exception raised on the response is not modelled. */
  function ExcText(e: Exc): string {
    match e
    case ValueErr(m) => m
    case ConnectionErr(m) => m
    case Uncaught(_) => ""
  }

  /** `not location or not location.strip()`. */
  predicate Blank(location: string) {
    location == [] || Text.Strip(location) == []
  }

  /** A location is rejected exactly when it is empty or all whitespace. */
  lemma BlankIffAllSpace(location: string)
    ensures Blank(location) <==> Text.AllSpace(location)
  {
    Text.StripEmptyIffAllSpace(location);
  }

  /** `f"https://wttr.in/{location.strip()}?format=j1"`. */
  function Url(location: string): (url: string)
    ensures |url| == |Text.Strip(location)| + 26
    ensures url[..16] == "https://wttr.in/"
    ensures url[16..|url| - 10] == Text.Strip(location)
    ensures url[|url| - 10..] == "?format=j1"
  {
    "https://wttr.in/" + Text.Strip(location) + "?format=j1"
  }

  /** Locations that differ only in surrounding whitespace request the same URL. */
  lemma UrlIgnoresSurroundingSpace(left: string, location: string, right: string)
    requires Text.AllSpace(left) && Text.AllSpace(right)
    ensures Url(left + location + right) == Url(location) == Url(Text.Strip(location))
  {
    Text.StripPadded(left, location, right);
    Text.StripIdempotent(location);
  }

  /** The first two `except` clauses: a timeout, or any other request failure. */
  function RequestError(location: string, response: Fetch): (e: Exc)
    requires !response.Fetched?
    ensures e.ConnectionErr?
  {
    match response
    case Timeout => ConnectionErr("Weather service timeout for location: " + location)
    case RequestFailed(text) => ConnectionErr("Failed to fetch weather data: " + text)
  }

  /** The last `except` clause: `KeyError`, `IndexError` and `ValueError` from the response become `ValueError`; others propagate. */
  function Mapped(e: PyError): (x: Exc)
    ensures x.ValueErr? <==> e in {KeyError, IndexError, ValueError}
    ensures x.ValueErr? ==> x.message == BadResponse
    ensures !x.ValueErr? ==> x == Uncaught(e)
  {
    if e == KeyError || e == IndexError || e == ValueError then ValueErr(BadResponse) else Uncaught(e)
  }

  // ---------------------------------------------------------------------------
  // Reading fields out of the response

  /** One subscript or `.get` applied to a value. */
  datatype Step = Key(key: string) | Idx(n: int) | GetDefault(key: string, dflt: Json)

  function Apply(j: Json, step: Step): PyResult<Json> {
    match step
    case Key(k) => Index(j, k)
    case Idx(n) => At(j, n)
    case GetDefault(k, d) => GetOr(j, k, d)
  }

  /** A chain of subscripts, applied left to right; the first one that raises ends it. */
  function Follow(j: Json, path: seq<Step>): PyResult<Json>
    decreases |path|
  {
    if path == [] then Success(j)
    else
      var v := Apply(j, path[0]);
      if v.Failure? then Failure(v.error) else Follow(v.value, path[1..])
  }

  /** The conversion applied to a value: none, `int(...)` or `float(...)`. */
  datatype Conv = AsIs | AsInt | AsFloat

  function Convert(v: Json, conv: Conv): (r: PyResult<Json>)
    ensures r.Success? && conv == AsInt ==> r.value.JInt?
    ensures r.Success? && conv == AsFloat ==> r.value.JFloat?
    ensures conv == AsIs ==> r == Success(v)
  {
    match conv
    case AsIs => Success(v)
    case AsInt =>
      var i := ToInt(v);
      if i.Failure? then Failure(i.error) else Success(JInt(i.value))
    case AsFloat =>
      var f := ToFloat(v);
      if f.Failure? then Failure(f.error) else Success(JFloat(f.value))
  }

  /** A value of a dict literal: a subscript chain, then a conversion. */
  datatype Leaf = Leaf(path: seq<Step>, conv: Conv)

  /** A dict value: one read, or a nested dict literal of reads. */
  datatype Field = Value(leaf: Leaf) | Group(members: seq<(string, Leaf)>)

  function LeafValue(leaf: Leaf, root: Json): PyResult<Json> {
    var v := Follow(root, leaf.path);
    if v.Failure? then Failure(v.error) else Convert(v.value, leaf.conv)
  }

  function FieldValue(field: Field, root: Json): PyResult<Json> {
    match field
    case Value(leaf) => LeafValue(leaf, root)
    case Group(members) =>
      var fs := Build(members, (leaf: Leaf) => LeafValue(leaf, root));
      if fs.Failure? then Failure(fs.error) else Success(JObj(fs.value))
  }

  /** The values of a dict literal whose reads start from `root`. */
  function Reader(root: Json): Field -> PyResult<Json> {
    (f: Field) => FieldValue(f, root)
  }

  /**
   * A dict literal: its values are evaluated in order and the first that
   * raises ends the evaluation; otherwise each key gets its value, in order.
   */
  function Build<T>(entries: seq<(string, T)>, eval: T -> PyResult<Json>): (r: PyResult<Fields>)
    ensures r.Success? <==> forall i :: 0 <= i < |entries| ==> eval(entries[i].1).Success?
    ensures r.Success? ==> |r.value| == |entries|
    ensures r.Success? ==> forall i :: 0 <= i < |entries| ==> r.value[i] == (entries[i].0, eval(entries[i].1).value)
    decreases |entries|
  {
    if entries == [] then Success([])
    else
      var v := eval(entries[0].1);
      if v.Failure? then Failure(v.error)
      else
        var rest := Build(entries[1..], eval);
        if rest.Failure? then
          assert exists i :: 1 <= i < |entries| && eval(entries[i].1).Failure? by {
            var i :| 0 <= i < |entries[1..]| && eval(entries[1..][i].1).Failure?;
            assert entries[1..][i] == entries[i + 1];
          }
          Failure(rest.error)
        else
          var r := [(entries[0].0, v.value)] + rest.value;
          assert forall i :: 1 <= i < |entries| ==> r[i] == rest.value[i - 1] && entries[i] == entries[1..][i - 1];
          Success(r)
  }

  /** The exception a dict literal raises is that of its first value that raises. */
  lemma {:induction false} BuildRaisesFirst<T>(entries: seq<(string, T)>, eval: T -> PyResult<Json>, n: nat)
    requires n < |entries| && eval(entries[n].1).Failure?
    requires forall i :: 0 <= i < n ==> eval(entries[i].1).Success?
    ensures Build(entries, eval) == Failure(eval(entries[n].1).error)
    decreases n
  {
    if n > 0 {
      assert entries[1..][n - 1] == entries[n];
      assert forall i :: 0 <= i < n - 1 ==> entries[1..][i] == entries[i + 1];
      BuildRaisesFirst(entries[1..], eval, n - 1);
    }
  }

  /** `x[k][0]['value']`, the shape wttr.in gives its text values. */
  function FirstValue(k: string): seq<Step> {
    [Key(k), Idx(0), Key("value")]
  }

  /** The area fields of the current weather, read from `nearest_area[0]`. */
  const AreaPlan: seq<(string, Field)> := [
    ("location", Value(Leaf(FirstValue("areaName"), AsIs))),
    ("region", Value(Leaf([GetDefault("region", JArr([JObj([])])), Idx(0), GetDefault("value", JStr(""))], AsIs))),
    ("country", Value(Leaf(FirstValue("country"), AsIs)))
  ]

  /** The condition fields of the current weather, read from `current_condition[0]`. */
  const ConditionsPlan: seq<(string, Field)> := [
    ("temperature_c", Value(Leaf([Key("temp_C")], AsInt))),
    ("temperature_f", Value(Leaf([Key("temp_F")], AsInt))),
    ("feels_like_c", Value(Leaf([Key("FeelsLikeC")], AsInt))),
    ("feels_like_f", Value(Leaf([Key("FeelsLikeF")], AsInt))),
    ("condition", Value(Leaf(FirstValue("weatherDesc"), AsIs))),
    ("humidity", Value(Leaf([Key("humidity")], AsInt))),
    ("wind_speed_kmph", Value(Leaf([Key("windspeedKmph")], AsInt))),
    ("wind_speed_mph", Value(Leaf([Key("windspeedMiles")], AsInt))),
    ("wind_direction", Value(Leaf([Key("winddir16Point")], AsIs))),
    ("precipitation_mm", Value(Leaf([Key("precipMM")], AsFloat))),
    ("cloud_cover", Value(Leaf([Key("cloudcover")], AsInt))),
    ("uv_index", Value(Leaf([Key("uvIndex")], AsInt))),
    ("visibility_km", Value(Leaf([Key("visibility")], AsInt))),
    ("observation_time", Value(Leaf([Key("observation_time")], AsIs)))
  ]

  const CurrentPath: seq<Step> := [Key("current_condition"), Idx(0)]
  const AreaPath: seq<Step> := [Key("nearest_area"), Idx(0)]

  /** The dict `get_current_weather` builds from the decoded response. */
  function CurrentFromData(data: Json): (r: PyResult<Fields>)
    ensures r.Success? ==> Follow(data, AreaPath).Success? && Follow(data, CurrentPath).Success?
    ensures r.Success? ==> |r.value| == |AreaPlan| + |ConditionsPlan|
    ensures r.Success? ==> forall i :: 0 <= i < |AreaPlan| ==>
              Reader(Follow(data, AreaPath).value)(AreaPlan[i].1).Success? &&
              r.value[i] == (AreaPlan[i].0, Reader(Follow(data, AreaPath).value)(AreaPlan[i].1).value)
    ensures r.Success? ==> forall i :: 0 <= i < |ConditionsPlan| ==>
              Reader(Follow(data, CurrentPath).value)(ConditionsPlan[i].1).Success? &&
              r.value[|AreaPlan| + i] == (ConditionsPlan[i].0, Reader(Follow(data, CurrentPath).value)(ConditionsPlan[i].1).value)
  {
    var current := Follow(data, CurrentPath);
    if current.Failure? then Failure(current.error)
    else
      var area := Follow(data, AreaPath);
      if area.Failure? then Failure(area.error)
      else
        var a := Build(AreaPlan, Reader(area.value));
        if a.Failure? then Failure(a.error)
        else
          var c := Build(ConditionsPlan, Reader(current.value));
          if c.Failure? then Failure(c.error) else Success(a.value + c.value)
  }

  /** A response whose area has no `region` reports the region as the empty string. */
  lemma MissingRegionIsEmpty(area: Fields)
    requires "region" !in Keys(area)
    ensures FieldValue(AreaPlan[1].1, JObj(area)) == Success(JStr(""))
  {
    assert Follow(JObj([]), [GetDefault("value", JStr(""))]) == Success(JStr(""));
  }

  /** `get_current_weather(location)`, the request being `fetch`. */
  function CurrentWeather(location: string, fetch: string -> Fetch): (r: Result<Fields, Exc>)
    ensures Blank(location) ==> r == Failure(ValueErr(EmptyLocation))
    ensures !Blank(location) ==>
              match fetch(Url(location))
              case Timeout => r == Failure(ConnectionErr("Weather service timeout for location: " + location))
              case RequestFailed(text) => r == Failure(ConnectionErr("Failed to fetch weather data: " + text))
              case Fetched(data) =>
                (CurrentFromData(data).Success? ==> r == Success(CurrentFromData(data).value))
                && (CurrentFromData(data).Failure? ==> r == Failure(Mapped(CurrentFromData(data).error)))
  {
    if Blank(location) then Failure(ValueErr(EmptyLocation))
    else
      var response := fetch(Url(location));
      if !response.Fetched? then Failure(RequestError(location, response))
      else
        var w := CurrentFromData(response.data);
        if w.Failure? then Failure(Mapped(w.error)) else Success(w.value)
  }

  /** The outcome depends on the request only through the URL of the stripped location; a blank location makes no request. */
  lemma CurrentWeatherFetchesOnlyUrl(location: string, f1: string -> Fetch, f2: string -> Fetch)
    requires Blank(location) || f1(Url(location)) == f2(Url(location))
    ensures CurrentWeather(location, f1) == CurrentWeather(location, f2)
  {
  }

  // ---------------------------------------------------------------------------
  // get_weather_forecast

  /** The header of the forecast, read from `nearest_area[0]`. */
  const HeaderPlan: seq<(string, Field)> := [
    ("location", Value(Leaf(FirstValue("areaName"), AsIs))),
    ("country", Value(Leaf(FirstValue("country"), AsIs)))
  ]

  /** `day_data['hourly'][4]['weatherDesc'][0]['value']`: the midday condition. */
  const MiddayCondition: seq<Step> := [Key("hourly"), Idx(4)] + FirstValue("weatherDesc")

  function Astronomy(k: string, conv: Conv): Leaf {
    Leaf([Key("astronomy"), Idx(0), Key(k)], conv)
  }

  /** One forecast entry, read from one element of `weather`. */
  const DayPlan: seq<(string, Field)> := [
    ("date", Value(Leaf([Key("date")], AsIs))),
    ("max_temp_c", Value(Leaf([Key("maxtempC")], AsInt))),
    ("max_temp_f", Value(Leaf([Key("maxtempF")], AsInt))),
    ("min_temp_c", Value(Leaf([Key("mintempC")], AsInt))),
    ("min_temp_f", Value(Leaf([Key("mintempF")], AsInt))),
    ("avg_temp_c", Value(Leaf([Key("avgtempC")], AsInt))),
    ("avg_temp_f", Value(Leaf([Key("avgtempF")], AsInt))),
    ("condition", Value(Leaf(MiddayCondition, AsIs))),
    ("total_snow_cm", Value(Leaf([Key("totalSnow_cm")], AsFloat))),
    ("sun_hour", Value(Leaf([Key("sunHour")], AsFloat))),
    ("uv_index", Value(Leaf([Key("uvIndex")], AsInt))),
    ("astronomy", Group([
      ("sunrise", Astronomy("sunrise", AsIs)),
      ("sunset", Astronomy("sunset", AsIs)),
      ("moonrise", Astronomy("moonrise", AsIs)),
      ("moonset", Astronomy("moonset", AsIs)),
      ("moon_phase", Astronomy("moon_phase", AsIs)),
      ("moon_illumination", Astronomy("moon_illumination", AsInt))
    ]))
  ]

  /** The entry appended for one day. */
  function DayEntry(day: Json): PyResult<Fields> {
    Build(DayPlan, Reader(day))
  }

  /** The forecast list after the loop has seen the first `k` days. */
  function DaysUpTo(days: seq<Json>, k: nat): (r: PyResult<seq<Json>>)
    requires k <= |days|
    ensures r.Success? <==> forall i :: 0 <= i < k ==> DayEntry(days[i]).Success?
    ensures r.Success? ==> |r.value| == k
    ensures r.Success? ==> forall i :: 0 <= i < k ==> r.value[i] == JObj(DayEntry(days[i]).value)
  {
    if k == 0 then Success([])
    else
      var before := DaysUpTo(days, k - 1);
      if before.Failure? then before
      else
        var entry := DayEntry(days[k - 1]);
        if entry.Failure? then Failure(entry.error) else Success(before.value + [JObj(entry.value)])
  }

  /** Once a day raises, the loop ends with that exception. */
  lemma {:induction false} DaysFailureStays(days: seq<Json>, k: nat)
    requires 0 < k <= |days| && DaysUpTo(days, k).Failure?
    ensures DaysUpTo(days, |days|) == DaysUpTo(days, k)
    decreases |days| - k
  {
    if k < |days| {
      DaysFailureStays(days, k + 1);
    }
  }

  /** The dict `get_weather_forecast` builds from the decoded response, `days` already checked. */
  function ForecastFromData(data: Json, days: int): (r: PyResult<Fields>)
    ensures Follow(data, AreaPath).Failure? ==> r == Failure(Follow(data, AreaPath).error)
    ensures r.Success? ==> Follow(data, AreaPath).Success? && Index(data, "weather").Success?
    ensures r.Success? ==> |r.value| == |HeaderPlan| + 1 && r.value[|HeaderPlan|].0 == "forecast"
    ensures r.Success? ==> forall i :: 0 <= i < |HeaderPlan| ==>
              Reader(Follow(data, AreaPath).value)(HeaderPlan[i].1).Success? &&
              r.value[i] == (HeaderPlan[i].0, Reader(Follow(data, AreaPath).value)(HeaderPlan[i].1).value)
  {
    var area := Follow(data, AreaPath);
    if area.Failure? then Failure(area.error)
    else
      var header := Build(HeaderPlan, Reader(area.value));
      if header.Failure? then Failure(header.error)
      else
        var weather := Index(data, "weather");
        if weather.Failure? then Failure(weather.error)
        else
          var sliced := SliceTo(weather.value, days);
          if sliced.Failure? then Failure(sliced.error)
          else
            var items := Iterate(sliced.value);
            if items.Failure? then Failure(items.error)
            else
              var entries := DaysUpTo(items.value, |items.value|);
              if entries.Failure? then Failure(entries.error)
              else Success(header.value + [("forecast", JArr(entries.value))])
  }

  /** The number of days `get_weather_forecast` reads when none is given. */
  const DefaultDays := 3

  /**
   * `get_weather_forecast(location, days)`, the request being `fetch`; `None`
   * stands for the omitted argument, which is `DefaultDays`.
   */
  function Forecast(location: string, days: Option<int>, fetch: string -> Fetch): (r: Result<Fields, Exc>)
    ensures Blank(location) ==> r == Failure(ValueErr(EmptyLocation))
    ensures var n := days.GetOr(DefaultDays);
            !Blank(location) && (n < 1 || n > 3) ==> r == Failure(ValueErr(DaysOutOfRange))
    ensures var n := days.GetOr(DefaultDays);
            !Blank(location) && 1 <= n <= 3 && !fetch(Url(location)).Fetched? ==>
              r == Failure(RequestError(location, fetch(Url(location))))
    ensures var n := days.GetOr(DefaultDays);
            !Blank(location) && 1 <= n <= 3 && fetch(Url(location)).Fetched? ==>
              var f := ForecastFromData(fetch(Url(location)).data, n);
              r == if f.Success? then Success(f.value) else Failure(Mapped(f.error))
    ensures r.Failure? && r.error.Uncaught? ==> r.error.error in {TypeError, AttributeError}
  {
    var n := days.GetOr(DefaultDays);
    if Blank(location) then Failure(ValueErr(EmptyLocation))
    else if n < 1 || n > 3 then Failure(ValueErr(DaysOutOfRange))
    else
      var response := fetch(Url(location));
      if !response.Fetched? then Failure(RequestError(location, response))
      else
        var f := ForecastFromData(response.data, n);
        if f.Failure? then Failure(Mapped(f.error)) else Success(f.value)
  }

  /** Without a `days` argument, a fetched forecast reads up to three days. */
  lemma DefaultForecastDays(location: string, fetch: string -> Fetch)
    requires !Blank(location) && fetch(Url(location)).Fetched?
    ensures Forecast(location, None, fetch) == Forecast(location, Some(3), fetch)
    ensures Forecast(location, None, fetch).Success? ==>
              ForecastFromData(fetch(Url(location)).data, 3) == Success(Forecast(location, None, fetch).value)
  {
  }

  /** `get_weather_forecast`, with its loop appending one entry per day. */
  method GetWeatherForecast(location: string, days: Option<int>, fetch: string -> Fetch) returns (r: Result<Fields, Exc>)
    ensures r == Forecast(location, days, fetch)
  {
    var days := days.GetOr(DefaultDays);
    if Blank(location) {
      return Failure(ValueErr(EmptyLocation));
    }
    if days < 1 || days > 3 {
      return Failure(ValueErr(DaysOutOfRange));
    }
    var response := fetch(Url(location));
    if !response.Fetched? {
      return Failure(RequestError(location, response));
    }
    var data := response.data;
    var area := Follow(data, AreaPath);
    if area.Failure? {
      return Failure(Mapped(area.error));
    }
    var header := Build(HeaderPlan, Reader(area.value));
    if header.Failure? {
      return Failure(Mapped(header.error));
    }
    var weather := Index(data, "weather");
    if weather.Failure? {
      return Failure(Mapped(weather.error));
    }
    var sliced := SliceTo(weather.value, days);
    if sliced.Failure? {
      return Failure(Mapped(sliced.error));
    }
    var items := Iterate(sliced.value);
    if items.Failure? {
      return Failure(Mapped(items.error));
    }
    var list := items.value;
    var forecast: seq<Json> := [];
    for k := 0 to |list|
      invariant DaysUpTo(list, k) == Success(forecast)
    {
      var entry := DayEntry(list[k]);
      if entry.Failure? {
        DaysFailureStays(list, k + 1);
        return Failure(Mapped(entry.error));
      }
      forecast := forecast + [JObj(entry.value)];
    }
    r := Success(header.value + [("forecast", JArr(forecast))]);
  }

  /**
   * With a list of days in the response, the forecast holds one entry for each
   * of the first `min(days, available)` of them, in order, and each entry's
   * condition is the one at `hourly[4]`.
   */
  lemma ForecastEntries(data: Json, days: int, ws: seq<Json>)
    requires Index(data, "weather") == Success(JArr(ws))
    requires ForecastFromData(data, days).Success?
    ensures var fs := ForecastFromData(data, days).value;
      && |fs| == |HeaderPlan| + 1 && fs[|HeaderPlan|].0 == "forecast" && fs[|HeaderPlan|].1.JArr?
      && |fs[|HeaderPlan|].1.items| == SliceEnd(days, |ws|)
      && forall i :: 0 <= i < |fs[|HeaderPlan|].1.items| ==>
           && DayEntry(ws[i]).Success?
           && fs[|HeaderPlan|].1.items[i] == JObj(DayEntry(ws[i]).value)
  {
    var n := SliceEnd(days, |ws|);
    assert SliceTo(JArr(ws), days) == Success(JArr(ws[..n]));
    assert Iterate(JArr(ws[..n])) == Success(ws[..n]);
    var entries := DaysUpTo(ws[..n], n);
    assert entries.Success?;
    assert ForecastFromData(data, days).value[|HeaderPlan|].1 == JArr(entries.value);
    assert forall i :: 0 <= i < n ==> ws[..n][i] == ws[i];
  }

  /** At most three days are reported, and no more than the response holds. */
  lemma ForecastTruncates(days: int, available: nat)
    requires 1 <= days <= 3
    ensures SliceEnd(days, available) == if days < available then days else available
  {
  }

  /** A day entry's `condition` is the value at `hourly[4]`. */
  lemma ConditionFromMidday(day: Json)
    requires DayEntry(day).Success?
    ensures Follow(day, MiddayCondition).Success?
    ensures Get(DayEntry(day).value, "condition") == Some(Follow(day, MiddayCondition).value)
  {
    var fs := DayEntry(day).value;
    var eval := Reader(day);
    assert eval(DayPlan[7].1).Success?;
    assert forall m :: 0 <= m < 7 ==> fs[m].0 == DayPlan[m].0;
    GetFrom(fs, 7, "condition");
  }

  // ---------------------------------------------------------------------------
  // compare_weather

  /** Python `abs(a - b)` for numbers; other operands raise `TypeError`. */
  function AbsDiff(a: Json, b: Json): (r: PyResult<Json>)
    ensures r.Success? <==> Number(a).Some? && Number(b).Some?
    ensures r.Success? ==> Number(r.value).Some? && Number(r.value).value >= 0.0
    ensures r.Success? ==> Number(r.value).value == Number(a).value - Number(b).value
                           || Number(r.value).value == Number(b).value - Number(a).value
  {
    if Number(a).None? || Number(b).None? then Failure(TypeError)
    else if a.JFloat? || b.JFloat? then
      var d := Number(a).value - Number(b).value;
      Success(JFloat(if d < 0.0 then -d else d))
    else
      var d := IntValue(a) - IntValue(b);
      Success(JInt(if d < 0 then -d else d))
  }

  /** The integer value of an `int` or a `bool`. */
  function IntValue(j: Json): (i: int)
    requires j.JInt? || j.JBool?
    ensures Number(j) == Some(i as real)
  {
    if j.JInt? then j.i else if j.b then 1 else 0
  }

  /** The difference does not depend on the order of the two operands. */
  lemma AbsDiffSymmetric(a: Json, b: Json)
    ensures AbsDiff(a, b) == AbsDiff(b, a)
  {
  }

  /** One value of the `comparison` block, read from the two weather dicts. */
  datatype Cell =
    | Copy(key: string)       // `weatherN[key]`, for the per-location blocks
    | Diff(key: string)       // `abs(weather1[key] - weather2[key])`
    | Larger(key: string)     // `weather1['location'] if weather1[key] > weather2[key] else weather2['location']`

  /** `weather1['location'] if weather1[key] > weather2[key] else weather2['location']`. */
  function LargerLocation(w1: Json, w2: Json, key: string): PyResult<Json> {
    var a := Index(w1, key);
    if a.Failure? then Failure(a.error)
    else
      var b := Index(w2, key);
      if b.Failure? then Failure(b.error)
      else
        var greater := Less(b.value, a.value);
        if greater.Failure? then Failure(greater.error)
        else if greater.value then Index(w1, "location") else Index(w2, "location")
  }

  function CellValue(cell: Cell, w1: Json, w2: Json): PyResult<Json> {
    match cell
    case Copy(k) => Index(w1, k)
    case Diff(k) =>
      var a := Index(w1, k);
      if a.Failure? then Failure(a.error)
      else
        var b := Index(w2, k);
        if b.Failure? then Failure(b.error) else AbsDiff(a.value, b.value)
    case Larger(k) => LargerLocation(w1, w2, k)
  }

  /** The values of a comparison block whose first location is `w1`. */
  function Cells(w1: Json, w2: Json): Cell -> PyResult<Json> {
    (c: Cell) => CellValue(c, w1, w2)
  }

  /** The block for one location. */
  const SummaryPlan: seq<(string, Cell)> := [
    ("name", Copy("location")),
    ("temperature_c", Copy("temperature_c")),
    ("temperature_f", Copy("temperature_f")),
    ("condition", Copy("condition")),
    ("humidity", Copy("humidity"))
  ]

  /** The block comparing the two locations. */
  const ComparisonPlan: seq<(string, Cell)> := [
    ("temperature_difference_c", Diff("temperature_c")),
    ("temperature_difference_f", Diff("temperature_f")),
    ("warmer_location", Larger("temperature_c")),
    ("humidity_difference", Diff("humidity")),
    ("more_humid", Larger("humidity"))
  ]

  /** The `comparison` dict built from the two decoded weather dicts. */
  function Comparison(w1: Json, w2: Json): (r: PyResult<Fields>)
    ensures r.Success? <==> Build(SummaryPlan, Cells(w1, w2)).Success? && Build(SummaryPlan, Cells(w2, w1)).Success?
                            && Build(ComparisonPlan, Cells(w1, w2)).Success?
    ensures r.Success? ==> |r.value| == 3 && r.value[0].0 == "location_1" && r.value[1].0 == "location_2"
                           && r.value[2].0 == "comparison"
  {
    var s1 := Build(SummaryPlan, Cells(w1, w2));
    if s1.Failure? then Failure(s1.error)
    else
      var s2 := Build(SummaryPlan, Cells(w2, w1));
      if s2.Failure? then Failure(s2.error)
      else
        var block := Build(ComparisonPlan, Cells(w1, w2));
        if block.Failure? then Failure(block.error)
        else Success([("location_1", JObj(s1.value)), ("location_2", JObj(s2.value)), ("comparison", JObj(block.value))])
  }

  /** The `try` block of `compare_weather` once the first location's weather is known. */
  function CompareFrom(w1: Result<Fields, Exc>, location2: string, fetch: string -> Fetch): (r: Result<Fields, Exc>)
    ensures r.Failure? ==> r.error.ValueErr?
    ensures r.Success? ==> w1.Success? && CurrentWeather(location2, fetch).Success?
    ensures r.Success? ==> Comparison(JObj(w1.value), JObj(CurrentWeather(location2, fetch).value)) == Success(r.value)
    ensures (w1.Success? && CurrentWeather(location2, fetch).Success?
             && Comparison(JObj(w1.value), JObj(CurrentWeather(location2, fetch).value)).Success?) ==> r.Success?
  {
    if w1.Failure? then Failure(ValueErr(ComparePrefix + ExcText(w1.error)))
    else
      var w2 := CurrentWeather(location2, fetch);
      if w2.Failure? then Failure(ValueErr(ComparePrefix + ExcText(w2.error)))
      else
        var c := Comparison(JObj(w1.value), JObj(w2.value));
        if c.Failure? then Failure(ValueErr(ComparePrefix)) else Success(c.value)
  }

  /** `compare_weather(location1, location2)`, the requests being `fetch`. */
  function CompareWeather(location1: string, location2: string, fetch: string -> Fetch): (r: Result<Fields, Exc>)
    ensures Blank(location1) ==> r == Failure(ValueErr("Location 1 cannot be empty"))
    ensures !Blank(location1) && Blank(location2) ==> r == Failure(ValueErr("Location 2 cannot be empty"))
    ensures r.Failure? ==> r.error.ValueErr?
    ensures r.Success? ==> CurrentWeather(location1, fetch).Success? && CurrentWeather(location2, fetch).Success?
    ensures r.Success? ==> Comparison(JObj(CurrentWeather(location1, fetch).value),
                                      JObj(CurrentWeather(location2, fetch).value)) == Success(r.value)
    ensures (!Blank(location1) && !Blank(location2)
             && CurrentWeather(location1, fetch).Success? && CurrentWeather(location2, fetch).Success?
             && Comparison(JObj(CurrentWeather(location1, fetch).value), JObj(CurrentWeather(location2, fetch).value)).Success?)
            ==> r.Success?
  {
    if Blank(location1) then Failure(ValueErr("Location 1 cannot be empty"))
    else if Blank(location2) then Failure(ValueErr("Location 2 cannot be empty"))
    else CompareFrom(CurrentWeather(location1, fetch), location2, fetch)
  }

  /** Equal readings name the second location; a strictly larger first reading names the first. */
  lemma LargerLocationStrict(w1: Fields, w2: Fields, key: string, a: int, b: int)
    requires Get(w1, key) == Some(JInt(a)) && Get(w2, key) == Some(JInt(b))
    ensures a > b ==> LargerLocation(JObj(w1), JObj(w2), key) == Index(JObj(w1), "location")
    ensures a <= b ==> LargerLocation(JObj(w1), JObj(w2), key) == Index(JObj(w2), "location")
  {
  }

  /** Swapping the two locations leaves each difference as it was. */
  lemma DiffSymmetric(w1: Json, w2: Json, key: string)
    requires Index(w1, key).Success? && Index(w2, key).Success?
    ensures CellValue(Diff(key), w1, w2) == CellValue(Diff(key), w2, w1)
  {
    AbsDiffSymmetric(Index(w1, key).value, Index(w2, key).value);
  }
  /** A weather dict with the fields `compare_weather` reads, the numeric ones as integers. */
  predicate Comparable(w: Fields) {
    && Get(w, "location").Some? && Get(w, "condition").Some?
    && Get(w, "temperature_c").Some? && Get(w, "temperature_c").value.JInt?
    && Get(w, "temperature_f").Some? && Get(w, "temperature_f").value.JInt?
    && Get(w, "humidity").Some? && Get(w, "humidity").value.JInt?
  }

  /** Every dict `get_current_weather` returns can be compared: its temperatures and humidity are integers. */
  lemma ReportComparable(data: Json)
    requires CurrentFromData(data).Success?
    ensures Comparable(CurrentFromData(data).value)
  {
    var area := Follow(data, AreaPath).value;
    var cur := Follow(data, CurrentPath).value;
    var a := Build(AreaPlan, Reader(area)).value;
    var c := Build(ConditionsPlan, Reader(cur)).value;
    assert CurrentFromData(data).value == a + c;
    AreaKeys(a, area);
    ConditionKeys(c, cur);
    PartsComparable(a, c);
  }

  lemma PartsComparable(a: Fields, c: Fields)
    requires |a| == 3 && a[0].0 == "location" && a[1].0 == "region" && a[2].0 == "country"
    requires |c| == 14
    requires c[0].0 == "temperature_c" && c[1].0 == "temperature_f" && c[2].0 == "feels_like_c"
    requires c[3].0 == "feels_like_f" && c[4].0 == "condition" && c[5].0 == "humidity"
    requires c[0].1.JInt? && c[1].1.JInt? && c[5].1.JInt?
    ensures Comparable(a + c)
  {
    GetFrom(a, 0, "location");
    GetConcat(a, c, "location");
    CurrentReading(a, c, "temperature_c", 0);
    CurrentReading(a, c, "temperature_f", 1);
    CurrentReading(a, c, "condition", 4);
    CurrentReading(a, c, "humidity", 5);
  }

  lemma AreaKeys(a: Fields, area: Json)
    requires Build(AreaPlan, Reader(area)) == Success(a)
    ensures |a| == 3 && a[0].0 == "location" && a[1].0 == "region" && a[2].0 == "country"
  {
  }

  lemma ConditionKeys(c: Fields, cur: Json)
    requires Build(ConditionsPlan, Reader(cur)) == Success(c)
    ensures |c| == 14
    ensures c[0].0 == "temperature_c" && c[1].0 == "temperature_f" && c[2].0 == "feels_like_c"
    ensures c[3].0 == "feels_like_f" && c[4].0 == "condition" && c[5].0 == "humidity"
    ensures c[0].1.JInt? && c[1].1.JInt? && c[5].1.JInt?
  {
    PlanKeys();
    var read := Reader(cur);
    assert c[0].1 == read(ConditionsPlan[0].1).value;
    assert c[1].1 == read(ConditionsPlan[1].1).value;
    assert c[5].1 == read(ConditionsPlan[5].1).value;
    IntReading(cur, ConditionsPlan[0].1);
    IntReading(cur, ConditionsPlan[1].1);
    IntReading(cur, ConditionsPlan[5].1);
  }

  /** The keys of the current-conditions dict that the comparison reads, and where they sit. */
  lemma PlanKeys()
    ensures |ConditionsPlan| == 14
    ensures ConditionsPlan[0].0 == "temperature_c" && ConditionsPlan[1].0 == "temperature_f"
    ensures ConditionsPlan[2].0 == "feels_like_c" && ConditionsPlan[3].0 == "feels_like_f"
    ensures ConditionsPlan[4].0 == "condition" && ConditionsPlan[5].0 == "humidity"
    ensures ConditionsPlan[0].1 == Value(Leaf([Key("temp_C")], AsInt))
    ensures ConditionsPlan[1].1 == Value(Leaf([Key("temp_F")], AsInt))
    ensures ConditionsPlan[5].1 == Value(Leaf([Key("humidity")], AsInt))
  {
  }

  /** A successful read converted with `int(...)` is an integer. */
  lemma IntReading(root: Json, f: Field)
    requires f.Value? && f.leaf.conv == AsInt && Reader(root)(f).Success?
    ensures Reader(root)(f).value.JInt?
  {
    assert Reader(root)(f) == LeafValue(f.leaf, root);
  }

  lemma CurrentReading(a: Fields, c: Fields, k: string, n: nat)
    requires n < |c| && c[n].0 == k && forall m :: 0 <= m < n ==> c[m].0 != k
    requires |a| == 3 && a[0].0 == "location" && a[1].0 == "region" && a[2].0 == "country"
    requires k !in ["location", "region", "country"]
    ensures Get(a + c, k) == Some(c[n].1)
  {
    GetFrom(c, n, k);
    GetConcat(a, c, k);
    AreaLacks(a, k);
  }

  /** The area part of the current-weather dict holds only its three keys. */
  lemma AreaLacks(a: Fields, k: string)
    requires |a| == 3 && a[0].0 == "location" && a[1].0 == "region" && a[2].0 == "country"
    requires k !in ["location", "region", "country"]
    ensures Get(a, k) == None
  {
    assert a[1..][0] == a[1] && a[1..][1..] == a[2..] && a[2..][0] == a[2] && a[2..][1..] == [];
  }

  /** A lookup in two dicts joined end to end finds the first one's value before the second's. */
  lemma {:induction false} GetConcat(a: Fields, c: Fields, k: string)
    ensures Get(a + c, k) == if Get(a, k).Some? then Get(a, k) else Get(c, k)
  {
    if a != [] {
      assert (a + c)[1..] == a[1..] + c;
      GetConcat(a[1..], c, k);
    } else {
      assert a + c == c;
    }
  }

  function Distance(a: int, b: int): nat {
    if a < b then b - a else a - b
  }

  /** The `comparison` block as `compare_weather` means it, for two comparable dicts. */
  function ExpectedBlock(w1: Fields, w2: Fields): Fields
    requires Comparable(w1) && Comparable(w2)
  {
    var t1, t2 := Get(w1, "temperature_c").value.i, Get(w2, "temperature_c").value.i;
    var f1, f2 := Get(w1, "temperature_f").value.i, Get(w2, "temperature_f").value.i;
    var h1, h2 := Get(w1, "humidity").value.i, Get(w2, "humidity").value.i;
    var n1, n2 := Get(w1, "location").value, Get(w2, "location").value;
    [("temperature_difference_c", JInt(Distance(t1, t2))),
     ("temperature_difference_f", JInt(Distance(f1, f2))),
     ("warmer_location", if t1 > t2 then n1 else n2),
     ("humidity_difference", JInt(Distance(h1, h2))),
     ("more_humid", if h1 > h2 then n1 else n2)]
  }

  /**
   * Two comparable dicts always compare: the differences are the distances
   * between the readings, and location 1 is named warmer (or more humid) only
   * when its reading is strictly larger; on a tie location 2 is named.
   */
  lemma {:induction false} ComparisonOfReadings(w1: Fields, w2: Fields)
    requires Comparable(w1) && Comparable(w2)
    ensures Comparison(JObj(w1), JObj(w2)).Success?
    ensures var c := Comparison(JObj(w1), JObj(w2)).value;
      |c| == 3 && c[2] == ("comparison", JObj(ExpectedBlock(w1, w2)))
  {
    SummaryBuilds(w1, w2);
    SummaryBuilds(w2, w1);
    BlockBuilds(w1, w2);
  }

  lemma SummaryBuilds(w1: Fields, w2: Fields)
    requires Comparable(w1)
    ensures Build(SummaryPlan, Cells(JObj(w1), JObj(w2))).Success?
  {
    forall i | 0 <= i < |SummaryPlan|
      ensures Cells(JObj(w1), JObj(w2))(SummaryPlan[i].1).Success?
    {
    }
  }

  lemma BlockBuilds(w1: Fields, w2: Fields)
    requires Comparable(w1) && Comparable(w2)
    ensures Build(ComparisonPlan, Cells(JObj(w1), JObj(w2))) == Success(ExpectedBlock(w1, w2))
  {
    var cells := Cells(JObj(w1), JObj(w2));
    var e := ExpectedBlock(w1, w2);
    PlanCells();
    ExpectedKeys(w1, w2);
    forall i | 0 <= i < 5
      ensures cells(ComparisonPlan[i].1) == Success(e[i].1)
    {
      if i == 0 {
        DiffCell(w1, w2, "temperature_c");
      } else if i == 1 {
        DiffCell(w1, w2, "temperature_f");
      } else if i == 2 {
        LargerCell(w1, w2, "temperature_c");
      } else if i == 3 {
        DiffCell(w1, w2, "humidity");
      } else {
        LargerCell(w1, w2, "humidity");
      }
    }
    var r := Build(ComparisonPlan, cells);
    assert |r.value| == 5;
    forall i | 0 <= i < 5
      ensures r.value[i] == e[i]
    {
    }
    SameEntries(r.value, e);
  }

  /** Two dicts with the same entries at every position are the same dict. */
  lemma SameEntries(a: Fields, b: Fields)
    requires |a| == |b| && forall i :: 0 <= i < |a| ==> a[i] == b[i]
    ensures a == b
  {
  }

  /** The cells of the comparison block, in order. */
  lemma PlanCells()
    ensures |ComparisonPlan| == 5
    ensures ComparisonPlan[0].1 == Diff("temperature_c") && ComparisonPlan[1].1 == Diff("temperature_f")
    ensures ComparisonPlan[2].1 == Larger("temperature_c") && ComparisonPlan[3].1 == Diff("humidity")
    ensures ComparisonPlan[4].1 == Larger("humidity")
  {
  }

  /** The expected block has the plan's keys, in the plan's order. */
  lemma ExpectedKeys(w1: Fields, w2: Fields)
    requires Comparable(w1) && Comparable(w2)
    ensures |ExpectedBlock(w1, w2)| == 5
    ensures forall i :: 0 <= i < 5 ==> ExpectedBlock(w1, w2)[i].0 == ComparisonPlan[i].0
  {
  }

  lemma DiffCell(w1: Fields, w2: Fields, k: string)
    requires Get(w1, k).Some? && Get(w1, k).value.JInt? && Get(w2, k).Some? && Get(w2, k).value.JInt?
    ensures Cells(JObj(w1), JObj(w2))(Diff(k)) == Success(JInt(Distance(Get(w1, k).value.i, Get(w2, k).value.i)))
  {
  }

  lemma LargerCell(w1: Fields, w2: Fields, k: string)
    requires Get(w1, "location").Some? && Get(w2, "location").Some?
    requires Get(w1, k).Some? && Get(w1, k).value.JInt? && Get(w2, k).Some? && Get(w2, k).value.JInt?
    ensures Cells(JObj(w1), JObj(w2))(Larger(k)) ==
              Success(if Get(w1, k).value.i > Get(w2, k).value.i then Get(w1, "location").value else Get(w2, "location").value)
  {
    var a, b := Get(w1, k).value, Get(w2, k).value;
    assert Less(b, a) == Success(a.i > b.i) by {
      assert Number(a) == Some(a.i as real) && Number(b) == Some(b.i as real);
    }
    assert Cells(JObj(w1), JObj(w2))(Larger(k)) == LargerLocation(JObj(w1), JObj(w2), k);
  }


  /**
   * When both locations' weather is fetched, the comparison succeeds and its
   * block is the expected one: absolute differences, and location 1 named
   * only when its reading is strictly larger.
   */
  lemma CompareFetched(location1: string, location2: string, fetch: string -> Fetch)
    requires !Blank(location1) && !Blank(location2)
    requires CurrentWeather(location1, fetch).Success? && CurrentWeather(location2, fetch).Success?
    ensures var w1, w2 := CurrentWeather(location1, fetch).value, CurrentWeather(location2, fetch).value;
      && Comparable(w1) && Comparable(w2)
      && CompareWeather(location1, location2, fetch).Success?
      && |CompareWeather(location1, location2, fetch).value| == 3
      && CompareWeather(location1, location2, fetch).value[2] == ("comparison", JObj(ExpectedBlock(w1, w2)))
  {
    WeatherComparable(location1, fetch);
    WeatherComparable(location2, fetch);
    var w1, w2 := CurrentWeather(location1, fetch).value, CurrentWeather(location2, fetch).value;
    ComparisonOfReadings(w1, w2);
    var c := Comparison(JObj(w1), JObj(w2));
    var r := CompareWeather(location1, location2, fetch);
    assert r.Success? && c == Success(r.value);
  }

  /** A successful `get_current_weather` result can be compared. */
  lemma WeatherComparable(location: string, fetch: string -> Fetch)
    requires CurrentWeather(location, fetch).Success?
    ensures Comparable(CurrentWeather(location, fetch).value)
  {
    ReportComparable(fetch(Url(location)).data);
  }
}

=== FILE: wrappers.dfy ===
/** Option and Result values used for Python's `None` and for raised exceptions. */
module Wrappers {

  datatype Option<+T> = None | Some(value: T) {
    function GetOr(default: T): T {
      match this
      case Some(v) => v
      case None => default
    }
  }

  datatype Result<+T, +E> = Success(value: T) | Failure(error: E)
}
